=== FILE: README.md ===
# jsonapi-client in Dafny

A model of the in-memory core of `jsonapi_client`, a Python client for JSON:API 1.0
servers, with proofs of what that core promises. The network transport is not modelled.
What is modelled:

- the attribute container of a resource (`AttributeDict`): a tree of ordered dicts that
  tracks which fields changed, and builds PATCH bodies (`diff`) and POST bodies
  (`post_data`) from them;
- the relationship container (`RelationshipDict`) and the choice of relationship class for
  a payload;
- a resource (`ResourceObject`): dirtiness, commit payload, commit URL, the state update
  after a commit, deletion and invalidation;
- the session: model schemas (`Schema`), the resource cache, `create`, the mode guards and
  the request URLs;
- query modifiers (`Filter`, `SparseFieldset`, `Include`, `Sort`, raw modifiers and sums);
- links, link containers, meta, resource identifiers, HTTP status classes and the
  translation between JSON names and Python names.

Python dicts keep insertion order, and that order shows in payloads and query strings. So
every dict is an association list (`seq<(K, V)>`, module `Assoc`) whose lookups, writes and
deletions follow the dict's. JSON values are the datatype `Json.Json`. Errors the library
raises are values of `Errors.Error`, returned in a `Result`.

The attribute tree is an immutable value. `AttributeDict` objects point to their parents,
and `mark_dirty` climbs those pointers. The model has no such pointers: a write to a
nested container names that container by its path of keys from the root
(`Attributes.EditAt`). The climb then becomes the rewrap of each ancestor on the way back
up. Object identity matters only in the session cache. There, resources live in a heap
indexed by references, and the caches hold references (`Sessions.Session`).

Inputs from outside become parameters:

- the JSON Schema validator is a predicate `conforms` in `Resources.Env`;
- the behaviour of the relationship classes, which live in a module that is not part of
  this model, is a function `Interp` from a class and a payload to what the resource reads
  from a relationship;
- the resource a response parses to is a parameter of `Resources.PostCommit`.

Modules, one per file:

| module | file |
|---|---|
| `Wrappers` | `Option` and `Result` |
| `Errors` | the library's exceptions |
| `Strings` | the Python `str` methods used: `split`, `join`, `replace`, `startswith` |
| `Assoc` | insertion-ordered dicts |
| `Json` | JSON values |
| `Utils` | name translation (`utils.py`) |
| `Http` | status classes, methods, error titles (`http.py`) |
| `Objects` | `Link`, `Links`, `Meta`, `ResourceIdentifier` (`objects.py`) |
| `Modifiers` | query modifiers (`modifiers.py`) |
| `ModifiersExamples` | the expected strings of `tests/test_modifiers.py` |
| `Schemas` | `Schema` (`session.py`) |
| `Attributes` | `AttributeDict` (`resourceobject.py`) |
| `Relationships` | `RelationshipDict` (`resourceobject.py`) |
| `Resources` | `ResourceObject` (`resourceobject.py`) |
| `Sessions` | `Session` (`session.py`) |

## Model

| member | source | states |
|---|---|---|
| Utils.JsonifyName | jsonapi_client/utils.py:36-37 | a JSON name never contains `_`: every `__` became `.` and every other `_` became `-` |
| Utils.PythonifyName | jsonapi_client/utils.py:40-41 | a Python name never contains `.` or `-` |
| Utils.JsonifyNames | jsonapi_client/utils.py:44-46 | the list is translated element-wise, keeping its length and order |
| Utils.PythonifyNames | jsonapi_client/utils.py:49-51 | the list is translated element-wise, keeping its length and order |
| Utils.ReplaceRemovesChar | jsonapi_client/utils.py:37 | replacing a character with text that lacks it leaves no occurrence of it |
| Utils.ReplaceKeepsAbsent | jsonapi_client/utils.py:37 | `replace` introduces no character that neither the input nor the replacement holds |
| Utils.JsonifyStep | jsonapi_client/utils.py:36-37 | the translation scans left to right: a leading `__` gives `.`, a lone leading `_` gives `-`, any other character is kept |
| Utils.PythonifyStep | jsonapi_client/utils.py:40-41 | `.` gives `__`, `-` gives `_`, any other character is kept, one character at a time |
| Utils.PythonifyJsonify | jsonapi_client/utils.py:36-41 | round trip: a name without `.` or `-` comes back unchanged from jsonify then pythonify |
| Utils.PythonifyJsonifyNames | jsonapi_client/utils.py:44-51 | the same round trip for lists of names |
| Utils.JsonifyPlain | jsonapi_client/utils.py:36-37 | a name without `_` is already a JSON name |
| Utils.PythonifyNotInjective | jsonapi_client/utils.py:40-41 | the other round trip fails: `-.` and `.-` both become `___`, which jsonifies to `.-` |
| Strings.Replace | jsonapi_client/utils.py:37 | replacing a pattern by itself changes nothing |
| Strings.SplitFirst | jsonapi_client/modifiers.py:127 | `split(sep, maxsplit=1)`: no result iff the separator is absent; otherwise the head lacks it and head, separator and tail rebuild the string |
| Strings.Split | jsonapi_client/modifiers.py:125 | `split(sep)` always yields at least one piece |
| Strings.SplitPiecesLackSep | jsonapi_client/modifiers.py:125 | no piece of a split contains the separator |
| Strings.JoinSplit | jsonapi_client/modifiers.py:125 | joining the pieces of a split with the same separator gives the string back |
| Strings.SplitJoin | jsonapi_client/modifiers.py:143 | splitting a join of separator-free pieces gives the pieces back |
| Strings.SplitAround | jsonapi_client/session.py:80 | splitting `a.b` on `.` is the split of `a` followed by the split of `b` |
| Strings.SplitFirstAt | jsonapi_client/modifiers.py:127 | the first separator of `a + sep + b`, with `a` free of it, splits off exactly `a` and `b` |
| Strings.JoinConcat | jsonapi_client/modifiers.py:77 | joining two non-empty lists is joining each, with one separator between |
| Strings.ReplaceSkip | jsonapi_client/utils.py:37 | `replace` copies text before the first character of the pattern unchanged |
| Strings.ReplaceFront | jsonapi_client/utils.py:37 | an occurrence at the front is replaced and the scan continues after it |
| Strings.ReplaceLacking | jsonapi_client/utils.py:37 | text that cannot contain the pattern is left unchanged |
| Assoc.Get | jsonapi_client/session.py:95 | `d.get(k)` finds a value iff `k` is a key, and the value is that entry's |
| Assoc.Put | jsonapi_client/modifiers.py:129 | `d[k] = v`: an existing key keeps its position, a new key goes last; `k` now maps to `v` and every other key keeps its value |
| Assoc.PutDistinct | jsonapi_client/modifiers.py:129 | a write keeps keys distinct |
| Assoc.PutSame | jsonapi_client/resourceobject.py:165 | writing the value a key already holds changes nothing |
| Assoc.PutNew | jsonapi_client/modifiers.py:129 | a write of a new key appends it |
| Assoc.PutTwice | jsonapi_client/resourceobject.py:525-527 | two writes of different keys: both keys hold their values, nothing else changes, keys stay distinct |
| Assoc.Remove | jsonapi_client/session.py:160 | `del d[k]` keeps every other key's value and adds no key |
| Assoc.RemoveAbsent | jsonapi_client/resourceobject.py:121 | removing a key that is not there (as `pop` with a default does) leaves the dict as it was |
| Assoc.RemoveOrder | jsonapi_client/session.py:160 | removal cuts out exactly the entry holding the key, and the remaining entries keep their order |
| Assoc.RemoveGone | jsonapi_client/session.py:160 | after `del d[k]` on a dict with distinct keys, `k` is gone and keys stay distinct |
| Assoc.Update | jsonapi_client/session.py:198 | `d.update(e)`: a key of `e` takes `e`'s value, every other key keeps `d`'s |
| Assoc.UpdateKeys | jsonapi_client/session.py:198 | `d.update(e)` keeps `d`'s keys in place and appends the keys only `e` has, in `e`'s order |
| Assoc.UpdateDistinct | jsonapi_client/session.py:198 | `d.update(e)` of two dicts never repeats a key |
| Assoc.DistinctKeysPairwise | jsonapi_client/resourceobject.py:78 | a dict's keys are distinct: the recursive definition agrees with "no two positions share a key" |
| Assoc.GetDistinct | jsonapi_client/resourceobject.py:201 | in a dict with distinct keys, each entry is what a lookup of its key finds |
| Json.Pop | jsonapi_client/resourceobject.py:121 | `data.pop(key, default)` yields the stored value or the default; the key is gone from a dict without repeated keys, every other key keeps its value, the remaining members keep their order, and an absent key leaves the dict unchanged |
| Json.MemberSmaller | jsonapi_client/session.py:82 | a member of an object is strictly smaller than the object |
| Http.ClassOf | jsonapi_client/http.py:107-125 | each status class is its closed hundred range, and no code is in two classes |
| Http.HasResourceIsSuccess | jsonapi_client/http.py:127-129 | a code that carries the resource (200, 201) is a success, and 202 is a success without one |
| Http.ErrorFromResponse | jsonapi_client/http.py:138-143 | any result other than `'?'` is the `title` of the first element of the body's `errors` |
| Http.ErrorFromResponseFound | jsonapi_client/http.py:138-143 | when that path exists, its title is the result |
| Http.MethodNamesDistinct | jsonapi_client/http.py:132-135 | the three write methods have three different names |
| Objects.MetaGet | jsonapi_client/objects.py:96-97 | `meta[name]` is the stored value, or `None` when absent; non-object data has no lookup |
| Objects.MetaAttr | jsonapi_client/objects.py:93-94 | `Meta.__getattr__(name)` is `meta.get` of the jsonified name (so `total_count` reads `total-count`); a name without `_` reads the same key as `meta[name]`, and an absent key gives `None` |
| Objects.LinkFrom | jsonapi_client/objects.py:109-117 | a falsy value gives the empty link; a string is the href; an object needs an `href` member, and a string `href` is kept while a falsy one (`null`, `0`, `[]`, ...) gives a falsy link; `meta` is read, `{}` when absent; any other value fails |
| Objects.LinkUrl | jsonapi_client/objects.py:125-130 | an href with a URL scheme is the URL, any other is put after the server URL |
| Objects.LinkUrlAbsolute | jsonapi_client/objects.py:125-130 | a URL resolved against a `scheme://netloc` server URL has a scheme, so resolving it again changes nothing |
| Objects.LinkStr | jsonapi_client/objects.py:132-133 | `str(link)` is empty iff the link is falsy, and otherwise is its URL |
| Objects.LinksFrom | jsonapi_client/objects.py:158-159 | an object whose members all give links succeeds; a success has the members' names in the same order, each holding the link built from its value |
| Objects.LinksGet | jsonapi_client/objects.py:161-162 | a missing name gives an empty, falsy link, a present one its link |
| Objects.OptionalString | jsonapi_client/objects.py:180-182 | a missing or null member reads as `None`, a string as itself |
| Objects.IdentifierFrom | jsonapi_client/objects.py:180-182 | missing `id` and `type` read as `None`; each is read as an optional string member |
| Objects.IdentifierUrl | jsonapi_client/objects.py:184-186 | the URL lies under the prefix and is `prefix/type/id` for a typed identifier |
| Objects.AsIdentifierDict | jsonapi_client/objects.py:205-206 | `{'id', 'type'}` in that order exactly when the id is truthy, otherwise `None` |
| Modifiers.UrlWithModifiers | jsonapi_client/modifiers.py:47-55 | the URL starts with `base?`, and for a base without `?` its first `?` separates the base from the query |
| Modifiers.Add | jsonapi_client/modifiers.py:61-68 | a sum's operands are those of the left then those of the right, one level of sums flattened |
| Modifiers.QueryFlatten | jsonapi_client/modifiers.py:71-77 | a modifier's query is the `&`-join of the queries of its operands |
| Modifiers.AddAssociative | jsonapi_client/modifiers.py:61-77 | `(a+b)+c` and `a+(b+c)` are the same sum, with the same query |
| Modifiers.AddQuery | jsonapi_client/modifiers.py:61-77 | the query of `a+b` is `a`'s query, `&`, then `b`'s |
| Modifiers.Pairs | jsonapi_client/modifiers.py:142 | one `k=v` piece per parameter, in dict order |
| Modifiers.Queries | jsonapi_client/modifiers.py:77 | one query per operand, in order |
| Modifiers.ParseFails | jsonapi_client/modifiers.py:125-129 | parsing `query_str` fails iff a non-empty segment has no `=` |
| Modifiers.ParseKeepsOthers | jsonapi_client/modifiers.py:125-129 | a key no segment names keeps its value, and no key is lost |
| Modifiers.ParseLastWins | jsonapi_client/modifiers.py:125-129 | a repeated key ends with the value of its last segment |
| Modifiers.ParsePairs | jsonapi_client/modifiers.py:125-129 | segments `k=v` with fresh, distinct keys parse to exactly those pairs, appended in order |
| Modifiers.PairsReparse | jsonapi_client/modifiers.py:125-143 | round trip: the query of distinct parameters parses back to the same parameters |
| Modifiers.FilterReparse | jsonapi_client/modifiers.py:108-143 | a filter built from its own query equals the original filter |
| Modifiers.ParseOnePair | jsonapi_client/modifiers.py:125-129 | a single `k=v` segment parses to that pair |
| Modifiers.NamedKeyPlain | jsonapi_client/modifiers.py:135 | a named parameter without `_` goes under `keyword[name]` |
| Modifiers.AddNamedOne | jsonapi_client/modifiers.py:133-138 | a named parameter is appended after a comma to a non-empty value under its key and set otherwise; other keys are untouched and none is lost |
| Modifiers.AddNamed | jsonapi_client/modifiers.py:133-138 | keys no named parameter maps to keep their values, and no key is lost |
| Modifiers.MakeFilter | jsonapi_client/modifiers.py:108-138 | construction fails iff `query_str` is malformed; without named parameters the filter holds exactly the parsed pairs |
| Modifiers.MakeFilterParsed | jsonapi_client/modifiers.py:108-138 | a filter is the parsed `query_str` followed by its named parameters |
| Modifiers.FilterNamedOnly | jsonapi_client/modifiers.py:133-138 | one named parameter alone gives one `keyword[name]` pair |
| Modifiers.FilterNamedMerges | jsonapi_client/modifiers.py:136-138 | a named parameter whose key `query_str` already gave a non-empty value is joined to it with a comma |
| Modifiers.FilterPlainNamedMerges | jsonapi_client/modifiers.py:133-138 | the same merge spelled out for a name without `_` |
| Modifiers.FilterLaterSegmentWins | jsonapi_client/modifiers.py:128-129 | of two segments with one key, the later value is kept |
| Modifiers.FilterRejectsBareSegment | jsonapi_client/modifiers.py:127 | a segment without `=` makes the filter fail |
| Modifiers.ListedQuery | jsonapi_client/modifiers.py:164-166 | an include or sort query splits at its first `=` into the keyword and the comma-joined values, which split back into the values |
| ModifiersExamples.RawExample | tests/test_modifiers.py:4-8 | a raw modifier's URL is `url?query` |
| ModifiersExamples.IncludeExample | tests/test_modifiers.py:11-14 | the query of `Include('something', 'something_else')` is `include=something,something_else` |
| ModifiersExamples.IncludeUrl | tests/test_modifiers.py:11-14 | on any base URL, that modifier gives `url?include=something,something_else` |
| ModifiersExamples.SortExample | tests/test_modifiers.py:17-20 | the query of `Sort('something', 'something_else')` is `sort=something,something_else` |
| ModifiersExamples.SortUrl | tests/test_modifiers.py:17-20 | on any base URL, that modifier gives `url?sort=something,something_else` |
| ModifiersExamples.SumExample | tests/test_modifiers.py:23-34 | both groupings of a sum give `item1=1&item2=2&item3=3` |
| ModifiersExamples.JsonifyExample | tests/test_modifiers.py:45-46 | the parameter `rel1__arg1` is named `rel1.arg1` |
| ModifiersExamples.OnePairUrl | jsonapi_client/modifiers.py:141-143 | on any base URL, a filter holding the single pair `(k, v)` has the URL `url?k=v` |
| ModifiersExamples.ExpectedQueries | tests/test_modifiers.py:40-70 | each expected query string of the filter and fieldset tests decomposes as `?` + key + `=` + value, the form the `…Url` lemmas use |
| ModifiersExamples.FilterQueryExample | tests/test_modifiers.py:39 | `Filter('filter[hello]=world')` holds the single pair `filter[hello]` = `world` |
| ModifiersExamples.FilterQueryUrl | tests/test_modifiers.py:39-40 | on any base URL, that filter gives `url?filter[hello]=world` |
| ModifiersExamples.FilterNamedExample | tests/test_modifiers.py:42 | `arg1='1'` gives the single pair `filter[arg1]` = `1` |
| ModifiersExamples.FilterNamedUrl | tests/test_modifiers.py:42-43 | on any base URL, that filter gives `url?filter[arg1]=1` |
| ModifiersExamples.FilterMergeExample | tests/test_modifiers.py:48 | a named `hello` is merged into the parsed pair, giving `filter[hello]` = `world,universe` |
| ModifiersExamples.FilterMergeUrl | tests/test_modifiers.py:48-49 | on any base URL, that filter gives `url?filter[hello]=world,universe` |
| ModifiersExamples.FilterRepeatedKeyExample | tests/test_modifiers.py:51 | of two segments with the same key, the later one is kept: `filter[hello]` = `universe` |
| ModifiersExamples.FilterRepeatedKeyUrl | tests/test_modifiers.py:51-52 | on any base URL, that filter gives `url?filter[hello]=universe` |
| ModifiersExamples.FieldsetMergeExample | tests/test_modifiers.py:69 | a sparse fieldset merges the named value into `fields[myclazz]` = `attr1,attr2` |
| ModifiersExamples.FieldsetMergeUrl | tests/test_modifiers.py:69-70 | on any base URL, that fieldset gives `url?fields[myclazz]=attr1,attr2` |
| ModifiersExamples.FilterMissingEqualsExample | jsonapi_client/modifiers.py:127 | a segment without `=` is rejected |
| Schemas.SchemaForModel | jsonapi_client/session.py:94-95 | without schema data every type's schema is `{}`; with it, an unknown type's is `None` and a known type's is its entry |
| Schemas.AddModelSchema | jsonapi_client/session.py:87-88 | the given types' schemas replace earlier ones and other types keep theirs; without schema data the update fails |
| Schemas.Subscript | jsonapi_client/session.py:82 | `v[k]` succeeds iff `v` is an object holding `k`, a missing key is a `KeyError` |
| Schemas.FindSpec | jsonapi_client/session.py:65-85 | `meta`, any path ending in `.meta`, and a type without a schema give `{}`; the empty path gives the type's schema |
| Schemas.Validate | jsonapi_client/session.py:97-104 | validation fails iff the type has a schema and the data does not conform to it; without schema data it never fails |
| Schemas.WalkCompose | jsonapi_client/session.py:80-85 | walking a path in two parts is walking the first part and, from where it ends, the second |
| Schemas.WalkStep | jsonapi_client/session.py:82-84 | one step reads `properties` and descends into a present, non-null member; otherwise the walk stops |
| Schemas.WalkSmaller | jsonapi_client/session.py:80-85 | each step descends two levels into the model |
| Schemas.FindSpecMissing | jsonapi_client/session.py:82-84 | a first segment the model lacks gives `{}`, whatever follows |
| Schemas.FindSpecChild | jsonapi_client/session.py:80-85 | the spec of `parent.child` is one step from the spec of `parent` |
| Attributes.ToJson | jsonapi_client/resourceobject.py:78 | a container reads as a JSON object with the same keys in the same order |
| Attributes.Current | jsonapi_client/resourceobject.py:163 | `self.get(key)` is the stored value, or `None` when absent |
| Attributes.FreshSound | jsonapi_client/resourceobject.py:135-139 | a container as its constructor leaves it is well formed, clean and valid at every level |
| Attributes.Build | jsonapi_client/resourceobject.py:89-139 | construction needs an object and yields a fresh tree: distinct keys, every nested container fresh; with no recursion budget left it fails |
| Attributes.BuildSound | jsonapi_client/resourceobject.py:89-139 | a constructed container is well formed, clean and valid at every level |
| Attributes.SchemaFields | jsonapi_client/resourceobject.py:118-129 | the schema-driven loop keeps the entries fresh |
| Attributes.SchemaField | jsonapi_client/resourceobject.py:120-129 | one schema property keeps the entries fresh |
| Attributes.ExtraFields | jsonapi_client/resourceobject.py:135-138 | the loop over the remaining data keeps the entries fresh |
| Attributes.BuildPlain | jsonapi_client/resourceobject.py:135-139 | without a schema, a container built from an object reads back as that object |
| Attributes.BuildNoSchema | jsonapi_client/resourceobject.py:131-139 | without a schema only the remaining-data loop runs, and the result is clean |
| Attributes.ExtraFieldsPlain | jsonapi_client/resourceobject.py:135-138 | without a schema, the remaining data is copied in order and the construction-time marking flag is unchanged |
| Attributes.ExtraFieldsStep | jsonapi_client/resourceobject.py:136-138 | one member of the remaining data is appended, nested as a container when it is an object |
| Attributes.ApplyLeaf | jsonapi_client/resourceobject.py:141-181 | `d[key] = v` stores `v` and marks `key` iff `v` differs from `d.get(key)`; `mark_dirty` marks; `create_map` on an invalid container fails and otherwise stores a fresh nested container; no other field changes |
| Attributes.EditAt | jsonapi_client/resourceobject.py:173-181 | an edit changes only the field its path starts with, adds it to the dirty set iff the edit marked, keeps validity; a missing first key is a `KeyError`, and success needs the whole path to exist |
| Attributes.EditAtSucceeds | jsonapi_client/resourceobject.py:173-181 | an edit at a path succeeds iff the path leads to a container and the edit succeeds there |
| Attributes.EditAtReadBack | jsonapi_client/resourceobject.py:162-181 | after an edit, the container at the path is the edited container |
| Attributes.EditAtMarkedFlag | jsonapi_client/resourceobject.py:179-181 | the root is told of a change iff the edited container was marked |
| Attributes.EditAtReadsEdited | jsonapi_client/resourceobject.py:162-181 | reading along the path after an edit finds the edited container |
| Attributes.EditAtMarksAncestors | jsonapi_client/resourceobject.py:179-181 | a marking edit marks every field on the path from the root down |
| Attributes.MarkedAlongStep | jsonapi_client/resourceobject.py:179-181 | a marked chain below a marked first field is marked from the top |
| Attributes.PutWF | jsonapi_client/resourceobject.py:162-165 | a write that keeps dirty names as keys and lists a dirty child keeps the tree well formed |
| Attributes.ApplyLeafWF | jsonapi_client/resourceobject.py:141-181 | every edit of a well-formed container, except marking a name that is not a key, keeps it well formed |
| Attributes.EditAtWF | jsonapi_client/resourceobject.py:173-181 | every edit at any depth, except marking a name that is not a key, keeps the tree well formed, so a dirty child is always listed in its parent's dirty set |
| Attributes.SetItemIdempotent | jsonapi_client/resourceobject.py:162-165 | writing the same value twice leaves the second write unmarked and the tree unchanged |
| Attributes.SetItemAt | jsonapi_client/resourceobject.py:162-165 | a write at a path succeeds iff the path exists, stores the value, and marks iff the value differs from the old one |
| Attributes.MarkClean | jsonapi_client/resourceobject.py:183-191 | cleaning empties the dirty set and keeps the keys; it fails iff a dirty name is not a key or a dirty child fails |
| Attributes.CleanEntries | jsonapi_client/resourceobject.py:187-190 | cleaning the entries from a position keeps their keys |
| Attributes.WFDirtyIffDeep | jsonapi_client/resourceobject.py:225-227 | in a well-formed tree, `is_dirty` of the root holds iff some container at any depth is dirty |
| Attributes.MarkCleanSound | jsonapi_client/resourceobject.py:183-191 | cleaning a well-formed tree succeeds and leaves it well formed, clean at every level and with the same content |
| Attributes.CleanEntriesSound | jsonapi_client/resourceobject.py:187-190 | cleaning keeps every entry's key and content and leaves nested containers clean |
| Attributes.CleanValueSound | jsonapi_client/resourceobject.py:188-190 | cleaning one value keeps its content and leaves it clean |
| Attributes.MarkCleanNeedsWF | jsonapi_client/resourceobject.py:187-190 | cleaning only descends into dirty fields: without the invariant, a dirty child under a clean field stays dirty |
| Attributes.Diff | jsonapi_client/resourceobject.py:193-206 | a diff is an object, and an invalid container has none |
| Attributes.DiffSucceeds | jsonapi_client/resourceobject.py:193-206 | a well-formed, valid tree has a diff |
| Attributes.DiffSpec | jsonapi_client/resourceobject.py:193-206 | the diff's keys are exactly the dirty names, without repeats; a dirty nested container contributes its own diff, any other value is copied |
| Attributes.DiffEntriesKeys | jsonapi_client/resourceobject.py:200-205 | from a position on, the diff holds a key iff it is dirty and present there |
| Attributes.DiffEntriesDistinct | jsonapi_client/resourceobject.py:200-205 | the diff has no repeated key |
| Attributes.DiffEntriesValues | jsonapi_client/resourceobject.py:200-205 | each dirty field's diff value is the one computed for it |
| Attributes.DiffAfterClean | jsonapi_client/resourceobject.py:183-206 | after cleaning, the diff is empty |
| Attributes.PostData | jsonapi_client/resourceobject.py:208-223 | post data is an object, and an invalid container has none |
| Attributes.PostDataSucceeds | jsonapi_client/resourceobject.py:208-223 | a tree with no invalid container has post data |
| Attributes.PostDataSpec | jsonapi_client/resourceobject.py:208-223 | post data has no repeats, only the container's keys and no null; a non-null plain value is kept, a null dropped, and a nested container gives its own post data unless that is empty |
| Attributes.PostValueCases | jsonapi_client/resourceobject.py:215-222 | what each entry contributes: nothing for `None` or an emptied container, otherwise its value |
| Attributes.PostDataExample | jsonapi_client/resourceobject.py:208-223 | `{a: 1, b: null, c: {d: null}}` posts as `{a: 1}` |
| Attributes.MarkInvalidAll | jsonapi_client/resourceobject.py:229-236 | afterwards every container of the tree is invalid, and the content and dirty names are unchanged |
| Attributes.AtAllInvalid | jsonapi_client/resourceobject.py:229-236 | every nested container of an invalidated tree is invalid |
| Attributes.InvalidatedRejects | jsonapi_client/resourceobject.py:141-153 | after invalidation, `diff`, `post_data` and `create_map` at any depth fail with `DocumentInvalid` |
| Attributes.KeysPython | jsonapi_client/resourceobject.py:248-252 | the keys in Python form, one per entry, in order |
| Relationships.HasKey | jsonapi_client/resourceobject.py:309 | `key in data`: an object tests its keys; lists and strings are searched; null, booleans and numbers fail |
| Relationships.DetermineClass | jsonapi_client/resourceobject.py:299-330 | a `data` list gives to-many and an object or null gives to-one, any other `data` is a validation error; otherwise `links` gives a link relationship; a meta relationship needs `meta` and no `links`; a null, boolean or number payload is a `TypeError` |
| Relationships.DetermineClassRule | jsonapi_client/resourceobject.py:309-330 | without a usable hint, a payload is accepted iff it has `links`, `data` or `meta` and any `data` is well shaped; with one, a payload with none of them takes the hint |
| Relationships.HintOnlyWhenBare | jsonapi_client/resourceobject.py:309-330 | the hint matters only for a payload with none of `links`, `data`, `meta` |
| Relationships.MakeRelationship | jsonapi_client/resourceobject.py:332-335 | a relationship is made iff its class can be chosen, starts clean and valid, and holds its payload |
| Relationships.BuildRels | jsonapi_client/resourceobject.py:260-283 | a new container is valid, with fresh relationships under distinct names; without a schema for the type, its names are exactly the payload members |
| Relationships.SchemaRels | jsonapi_client/resourceobject.py:271-279 | with a schema, the names are exactly the schema properties that declare a relation |
| Relationships.PlainRels | jsonapi_client/resourceobject.py:280-283 | without a schema, the names are exactly the payload members, and construction succeeds when every class can be chosen |
| Relationships.PutRel | jsonapi_client/resourceobject.py:278 | adding a fresh relationship keeps the container fresh with distinct names |
| Relationships.DirtyNames | jsonapi_client/resourceobject.py:350-352 | some relationship is dirty iff the set of dirty names is non-empty |
| Relationships.RelsMarkClean | jsonapi_client/resourceobject.py:337-342 | cleaning makes every relationship clean and changes nothing else |
| Relationships.RelsMarkInvalid | jsonapi_client/resourceobject.py:285-291 | invalidation marks the container and every relationship invalid and changes nothing else |
| Relationships.MarkCleanInvalidIndependent | jsonapi_client/resourceobject.py:285-342 | cleaning and invalidation commute, and invalidation keeps the dirty names |
| Relationships.BuiltClean | jsonapi_client/resourceobject.py:260-283 | a constructed container has no dirty relationship |
| Resources.ResourceFrom | jsonapi_client/resourceobject.py:438-454 | a resource reads `id` and `type` from its object; it starts well formed, clean, valid and not pending deletion; one with a truthy id has passed validation |
| Resources.ReadIsClean | jsonapi_client/resourceobject.py:476-481 | a resource read with a string id is not dirty |
| Resources.DirtyFields | jsonapi_client/resourceobject.py:498-501 | a name is a dirty field exactly when it is a dirty attribute or names a dirty relationship; the set is empty iff neither container is dirty |
| Resources.DirtyIffFieldsOrPending | jsonapi_client/resourceobject.py:476-501 | a resource is dirty iff it has no id, a delete is pending, or some field is dirty |
| Resources.Delete | jsonapi_client/resourceobject.py:649-653 | `delete()` only sets the pending flag, and the resource is then dirty |
| Resources.HttpMethod | jsonapi_client/resourceobject.py:550-552 | a commit is a POST iff the id is falsy, and never a DELETE |
| Resources.Url | jsonapi_client/resourceobject.py:503-506 | a truthy `self` link gives its URL; otherwise `None` for no id, `''` for an empty id; the URL is non-empty iff there is a self link or a truthy id |
| Resources.PostUrl | jsonapi_client/resourceobject.py:508-510 | the collection URL is `prefix/type`, so it strictly extends the URL prefix |
| Resources.UrlFromIdentifier | jsonapi_client/resourceobject.py:503-506 | without a self link, a resource's URL is its collection URL plus `/id`, which is also its identifier's URL |
| Resources.RelsPayload | jsonapi_client/resourceobject.py:532-541 | the names are exactly those of the relationships sent (non-empty ones for a full payload, dirty ones otherwise), each with its JSON form; distinct names stay distinct |
| Resources.RelsPayloadNoneSent | jsonapi_client/resourceobject.py:539-541 | when nothing is sent, the member is empty |
| Resources.CommitData | jsonapi_client/resourceobject.py:519-548 | the payload is `{'data': ...}` and exists iff the attributes can be serialised |
| Resources.PayloadBodyLookups | jsonapi_client/resourceobject.py:525-547 | each member of the body holds what was put under it, and no name repeats |
| Resources.TypeAndIdLookups | jsonapi_client/resourceobject.py:525-527 | the body starts with the type and, when given, the id |
| Resources.CommitDataSpec | jsonapi_client/resourceobject.py:519-548 | the body holds the type, the id iff truthy, `post_data` or `diff`, the sent relationships, and the metadata iff truthy, without repeats |
| Resources.AsJson | jsonapi_client/resourceobject.py:469-474 | the full JSON form exists iff the attributes have post data, and carries it |
| Resources.CleanPatchIsEmpty | jsonapi_client/resourceobject.py:519-548 | after cleaning, a PATCH of a resource with an id sends empty attributes and relationships |
| Resources.NewResourcePosts | jsonapi_client/resourceobject.py:519-552 | a resource without id is dirty, is POSTed with its post data, and has no `id` member |
| Resources.MarkClean | jsonapi_client/resourceobject.py:665-670 | cleaning both containers leaves the resource dirty only for a missing id or a pending delete, and changes nothing else |
| Resources.CleanableIfWF | jsonapi_client/resourceobject.py:665-670 | a well-formed resource can always be cleaned |
| Resources.UpdateResource | jsonapi_client/resourceobject.py:607-624 | the id, containers, meta and links come from the new resource; type, pending delete, metadata and validity stay |
| Resources.PostCommit | jsonapi_client/resourceobject.py:560-569 | afterwards both containers are clean; 200 and 201 take the response's id and attribute keys, other codes keep the old ones; only 202 returns the parsed resource; a well-formed source never fails |
| Resources.CreatedIsClean | jsonapi_client/resourceobject.py:560-569 | after a 201 the resource is not dirty and carries the created resource's id and attributes |
| Resources.AcceptedKeepsState | jsonapi_client/resourceobject.py:560-569 | after a 202 the resource keeps its id and attributes and the parsed resource is returned |
| Resources.MarkInvalid | jsonapi_client/resourceobject.py:672-680 | invalidation covers the resource and both containers at every depth, and keeps id, type and content |
| Resources.InvalidCannotCommit | jsonapi_client/resourceobject.py:519-548 | an invalidated resource has no commit payload: `DocumentInvalid` |
| Resources.PreCommitUrlAsWritten | jsonapi_client/resourceobject.py:554-558 | as written: a POST goes to the caller's URL or the collection URL, a PATCH always to the resource's URL |
| Resources.PreCommitIgnoresCustomUrl | jsonapi_client/resourceobject.py:554-558 | as written, a PATCH with a custom URL is not sent there |
| Resources.PreCommitUrl | jsonapi_client/resourceobject.py:592-605 | a given custom URL is always used, and the automatic choice applies otherwise |
| Resources.PreCommitUrlAgrees | jsonapi_client/resourceobject.py:554-558 | the two URL choices differ only for a PATCH with a custom URL |
| Resources.PreCommitValidates | jsonapi_client/resourceobject.py:512-517 | validation before a commit can fail only with a validation error, and never without schema data |
| Sessions.NewSession | jsonapi_client/session.py:117-137 | a new session's three caches are empty |
| Sessions.LinkKeyIsUrl | jsonapi_client/session.py:150 | the link `add_resources` indexes under is the resource's URL |
| Sessions.IndexLink | jsonapi_client/session.py:150-152 | a non-empty link is indexed to the resource, an empty one indexes nothing, other links are untouched |
| Sessions.AddResource | jsonapi_client/session.py:148-152 | adding keeps the cache consistent and touches only the two resource caches |
| Sessions.AddResourceIdentity | jsonapi_client/session.py:149 | the resource is found under `(type, id)`, and other identities are untouched |
| Sessions.AddResourceLink | jsonapi_client/session.py:150-152 | the resource is found under its URL when that is non-empty; otherwise the link cache is unchanged |
| Sessions.AddResources | jsonapi_client/session.py:144-152 | adding several keeps the cache consistent and touches only the resource caches |
| Sessions.AddResourcesIdentity | jsonapi_client/session.py:144-149 | each identity holds the last added resource with it, or its old entry |
| Sessions.AddResourcesLink | jsonapi_client/session.py:144-152 | each link holds the last added resource with it, or its old entry |
| Sessions.AddedAreCached | jsonapi_client/session.py:144-149 | a resource not followed by another with the same identity is found under its identity |
| Sessions.RemoveResource | jsonapi_client/session.py:154-161 | removal succeeds iff both the identity and the URL entry exist; the identity entry goes first, then the URL entry; nothing else changes, and a missing entry is a `KeyError` |
| Sessions.RemoveAfterAdd | jsonapi_client/session.py:144-161 | removing a just-added resource with a URL succeeds and restores every other entry |
| Sessions.RemoveWithoutLinkFails | jsonapi_client/session.py:160-161 | a resource without URL cannot be removed, though its identity entry is already deleted |
| Sessions.MarkAll | jsonapi_client/session.py:272-275 | `mark_invalid()` reaches exactly the listed objects |
| Sessions.Invalidate | jsonapi_client/session.py:268-279 | every cached resource and document is invalidated, resources not in the cache are untouched by the model, and all three caches are empty |
| Sessions.InvalidatedCannotCommit | jsonapi_client/session.py:268-279 | a resource that was cached cannot commit after invalidation |
| Sessions.DirtyResources | jsonapi_client/session.py:381-387 | exactly the cached resources that are dirty |
| Sessions.SessionIsDirty | jsonapi_client/session.py:389-391 | the session is dirty iff some cached resource is |
| Sessions.AddedNewIsDirty | jsonapi_client/session.py:381-391 | a cached resource without id makes the session dirty |
| Sessions.InvalidateLeavesNothingDirty | jsonapi_client/session.py:268-391 | after invalidation no resource is dirty in the session |
| Sessions.ValueToDict | jsonapi_client/session.py:163-181 | a typed value is accepted iff no types are declared or its type is among them (else `TypeError`); a plain id iff exactly one truthy type is declared (else `ValueError`); the result is `{'id', 'type'}` with the id and type given or implied |
| Sessions.ValuesToDicts | jsonapi_client/session.py:209 | a list converts iff each element does, element by element |
| Sessions.RelationData | jsonapi_client/session.py:206-209 | a typed value or a string is converted as one target; a list gives a list of the same length; null, booleans and numbers are kept |
| Sessions.SetPath | jsonapi_client/session.py:212-218 | a dotted key writes the value at the end of its path, creating missing maps; it fails iff a non-map is in the way; a new first key is appended and no other top-level key changes |
| Sessions.SetPathEmpty | jsonapi_client/session.py:212-218 | on empty attributes, a dotted key builds nested maps |
| Sessions.CreateFields | jsonapi_client/session.py:200-218 | relationships stay `{'data': ...}`-shaped; without a `properties` map in the model any field fails; no fields change nothing |
| Sessions.CreateItems | jsonapi_client/session.py:192-218 | the `fields` dict and the keyword fields together build `{'data': ...}`-shaped relationships |
| Sessions.CreateItemsMerge | jsonapi_client/session.py:198-201 | the loop runs over the keyword keys in order followed by the keys only `fields` has; a `fields` key takes its value from `fields` and is not jsonified |
| Sessions.Create | jsonapi_client/session.py:183-227 | a created resource has the requested type and no id, so it is dirty and is POSTed |
| Sessions.NewDataLookups | jsonapi_client/session.py:220-224 | the new resource's object holds the type, a null id, the attributes and the relationships |
| Sessions.CreateNeedsSchema | jsonapi_client/session.py:197-203 | without a schema for the type, a field fails |
| Sessions.CreateOneAttribute | jsonapi_client/session.py:211-218 | a non-relation field becomes nested attribute maps along its dotted name |
| Sessions.CreateOneRelation | jsonapi_client/session.py:204-210 | a relation field becomes `{'data': identifier}` |
| Sessions.KeywordVersusFieldsExample | jsonapi_client/session.py:201-202 | a keyword `a__b` is jsonified to `a.b` and nests; the same key in `fields` is kept as is |
| Sessions.UrlForResource | jsonapi_client/session.py:289-298 | the URL is `prefix/type`, then `/id` when given, then `?query` when a modifier is given |
| Sessions.ResourceTypeAndFilter | jsonapi_client/session.py:300-309 | a modifier is the filter with no id, anything else is the id with no filter |
| Sessions.GetUrlIsResourceUrl | jsonapi_client/session.py:289-309 | fetching by a resource's id uses the resource's own URL |
| Sessions.AssertSync | jsonapi_client/session.py:401-408 | fails iff the session is async, with the given or default message |
| Sessions.AssertAsync | jsonapi_client/session.py:410-417 | fails iff the session is not async, with the given or default message |
| Sessions.ModesExclusive | jsonapi_client/session.py:401-417 | exactly one of the two guards fails |

## Left out

- Transport: the `requests`/`aiohttp` helpers, `get`, `iterate`, `commit`, `refresh`, `fetch`, `_commit_sync`/`_commit_async`, `_perform_delete`, `close` and the context managers perform network I/O. `sessionhelpers.py` is not part of this model. A commit is modelled as its payload (`Resources.CommitData`), its URL (`Resources.PreCommitUrl`) and its effect on the resource (`Resources.PostCommit`).
- `read` and `Document` parsing: `document.py` is not part of this model. Documents appear only as their invalid flag in the session, and the resource a response parses to is a parameter of `Resources.PostCommit`. What `Document.mark_invalid` does to the resources a cached document holds is therefore not modelled; `Sessions.Invalidate` invalidates only the cached resources.
- The relationship classes: `relationships.py` is not part of this model. A relationship is a record of its class, payload, flags and what the resource reads from it, through the `Interp` parameter. `RelationshipDict.keys_python` is the same name translation as `Attributes.KeysPython`.
- JSON Schema validation is the parameter `conforms`, because `jsonschema` is a foreign library.
- Logging, `__str__`/`__repr__`/`__dir__`, `FieldProxy`, the `__getattr__`/`__setattr__` proxies and `cached_property` are Python reflection. Only the name translation they rely on is modelled. `Objects.MetaAttr` is `Meta.__getattr__` itself: Python calls it only for names that are not real attributes, so `meta.meta`, `meta.session` and `meta.url` never reach it.
- `change_resource` only re-points back-references, which the value model does not have.
- Value equality in `__setitem__` is structural equality of `Json`. Python's dict equality ignores order and treats `True == 1`.
- `_dirty_attributes` is a Python set, so `diff` follows set iteration order. The model emits the diff in container order: key set and values are as in the source, order is not.
- Attributes.MarkClean: a dirty name that is not a key fails with `KeyError("")`, not with the missing name.
- Attributes.Build: the recursion limit of nested construction is the `fuel` bound (1000). With a schema, only freshness of the result is stated; its content is stated for the schemaless case (`Attributes.BuildPlain`).
- The `mark_dirty` call during construction passes up only when the parent is non-empty, because `if self._parent:` tests dict truthiness. The model keeps this as the `touched` flag; the constructor's final `clear()` hides it except in `create_map`.
- The invalid flags of `Meta` and `Links` are not modelled, because no modelled operation reads them.
- `Resources.UpdateResource`: the old containers of the resource are not invalidated, because after replacement nothing in the model refers to them. The call to `add_resources` is `Sessions.AddResource`.
- `ResourceObject.as_resource_identifier_dict` is the typed branch of `Sessions.ValueToDict`.
- JSON numbers are integers (`JNum(int)`). Floats, which `json.loads` also yields, are not represented, so nothing is stated about float values in `__setitem__`'s comparison, truthiness, `diff` or the POST payload.
- Objects.LinkFrom: an object whose `href` is truthy but not a string (a number, a list, an object) is rejected with `TypeError`. The source stores any `href` and fails only when `url` is computed from it. A link's `href` is a string, so `Objects.LinkEq` cannot tell `href: null` from `href: ""`, which Python's `==` does.
- Objects.LinksFrom: inherits `Objects.LinkFrom`'s rejection of a truthy non-string `href`.
- Resources.ResourceFrom: inherits `Objects.LinkFrom`'s rejection of a truthy non-string `href` in the resource's `links`.
- Attributes.EditAt: a path through a stored plain dict (one that was not built as a nested `AttributeDict`, such as the value of a later `__setitem__`) is rejected with `TypeError`. The source mutates that dict in place, without dirty marking; the model has no shared mutable values.
- Attributes.ApplyLeafWF, Attributes.EditAtWF: marking a name that is not a key is excluded (`Attributes.LeafOK`). `mark_dirty` accepts any name (resourceobject.py:179), and the tree is then no longer well formed: the dirty set holds a name that `diff` cannot read.
- Identifiers and types are strings or `None`; other JSON values for `id` and `type` are rejected when reading.
- `Objects.HasScheme` follows the Python 3.6 `urlsplit` rule for schemes; later Python versions differ for some inputs.
- `Filter` named parameter values arrive already rendered as strings, since `str()` of floats is out of scope.
- Sessions.Create: the model rejects with `TypeError` two inputs the source goes on with. One is a schema whose `resource` member is not a list. The other is a resource object or a list of resource values (`FieldValue.Object`, `FieldValue.List`) given for an attribute key, which session.py:218 stores as the attribute's value. JSON values, lists and objects included, are stored as the source stores them. The contents of the built maps are stated for single fields (`Sessions.CreateOneAttribute`, `Sessions.CreateOneRelation`, `Sessions.KeywordVersusFieldsExample`).
- Sessions.CreateFields: only the shape of relationships and the need for a schema are stated for a whole field list.
- Sessions.RelationData: for lists, only the length of the converted list is stated in the contract; each element is `Sessions.ValuesToDicts`'s.
- Modifiers.AddNamed: the value under each named key is stated one parameter at a time (`Modifiers.AddNamedOne`).
- Strings.Replace: its contract only says that replacing a pattern by itself changes nothing; its behaviour is pinned by `Strings.ReplaceSkip`, `Strings.ReplaceFront` and `Strings.ReplaceLacking`.
- Schema extension through `add_model_schema` on a session whose schema data is `None` raises `AttributeError` in Python; the model reports it as a failed update.
- The link, identifier and resource code calls `session.assert_sync()`, `session.enable_async` and `session.fetch_resource_by_resource_identifier`, which `Session` defines only as `_assert_sync`, `is_async` and `_fetch_resource_by_resource_identifier`. Those call sites are transport; `Sessions.AssertSync` and `Sessions.AssertAsync` model the session's own guards.

## Findings

| source | as written | input that shows it | evidently intended | confidence | as-written member | corrected member |
|---|---|---|---|---|---|---|
| jsonapi_client/resourceobject.py:555 | `url or self.post_url if POST else self.url` groups as `(url or post_url) if POST else self.url`, so a PATCH ignores the caller's URL | a resource with id `"1"`, no `self` link, committed with `custom_url="custom"`: the PATCH goes to `prefix/type/1` | `commit(custom_url)` says the given URL is used instead of the automatic one (resourceobject.py:597), for PATCH as for POST | high, not executed | Resources.PreCommitUrlAsWritten, Resources.PreCommitIgnoresCustomUrl | Resources.PreCommitUrl, Resources.PreCommitUrlAgrees |

=== FILE: assoc.dfy ===
/** Insertion-ordered dictionaries as association lists: the model of a Python `dict`,
    whose key order is observable in payloads and query strings. */
module Assoc {
  import opened Wrappers

  /** The keys in insertion order (`list(d.keys())`). */
  function Keys<K, V>(xs: seq<(K, V)>): (ks: seq<K>)
    ensures |ks| == |xs|
    ensures forall i :: 0 <= i < |xs| ==> ks[i] == xs[i].0
  {
    if |xs| == 0 then [] else [xs[0].0] + Keys(xs[1..])
  }

  /** A Python dict never holds a key twice. */
  predicate DistinctKeys<K(==), V>(xs: seq<(K, V)>) {
    |xs| == 0 || (xs[0].0 !in Keys(xs[1..]) && DistinctKeys(xs[1..]))
  }

  /** `d.get(k)`: the value of the first entry with key `k`. */
  function Get<K(==), V>(xs: seq<(K, V)>, k: K): (r: Option<V>)
    ensures r.Some? <==> k in Keys(xs)
    ensures r.Some? ==> exists i :: 0 <= i < |xs| && xs[i] == (k, r.value)
  {
    if |xs| == 0 then None
    else if xs[0].0 == k then Some(xs[0].1)
    else
      var r := Get(xs[1..], k);
      assert r.Some? ==> exists i :: 0 <= i < |xs[1..]| && xs[1..][i] == (k, r.value);
      r
  }

  /** `d[k] = v`: an existing key keeps its position, a new key goes last. */
  function Put<K(==,!new), V>(xs: seq<(K, V)>, k: K, v: V): (r: seq<(K, V)>)
    ensures Keys(r) == if k in Keys(xs) then Keys(xs) else Keys(xs) + [k]
    ensures Get(r, k) == Some(v)
    ensures forall k' :: k' != k ==> Get(r, k') == Get(xs, k')
  {
    if |xs| == 0 then [(k, v)]
    else if xs[0].0 == k then
      var r := [(k, v)] + xs[1..];
      assert r[1..] == xs[1..];
      r
    else
      var t := Put(xs[1..], k, v);
      var r := [xs[0]] + t;
      assert r[1..] == t;
      assert Keys(r) == [xs[0].0] + Keys(t);
      assert Keys(xs) == [xs[0].0] + Keys(xs[1..]);
      ConsSnocAssoc(xs[0].0, Keys(xs[1..]), k);
      r
  }

  /** Prepending and appending single elements associate. */
  lemma ConsSnocAssoc<T>(a: T, b: seq<T>, c: T)
    ensures [a] + (b + [c]) == ([a] + b) + [c]
  {
  }

  /** An element between two sequences may join either side. */
  lemma SnocConsAssoc<T>(a: seq<T>, x: T, b: seq<T>)
    ensures (a + [x]) + b == a + ([x] + b)
  {
  }

  /** Writing keeps a dict free of repeated keys. */
  lemma {:induction false} PutDistinct<K(!new), V>(xs: seq<(K, V)>, k: K, v: V)
    requires DistinctKeys(xs)
    ensures DistinctKeys(Put(xs, k, v))
  {
    if |xs| > 0 && xs[0].0 != k {
      PutDistinct(xs[1..], k, v);
      var t := Put(xs[1..], k, v);
      assert ([xs[0]] + t)[1..] == t;
    } else if |xs| > 0 {
      assert ([(k, v)] + xs[1..])[1..] == xs[1..];
    }
  }

  /** `del d[k]` on a present key; the rest keep their order. */
  function Remove<K(==,!new), V>(xs: seq<(K, V)>, k: K): (r: seq<(K, V)>)
    ensures |r| <= |xs|
    ensures forall x :: x in Keys(r) ==> x in Keys(xs)
    ensures forall k' :: k' != k ==> Get(r, k') == Get(xs, k')
  {
    if |xs| == 0 then []
    else if xs[0].0 == k then xs[1..]
    else
      var t := Remove(xs[1..], k);
      var r := [xs[0]] + t;
      assert r[1..] == t;
      assert Keys(r) == [xs[0].0] + Keys(t);
      r
  }

  /** Removing a key from a dict without repeated keys leaves no trace of it. */
  lemma {:induction false} RemoveGone<K(!new), V>(xs: seq<(K, V)>, k: K)
    requires DistinctKeys(xs)
    ensures k !in Keys(Remove(xs, k))
    ensures DistinctKeys(Remove(xs, k))
  {
    if |xs| > 0 && xs[0].0 != k {
      RemoveGone(xs[1..], k);
      var t := Remove(xs[1..], k);
      assert ([xs[0]] + t)[1..] == t;
    }
  }

  /** Every entry after a write is the written one or an entry that was there before. */
  lemma {:induction false} PutEntries<K(!new), V>(xs: seq<(K, V)>, k: K, v: V)
    ensures forall i :: 0 <= i < |Put(xs, k, v)| ==> Put(xs, k, v)[i] == (k, v) || Put(xs, k, v)[i] in xs
  {
    if |xs| > 0 && xs[0].0 != k {
      PutEntries(xs[1..], k, v);
      var t := Put(xs[1..], k, v);
      assert Put(xs, k, v) == [xs[0]] + t;
      forall i | 0 <= i < |Put(xs, k, v)|
        ensures Put(xs, k, v)[i] == (k, v) || Put(xs, k, v)[i] in xs
      {
        if i > 0 {
          assert Put(xs, k, v)[i] == t[i - 1];
        }
      }
    }
  }

  /** Every entry left after a removal was there before. */
  lemma {:induction false} RemoveEntries<K(!new), V>(xs: seq<(K, V)>, k: K)
    ensures forall i :: 0 <= i < |Remove(xs, k)| ==> Remove(xs, k)[i] in xs
  {
    if |xs| > 0 && xs[0].0 != k {
      RemoveEntries(xs[1..], k);
      var t := Remove(xs[1..], k);
      assert Remove(xs, k) == [xs[0]] + t;
      forall i | 0 <= i < |Remove(xs, k)| ensures Remove(xs, k)[i] in xs {
        if i > 0 {
          assert Remove(xs, k)[i] == t[i - 1];
        }
      }
    }
  }

  /** `i` is the position of the first entry with key `k`. */
  predicate FirstAt<K(==), V>(xs: seq<(K, V)>, k: K, i: int) {
    0 <= i < |xs| && xs[i].0 == k && forall j :: 0 <= j < i ==> xs[j].0 != k
  }

  /** Removing a key that is not there leaves the dict as it was. */
  lemma {:induction false} RemoveAbsent<K(!new), V>(xs: seq<(K, V)>, k: K)
    requires k !in Keys(xs)
    ensures Remove(xs, k) == xs
  {
    if |xs| > 0 {
      assert Keys(xs) == [xs[0].0] + Keys(xs[1..]);
      RemoveAbsent(xs[1..], k);
      assert [xs[0]] + xs[1..] == xs;
    }
  }

  /** Removal cuts out exactly the first entry with the key; the others keep their order. */
  lemma {:induction false} RemoveOrder<K(!new), V>(xs: seq<(K, V)>, k: K)
    ensures forall i :: FirstAt(xs, k, i) ==> Remove(xs, k) == xs[..i] + xs[i + 1..]
  {
    if |xs| > 0 && xs[0].0 != k {
      var t := xs[1..];
      RemoveOrder(t, k);
      forall i | FirstAt(xs, k, i) ensures Remove(xs, k) == xs[..i] + xs[i + 1..] {
        assert FirstAt(t, k, i - 1) by {
          forall j | 0 <= j < i - 1 ensures t[j].0 != k {
            assert t[j] == xs[j + 1];
          }
        }
        assert xs[..i] == [xs[0]] + t[..i - 1];
        assert xs[i + 1..] == t[i..];
      }
    }
  }

  /** Writing a new key appends it. */
  lemma PutNew<K(!new), V>(xs: seq<(K, V)>, k: K, v: V)
    requires k !in Keys(xs)
    ensures Put(xs, k, v) == xs + [(k, v)]
  {
    assert forall i :: 0 <= i < |xs| ==> Keys(xs)[i] == xs[i].0;
    PutAbsent(xs, k, v);
  }

  lemma {:induction false} PutAbsent<K(!new), V>(xs: seq<(K, V)>, k: K, v: V)
    requires forall i :: 0 <= i < |xs| ==> xs[i].0 != k
    ensures Put(xs, k, v) == xs + [(k, v)]
  {
    if |xs| > 0 {
      assert forall i :: 0 <= i < |xs[1..]| ==> xs[1..][i] == xs[i + 1];
      PutAbsent(xs[1..], k, v);
      assert Put(xs, k, v) == [xs[0]] + Put(xs[1..], k, v);
      ConsSnoc(xs, (k, v));
    }
  }

  /** Splitting off the head commutes with appending at the end. */
  lemma ConsSnoc<T>(xs: seq<T>, y: T)
    requires |xs| > 0
    ensures [xs[0]] + (xs[1..] + [y]) == xs + [y]
  {
    assert xs == [xs[0]] + xs[1..];
  }

  /** Writing the value a key already holds changes nothing. */
  lemma {:induction false} PutSame<K(!new), V>(xs: seq<(K, V)>, k: K, v: V)
    requires Get(xs, k) == Some(v)
    ensures Put(xs, k, v) == xs
  {
    if xs[0].0 != k {
      PutSame(xs[1..], k, v);
      assert xs == [xs[0]] + xs[1..];
    }
  }

  /** Distinct keys, stated pairwise. */
  lemma {:induction false} DistinctKeysPairwise<K, V>(xs: seq<(K, V)>)
    ensures DistinctKeys(xs) <==> forall i, j :: 0 <= i < j < |xs| ==> xs[i].0 != xs[j].0
  {
    if |xs| > 0 {
      DistinctKeysPairwise(xs[1..]);
      if forall i, j :: 0 <= i < j < |xs| ==> xs[i].0 != xs[j].0 {
        assert forall i, j :: 0 <= i < j < |xs[1..]| ==> xs[1..][i].0 == xs[i + 1].0 && xs[1..][j].0 == xs[j + 1].0;
        assert xs[0].0 !in Keys(xs[1..]) by {
          forall m | 0 <= m < |xs[1..]| ensures Keys(xs[1..])[m] != xs[0].0 {
            assert Keys(xs[1..])[m] == xs[m + 1].0;
          }
        }
      }
      if DistinctKeys(xs) {
        forall i, j | 0 <= i < j < |xs| ensures xs[i].0 != xs[j].0 {
          if i == 0 {
            assert Keys(xs[1..])[j - 1] == xs[j].0;
          } else {
            assert xs[1..][i - 1] == xs[i] && xs[1..][j - 1] == xs[j];
          }
        }
      }
    }
  }

  /** With distinct keys, every entry is the first with its key. */
  lemma DistinctKeysFirst<K, V>(xs: seq<(K, V)>)
    requires DistinctKeys(xs)
    ensures forall j :: 0 <= j < |xs| ==> xs[j].0 !in Keys(xs[..j])
  {
    DistinctKeysPairwise(xs);
    forall j | 0 <= j < |xs| ensures xs[j].0 !in Keys(xs[..j]) {
      forall m | 0 <= m < j ensures Keys(xs[..j])[m] != xs[j].0 {
        assert Keys(xs[..j])[m] == xs[m].0;
      }
    }
  }

  /** Distinctness depends on the keys alone. */
  lemma DistinctKeysSameKeys<K, V, W>(xs: seq<(K, V)>, ys: seq<(K, W)>)
    requires Keys(xs) == Keys(ys)
    ensures DistinctKeys(xs) <==> DistinctKeys(ys)
  {
    DistinctKeysPairwise(xs);
    DistinctKeysPairwise(ys);
    assert forall i :: 0 <= i < |xs| ==> xs[i].0 == Keys(xs)[i] == Keys(ys)[i] == ys[i].0;
  }

  /** With distinct keys, looking up an entry's key finds that entry. */
  lemma {:induction false} GetDistinct<K, V>(xs: seq<(K, V)>, i: nat)
    requires DistinctKeys(xs) && i < |xs|
    ensures Get(xs, xs[i].0) == Some(xs[i].1)
  {
    if i > 0 {
      assert Keys(xs[1..])[i - 1] == xs[i].0;
      assert xs[1..][i - 1] == xs[i];
      GetDistinct(xs[1..], i - 1);
    }
  }

  /** Two writes under different keys: each reads back, and every other key reads as before. */
  lemma PutTwice<K(!new), V>(xs: seq<(K, V)>, k1: K, v1: V, k2: K, v2: V)
    requires k1 != k2
    ensures var r := Put(Put(xs, k1, v1), k2, v2);
      && Get(r, k1) == Some(v1) && Get(r, k2) == Some(v2)
      && (forall k :: k != k1 && k != k2 ==> Get(r, k) == Get(xs, k))
      && (DistinctKeys(xs) ==> DistinctKeys(r))
  {
    if DistinctKeys(xs) {
      PutDistinct(xs, k1, v1);
      PutDistinct(Put(xs, k1, v1), k2, v2);
    }
  }

  /** `d.update(e)` with a dict `e`: the entries of `e` win, every other key keeps its value. */
  function Update<K(==,!new), V>(d: seq<(K, V)>, e: seq<(K, V)>): (r: seq<(K, V)>)
    requires DistinctKeys(e)
    ensures forall k :: Get(r, k) == if k in Keys(e) then Get(e, k) else Get(d, k)
    decreases |e|
  {
    if |e| == 0 then d
    else
      assert Keys(e) == [e[0].0] + Keys(e[1..]);
      Update(Put(d, e[0].0, e[0].1), e[1..])
  }

  /** The keys of `es` that are not among `ks`, in the order of `es`. */
  function NewKeys<K(==,!new)>(ks: seq<K>, es: seq<K>): (r: seq<K>)
    ensures forall x :: x in r <==> x in es && x !in ks
  {
    if |es| == 0 then []
    else (if es[0] in ks then [] else [es[0]]) + NewKeys(ks, es[1..])
  }

  /** A key outside `es` does not change which keys of `es` are new. */
  lemma {:induction false} NewKeysExtend<K(!new)>(ks: seq<K>, k: K, es: seq<K>)
    requires k !in es
    ensures NewKeys(ks + [k], es) == NewKeys(ks, es)
  {
    if |es| > 0 {
      assert es[0] in ks + [k] <==> es[0] in ks;
      NewKeysExtend(ks, k, es[1..]);
    }
  }

  /** `d.update(e)` keeps the keys of `d` in place and appends the new keys of `e` in `e`'s
      order. */
  lemma {:induction false} UpdateKeys<K(!new), V>(d: seq<(K, V)>, e: seq<(K, V)>)
    requires DistinctKeys(e)
    ensures Keys(Update(d, e)) == Keys(d) + NewKeys(Keys(d), Keys(e))
    decreases |e|
  {
    if |e| == 0 {
      assert Keys(e) == [];
    } else {
      var k := e[0].0;
      var d' := Put(d, k, e[0].1);
      var ks, rest := Keys(d), Keys(e[1..]);
      assert Update(d, e) == Update(d', e[1..]);
      assert Keys(e) == [k] + rest;
      assert Keys(e)[1..] == rest;
      UpdateKeys(d', e[1..]);
      if k in ks {
        assert Keys(d') == ks;
        assert NewKeys(ks, Keys(e)) == NewKeys(ks, rest);
      } else {
        assert Keys(d') == ks + [k];
        assert k !in rest;
        NewKeysExtend(ks, k, rest);
        assert NewKeys(ks, Keys(e)) == [k] + NewKeys(ks, rest);
        SnocConsAssoc(ks, k, NewKeys(ks, rest));
      }
    }
  }


  /** `d.update(e)` keeps a dict free of repeated keys. */
  lemma {:induction false} UpdateDistinct<K(!new), V>(d: seq<(K, V)>, e: seq<(K, V)>)
    requires DistinctKeys(d) && DistinctKeys(e)
    ensures DistinctKeys(Update(d, e))
    decreases |e|
  {
    if |e| > 0 {
      PutDistinct(d, e[0].0, e[0].1);
      UpdateDistinct(Put(d, e[0].0, e[0].1), e[1..]);
    }
  }

  /** Two dicts with the same keys in the same order and the same lookups are equal. */
  lemma SameEntries<K(!new), V>(a: seq<(K, V)>, b: seq<(K, V)>)
    requires DistinctKeys(a) && Keys(a) == Keys(b)
    requires forall k :: Get(a, k) == Get(b, k)
    ensures a == b
  {
    DistinctKeysSameKeys(a, b);
    forall i | 0 <= i < |a| ensures a[i] == b[i] {
      assert Keys(a)[i] == Keys(b)[i];
      GetDistinct(a, i);
      GetDistinct(b, i);
    }
  }
}

=== FILE: attributes.dfy ===
/** `AttributeDict`: the attribute container of a resource. A tree of ordered dicts whose
    nodes each keep the set of their dirty field names. The tree is a value here; an
    operation on a nested container names it by its path of keys from the root, so the
    propagation of `mark_dirty` to the ancestors is explicit. */
module Attributes {
  import opened Wrappers
  import opened Errors
  import opened Json
  import opened Strings
  import Assoc
  import Utils
  import Schemas

  /** A stored value: plain JSON, or a nested container (`AttributeDict`). */
  datatype Value = Plain(json: Json) | Nested(dict: AttrDict)

  /** One container: its entries in insertion order, its dirty field names (a Python set),
      and whether it has been invalidated. */
  datatype AttrDict = AttrDict(entries: seq<(string, Value)>, dirty: set<string>, invalid: bool)

  /** The recursion limit Python applies to the nested constructor calls. */
  const RecursionLimit: nat := 1000

  /** The container as the plain dict a comparison or a serialisation sees. */
  function ToJson(d: AttrDict): (j: Json)
    ensures j.JObj? && Assoc.Keys(j.fields) == Assoc.Keys(d.entries)
    decreases d
  {
    var fields := seq(|d.entries|, i requires 0 <= i < |d.entries| =>
      (d.entries[i].0, match d.entries[i].1 case Plain(v) => v case Nested(c) => ToJson(c)));
    assert forall i :: 0 <= i < |fields| ==> Assoc.Keys(fields)[i] == Assoc.Keys(d.entries)[i];
    JObj(fields)
  }

  /** A stored value as plain JSON. */
  function ValueJson(v: Value): Json {
    match v
    case Plain(j) => j
    case Nested(c) => ToJson(c)
  }

  /** `self.get(key)` as a comparison sees it: the stored value, or `None` when absent. */
  function Current(entries: seq<(string, Value)>, key: string): (j: Json)
    ensures key !in Assoc.Keys(entries) ==> j == JNull
    ensures key in Assoc.Keys(entries) ==> j == ValueJson(Assoc.Get(entries, key).value)
  {
    match Assoc.Get(entries, key)
    case Some(v) => ValueJson(v)
    case None => JNull
  }

  /** `is_dirty`: this container's own dirty set is non-empty. */
  predicate IsDirty(d: AttrDict) {
    d.dirty != {}
  }

  /** Some container of the tree, this one or one nested at any depth, is dirty. */
  predicate DeepDirty(d: AttrDict)
    decreases d
  {
    d.dirty != {} ||
    exists i :: 0 <= i < |d.entries| && d.entries[i].1.Nested? && DeepDirty(d.entries[i].1.dict)
  }

  /** The bookkeeping invariant: keys are distinct, dirty names are keys, and every dirty
      nested container is listed in its parent's dirty set, at every level. */
  predicate WF(d: AttrDict)
    decreases d
  {
    && Assoc.DistinctKeys(d.entries)
    && (forall k :: k in d.dirty ==> k in Assoc.Keys(d.entries))
    && (forall i :: 0 <= i < |d.entries| && d.entries[i].1.Nested? ==>
          WF(d.entries[i].1.dict) && (d.entries[i].1.dict.dirty != {} ==> d.entries[i].0 in d.dirty))
  }

  /** This container and every nested one are invalid. */
  predicate AllInvalid(d: AttrDict)
    decreases d
  {
    d.invalid && forall i :: 0 <= i < |d.entries| && d.entries[i].1.Nested? ==> AllInvalid(d.entries[i].1.dict)
  }

  /** No container of the tree is invalid. */
  predicate NoneInvalid(d: AttrDict)
    decreases d
  {
    !d.invalid && forall i :: 0 <= i < |d.entries| && d.entries[i].1.Nested? ==> NoneInvalid(d.entries[i].1.dict)
  }

  /** `_full_name` of a child: the name alone under a container whose full name is empty,
      otherwise `parent.name`. */
  function FullName(parent: string, name: string): string {
    if parent == "" then name else parent + "." + name
  }

  // ---------------------------------------------------------------- construction

  /** A container as a constructor leaves it: distinct keys, nothing dirty and nothing
      invalid, at every level. */
  predicate Fresh(d: AttrDict)
    decreases d
  {
    && Assoc.DistinctKeys(d.entries) && d.dirty == {} && !d.invalid
    && forall i :: 0 <= i < |d.entries| && d.entries[i].1.Nested? ==> Fresh(d.entries[i].1.dict)
  }

  /** The entries of a fresh container. */
  predicate FreshEntries(es: seq<(string, Value)>) {
    && Assoc.DistinctKeys(es)
    && forall i :: 0 <= i < |es| && es[i].1.Nested? ==> Fresh(es[i].1.dict)
  }

  /** A fresh container is well formed, clean at every level and valid at every level. */
  lemma {:induction false} FreshSound(d: AttrDict)
    requires Fresh(d)
    ensures WF(d) && !DeepDirty(d) && NoneInvalid(d)
    decreases d
  {
    forall i | 0 <= i < |d.entries| && d.entries[i].1.Nested?
      ensures WF(d.entries[i].1.dict) && !DeepDirty(d.entries[i].1.dict) && NoneInvalid(d.entries[i].1.dict)
    {
      FreshSound(d.entries[i].1.dict);
    }
  }

  /** Writing a fresh value into fresh entries keeps them fresh. */
  lemma PutFresh(es: seq<(string, Value)>, k: string, v: Value)
    ensures FreshEntries(es) && (v.Nested? ==> Fresh(v.dict)) ==> FreshEntries(Assoc.Put(es, k, v))
  {
    if FreshEntries(es) {
      Assoc.PutDistinct(es, k, v);
      Assoc.PutEntries(es, k, v);
    }
  }

  /** A constructed container is well formed, clean at every level and valid at every level. */
  lemma BuildSound(s: Schemas.Schema, rtype: string, fullName: string, data: Json, fuel: nat)
    requires Build(s, rtype, fullName, data, fuel).Success?
    ensures var d := Build(s, rtype, fullName, data, fuel).value.0;
      WF(d) && !DeepDirty(d) && NoneInvalid(d)
  {
    FreshSound(Build(s, rtype, fullName, data, fuel).value.0);
  }

  /** `AttributeDict.__init__(data, resource, name, parent)`, for the container whose full
      name is `fullName`, with `fuel` nested calls left before the recursion limit. Yields
      the container and whether its `mark_dirty` was called while it was being built (by
      one of its own `__setitem__` calls or by a nested constructor); through `mark_dirty`
      that call reaches the parent when the parent is non-empty. Data that is not a dict is
      rejected. */
  function Build(s: Schemas.Schema, rtype: string, fullName: string, data: Json, fuel: nat)
    : (r: Res<(AttrDict, bool)>)
    ensures fuel == 0 ==> r == Failure(RecursionError)
    ensures r.Success? ==> data.JObj? && Fresh(r.value.0)
    decreases fuel, 2, 0
  {
    if fuel == 0 then Failure(RecursionError)
    else
      var spec :- Schemas.FindSpec(s, rtype, fullName);
      if !data.JObj? then Failure(TypeError("data is not a dict"))
      else
        var fromSchema :-
          if Truthy(spec) then
            var props :- Schemas.Subscript(spec, "properties");
            if !props.JObj? then Failure(AttributeError("items"))
            else SchemaFields(s, rtype, fullName, props.fields, data.fields, [], false, fuel)
          else Success(([], data.fields, false));
        var (entries, rest, touched) := fromSchema;
        var extra :- ExtraFields(s, rtype, fullName, rest, entries, touched, fuel);
        Success((AttrDict(extra.0, {}, false), extra.1))
  }

  /** The loop over the schema's `properties`, field by field. */
  function SchemaFields(s: Schemas.Schema, rtype: string, fullName: string, props: Fields,
                        data: Fields, acc: seq<(string, Value)>, touched: bool, fuel: nat)
    : (r: Res<(seq<(string, Value)>, Fields, bool)>)
    requires fuel > 0
    ensures r.Success? && FreshEntries(acc) ==> FreshEntries(r.value.0)
    decreases fuel, 1, |props|
  {
    if |props| == 0 then Success((acc, data, touched))
    else
      var step :- SchemaField(s, rtype, fullName, props[0].0, props[0].1, data, acc, fuel);
      match step
      case None => SchemaFields(s, rtype, fullName, props[1..], data, acc, touched, fuel)
      case Some((acc', data', marked)) =>
        SchemaFields(s, rtype, fullName, props[1..], data', acc', touched || marked, fuel)
  }

  /** One iteration of that loop: an `object` field becomes a nested container built from
      the popped data (or `{}`), any other field is set to the popped value or the schema's
      `default` (`None` when absent). Yields the entries and the data left after the field
      and whether its `__setitem__` marked it dirty, or `None` for a relation field, which
      the loop skips. */
  function SchemaField(s: Schemas.Schema, rtype: string, fullName: string, name: string, fspec: Json,
                       data: Fields, acc: seq<(string, Value)>, fuel: nat)
    : (r: Res<Option<(seq<(string, Value)>, Fields, bool)>>)
    requires fuel > 0
    ensures r.Success? && r.value.Some? && FreshEntries(acc) ==> FreshEntries(r.value.value.0)
    decreases fuel, 0, 0
  {
    if !fspec.JObj? then Failure(AttributeError("get"))
    else if Member(fspec, "type") == Some(JStr("object")) then
      var (fieldData, data') := Pop(data, name, Empty);
      var built :- Build(s, rtype, FullName(fullName, name), fieldData, fuel - 1);
      var marked := (built.1 && |acc| > 0) || Current(acc, name) != ToJson(built.0);
      PutFresh(acc, name, Nested(built.0));
      Success(Some((Assoc.Put(acc, name, Nested(built.0)), data', marked)))
    else if "relation" in Assoc.Keys(fspec.fields) then Success(None)
    else
      var default := match Member(fspec, "default") case Some(v) => v case None => JNull;
      var (value, data') := Pop(data, name, default);
      PutFresh(acc, name, Plain(value));
      Success(Some((Assoc.Put(acc, name, Plain(value)), data', Current(acc, name) != value)))
  }

  /** `self.update(data)` with what the schema left over (`update` bypasses
      `__setitem__`, so it marks nothing), then every dict value replaced by a nested
      container built from it through `__setitem__`. The container is non-empty by then, so
      a nested constructor's `mark_dirty` reaches it. */
  function ExtraFields(s: Schemas.Schema, rtype: string, fullName: string, rest: Fields,
                       acc: seq<(string, Value)>, touched: bool, fuel: nat)
    : (r: Res<(seq<(string, Value)>, bool)>)
    requires fuel > 0
    ensures r.Success? && FreshEntries(acc) ==> FreshEntries(r.value.0)
    decreases fuel, 1, |rest|
  {
    if |rest| == 0 then Success((acc, touched))
    else
      var (key, v) := rest[0];
      if v.JObj? then
        var built :- Build(s, rtype, FullName(fullName, key), v, fuel - 1);
        PutFresh(acc, key, Nested(built.0));
        ExtraFields(s, rtype, fullName, rest[1..], Assoc.Put(acc, key, Nested(built.0)),
                    touched || built.1 || v != ToJson(built.0), fuel)
      else
        PutFresh(acc, key, Plain(v));
        ExtraFields(s, rtype, fullName, rest[1..], Assoc.Put(acc, key, Plain(v)), touched, fuel)
  }

  // ---------------------------------------------------------------- edits

  /** What the edited attributes belong to: the session's schema and the resource type. */
  datatype Ctx = Ctx(schema: Schemas.Schema, rtype: string)

  /** A mutation of one container: `d[key] = value`, `d.mark_dirty(name)`, or
      `d.create_map(attrName)`. */
  datatype Edit = SetItem(key: string, value: Json) | MarkDirty(name: string) | CreateMap(attrName: string)

  /** The field an edit writes or marks. */
  function LeafKey(e: Edit): string {
    match e
    case SetItem(key, _) => key
    case MarkDirty(name) => name
    case CreateMap(attrName) => Utils.JsonifyName(attrName)
  }

  /** The container with `key` added to its dirty set when `marked`. */
  function Marked(d: AttrDict, entries: seq<(string, Value)>, key: string, marked: bool): AttrDict {
    AttrDict(entries, if marked then d.dirty + {key} else d.dirty, d.invalid)
  }

  /** An edit applied to the container whose full name is `fullName`. Yields the new
      container and whether its `mark_dirty` was called, which `mark_dirty` passes on to
      the parent. */
  function ApplyLeaf(c: Ctx, d: AttrDict, fullName: string, e: Edit): (r: Res<(AttrDict, bool)>)
    ensures r.Success? ==> r.value.0.dirty == if r.value.1 then d.dirty + {LeafKey(e)} else d.dirty
    ensures r.Success? ==> r.value.0.invalid == d.invalid
    ensures r.Success? ==> forall k :: k != LeafKey(e) ==> Assoc.Get(r.value.0.entries, k) == Assoc.Get(d.entries, k)
    ensures e.SetItem? ==> r.Success? && Assoc.Get(r.value.0.entries, e.key) == Some(Plain(e.value))
    ensures e.SetItem? ==> (r.value.1 <==> Current(d.entries, e.key) != e.value)
    ensures e.MarkDirty? ==> r == Success((Marked(d, d.entries, e.name, true), true))
    ensures e.CreateMap? && d.invalid ==> r == Failure(DocumentInvalid)
    ensures e.CreateMap? && r.Success? ==>
      && Assoc.Get(r.value.0.entries, LeafKey(e)).Some?
      && Assoc.Get(r.value.0.entries, LeafKey(e)).value.Nested?
      && Fresh(Assoc.Get(r.value.0.entries, LeafKey(e)).value.dict)
  {
    match e
    case SetItem(key, v) =>
      var marked := Current(d.entries, key) != v;
      Success((Marked(d, Assoc.Put(d.entries, key, Plain(v)), key, marked), marked))
    case MarkDirty(name) =>
      Success((Marked(d, d.entries, name, true), true))
    case CreateMap(attrName) =>
      if d.invalid then Failure(DocumentInvalid)
      else
        var name := Utils.JsonifyName(attrName);
        var built :- Build(c.schema, c.rtype, FullName(fullName, name), Empty, RecursionLimit);
        var marked := (built.1 && |d.entries| > 0) || Current(d.entries, name) != ToJson(built.0);
        Success((Marked(d, Assoc.Put(d.entries, name, Nested(built.0)), name, marked), marked))
  }

  /** The field of `d` that an edit at `path` writes or marks: the first step of the path,
      or the edit's own field when the path is empty. */
  function EditKey(path: seq<string>, e: Edit): string {
    if |path| == 0 then LeafKey(e) else path[0]
  }

  /** The nested container reached from `d` along `path`, if every step is a nested container. */
  function At(d: AttrDict, path: seq<string>): Option<AttrDict>
    decreases |path|
  {
    if |path| == 0 then Some(d)
    else match Assoc.Get<string, Value>(d.entries, path[0])
      case Some(Nested(child)) => At(child, path[1..])
      case _ => None
  }

  /** The full name of the container reached along `path` from one named `fullName`. */
  function FullNameAlong(fullName: string, path: seq<string>): string
    decreases |path|
  {
    if |path| == 0 then fullName else FullNameAlong(FullName(fullName, path[0]), path[1..])
  }

  /** An edit applied to the nested container at `path` below `d`. Each container on the
      way holds the next, so it is non-empty and passes `mark_dirty` up: the field that
      leads to the edited container is marked exactly when the edited container was. A
      missing step is a `KeyError`; a step through a value that is not an attribute
      container is rejected. */
  function EditAt(c: Ctx, d: AttrDict, fullName: string, path: seq<string>, e: Edit): (r: Res<(AttrDict, bool)>)
    ensures r.Success? ==> r.value.0.dirty == if r.value.1 then d.dirty + {EditKey(path, e)} else d.dirty
    ensures r.Success? ==> r.value.0.invalid == d.invalid
    ensures r.Success? ==> forall k :: k != EditKey(path, e) ==> Assoc.Get(r.value.0.entries, k) == Assoc.Get(d.entries, k)
    ensures |path| > 0 && path[0] !in Assoc.Keys(d.entries) ==> r == Failure(KeyError(path[0]))
    ensures r.Success? ==> At(d, path).Some?
    decreases |path|
  {
    if |path| == 0 then ApplyLeaf(c, d, fullName, e)
    else match Assoc.Get<string, Value>(d.entries, path[0])
      case None => Failure(KeyError(path[0]))
      case Some(Plain(_)) => Failure(TypeError("not an attribute container"))
      case Some(Nested(child)) =>
        var inner := EditAt(c, child, FullName(fullName, path[0]), path[1..], e);
        if inner.Failure? then Failure(inner.error) else Success(Rewrap(d, path[0], inner.value))
  }

  /** The parent of an edited child: the child written back under `key`, and `key` marked
      when the child's `mark_dirty` was called. */
  function Rewrap(d: AttrDict, key: string, inner: (AttrDict, bool)): (AttrDict, bool) {
    (Marked(d, Assoc.Put(d.entries, key, Nested(inner.0)), key, inner.1), inner.1)
  }

  // ---------------------------------------------------------------- edit lemmas

  /** An edit at a path succeeds exactly when the path leads to a nested container and the
      edit succeeds there; when it fails there, its error is the outcome. */
  lemma {:induction false} EditAtSucceeds(c: Ctx, d: AttrDict, fullName: string, path: seq<string>, e: Edit)
    ensures EditAt(c, d, fullName, path, e).Success? <==>
      At(d, path).Some? && ApplyLeaf(c, At(d, path).value, FullNameAlong(fullName, path), e).Success?
    ensures At(d, path).Some? && ApplyLeaf(c, At(d, path).value, FullNameAlong(fullName, path), e).Failure? ==>
      EditAt(c, d, fullName, path, e) ==
        Failure(ApplyLeaf(c, At(d, path).value, FullNameAlong(fullName, path), e).error)
    decreases |path|
  {
    if |path| > 0 {
      match Assoc.Get<string, Value>(d.entries, path[0])
      case None =>
      case Some(Plain(_)) =>
      case Some(Nested(child)) =>
        EditAtSucceeds(c, child, FullName(fullName, path[0]), path[1..], e);
    }
  }

  /** The container read back along the path after an edit is the edited one, and the
      edit is reported as marked exactly when it marked that container. */
  lemma EditAtReadBack(c: Ctx, d: AttrDict, fullName: string, path: seq<string>, e: Edit)
    requires EditAt(c, d, fullName, path, e).Success?
    ensures At(d, path).Some? && ApplyLeaf(c, At(d, path).value, FullNameAlong(fullName, path), e).Success?
    ensures var leaf := ApplyLeaf(c, At(d, path).value, FullNameAlong(fullName, path), e).value;
      && EditAt(c, d, fullName, path, e).value.1 == leaf.1
      && At(EditAt(c, d, fullName, path, e).value.0, path) == Some(leaf.0)
  {
    EditAtSucceeds(c, d, fullName, path, e);
    EditAtMarkedFlag(c, d, fullName, path, e);
    EditAtReadsEdited(c, d, fullName, path, e);
  }

  /** An edit through a path reports the mark of the edit at its end. */
  lemma {:induction false} EditAtMarkedFlag(c: Ctx, d: AttrDict, fullName: string, path: seq<string>, e: Edit)
    requires EditAt(c, d, fullName, path, e).Success?
    requires At(d, path).Some? && ApplyLeaf(c, At(d, path).value, FullNameAlong(fullName, path), e).Success?
    ensures EditAt(c, d, fullName, path, e).value.1 ==
      ApplyLeaf(c, At(d, path).value, FullNameAlong(fullName, path), e).value.1
    decreases |path|
  {
    if |path| > 0 {
      var child := Assoc.Get(d.entries, path[0]).value.dict;
      var sub := EditAt(c, child, FullName(fullName, path[0]), path[1..], e);
      assert EditAt(c, d, fullName, path, e).value.1 == sub.value.1;
      EditAtMarkedFlag(c, child, FullName(fullName, path[0]), path[1..], e);
    }
  }

  /** Reading along the path after an edit yields the container the edit produced there. */
  lemma {:induction false} EditAtReadsEdited(c: Ctx, d: AttrDict, fullName: string, path: seq<string>, e: Edit)
    requires EditAt(c, d, fullName, path, e).Success?
    requires At(d, path).Some? && ApplyLeaf(c, At(d, path).value, FullNameAlong(fullName, path), e).Success?
    ensures At(EditAt(c, d, fullName, path, e).value.0, path) ==
      Some(ApplyLeaf(c, At(d, path).value, FullNameAlong(fullName, path), e).value.0)
    decreases |path|
  {
    if |path| > 0 {
      var child := Assoc.Get(d.entries, path[0]).value.dict;
      var inner := EditAt(c, child, FullName(fullName, path[0]), path[1..], e);
      EditAtNested(c, d, fullName, path, e, child);
      var edited := EditAt(c, d, fullName, path, e).value.0;
      AtNested(edited, path, inner.value.0);
      AtNested(d, path, child);
      EditAtReadsEdited(c, child, FullName(fullName, path[0]), path[1..], e);
    }
  }

  /** One step of `EditAt` through a nested container. */
  lemma EditAtNested(c: Ctx, d: AttrDict, fullName: string, path: seq<string>, e: Edit, child: AttrDict)
    requires |path| > 0 && Assoc.Get(d.entries, path[0]) == Some(Nested(child))
    requires EditAt(c, child, FullName(fullName, path[0]), path[1..], e).Success?
    ensures EditAt(c, d, fullName, path, e) ==
      Success(Rewrap(d, path[0], EditAt(c, child, FullName(fullName, path[0]), path[1..], e).value))
  {
  }

  /** One step of `At` through a nested container. */
  lemma AtNested(d: AttrDict, path: seq<string>, child: AttrDict)
    requires |path| > 0 && Assoc.Get(d.entries, path[0]) == Some(Nested(child))
    ensures At(d, path) == At(child, path[1..])
  {
  }

  /** Every container along `path`, starting at `d`, lists the next step as dirty. */
  predicate MarkedAlong(d: AttrDict, path: seq<string>) {
    forall i :: 0 <= i < |path| ==> At(d, path[..i]).Some? && path[i] in At(d, path[..i]).value.dirty
  }

  /** A chain marked below a marked first step is marked from the top. */
  lemma MarkedAlongStep(d: AttrDict, path: seq<string>, child: AttrDict)
    requires |path| > 0 && path[0] in d.dirty
    requires Assoc.Get(d.entries, path[0]) == Some(Nested(child))
    requires MarkedAlong(child, path[1..])
    ensures MarkedAlong(d, path)
  {
    forall i | 0 <= i < |path|
      ensures At(d, path[..i]).Some? && path[i] in At(d, path[..i]).value.dirty
    {
      if i > 0 {
        assert path[..i][0] == path[0];
        assert path[..i][1..] == path[1..][..i - 1];
        assert path[i] == path[1..][i - 1];
      } else {
        assert path[..i] == [];
      }
    }
  }

  /** When an edit marks, the whole chain is marked: every container on the path, read
      back after the edit, lists the next step of the path as dirty, up to the root. */
  lemma {:induction false} EditAtMarksAncestors(c: Ctx, d: AttrDict, fullName: string, path: seq<string>, e: Edit)
    requires EditAt(c, d, fullName, path, e).Success? && EditAt(c, d, fullName, path, e).value.1
    ensures MarkedAlong(EditAt(c, d, fullName, path, e).value.0, path)
    decreases |path|
  {
    if |path| > 0 {
      var child := Assoc.Get(d.entries, path[0]).value.dict;
      var child' := EditAt(c, child, FullName(fullName, path[0]), path[1..], e).value.0;
      EditAtMarksAncestors(c, child, FullName(fullName, path[0]), path[1..], e);
      MarkedAlongStep(EditAt(c, d, fullName, path, e).value.0, path, child');
    }
  }

  /** The edit keeps the bookkeeping invariant where it is applied; marking a field that is
      not a key is the one edit that can break it. */
  predicate LeafOK(t: AttrDict, e: Edit) {
    e.MarkDirty? ==> e.name in Assoc.Keys(t.entries)
  }

  /** Replacing entries by a write of `key` keeps every other nested container's standing. */
  lemma PutKeepsChildren(d: AttrDict, key: string, v: Value, dirty: set<string>)
    requires WF(d) && d.dirty <= dirty
    ensures forall i :: (0 <= i < |Assoc.Put(d.entries, key, v)| && Assoc.Put(d.entries, key, v)[i] != (key, v)
                         && Assoc.Put(d.entries, key, v)[i].1.Nested?) ==>
        var n := Assoc.Put(d.entries, key, v)[i];
        WF(n.1.dict) && (n.1.dict.dirty != {} ==> n.0 in dirty)
  {
    Assoc.PutEntries(d.entries, key, v);
    forall i | 0 <= i < |Assoc.Put(d.entries, key, v)| && Assoc.Put(d.entries, key, v)[i] != (key, v)
      && Assoc.Put(d.entries, key, v)[i].1.Nested?
      ensures var n := Assoc.Put(d.entries, key, v)[i];
        WF(n.1.dict) && (n.1.dict.dirty != {} ==> n.0 in dirty)
    {
      var n := Assoc.Put(d.entries, key, v)[i];
      assert n in d.entries;
      var j :| 0 <= j < |d.entries| && d.entries[j] == n;
    }
  }

  /** A write of `key` in a well-formed container, with a well-formed value whose dirtiness
      is recorded, gives a well-formed container. */
  lemma PutWF(d: AttrDict, key: string, v: Value, dirty: set<string>)
    requires WF(d) && d.dirty <= dirty
    requires forall k :: k in dirty ==> k in Assoc.Keys(d.entries) || k == key
    requires v.Nested? ==> WF(v.dict) && (v.dict.dirty != {} ==> key in dirty)
    ensures WF(AttrDict(Assoc.Put(d.entries, key, v), dirty, d.invalid))
  {
    Assoc.PutDistinct(d.entries, key, v);
    PutKeepsChildren(d, key, v, dirty);
  }

  lemma ApplyLeafWF(c: Ctx, d: AttrDict, fullName: string, e: Edit)
    requires WF(d) && LeafOK(d, e) && ApplyLeaf(c, d, fullName, e).Success?
    ensures WF(ApplyLeaf(c, d, fullName, e).value.0)
  {
    var r := ApplyLeaf(c, d, fullName, e).value;
    match e
    case SetItem(key, v) =>
      PutWF(d, key, Plain(v), r.0.dirty);
    case MarkDirty(name) =>
    case CreateMap(attrName) =>
      var name := Utils.JsonifyName(attrName);
      var built := Build(c.schema, c.rtype, FullName(fullName, name), Empty, RecursionLimit).value;
      FreshSound(built.0);
      PutWF(d, name, Nested(built.0), r.0.dirty);
  }

  /** Every edit but marking a non-key keeps the invariant "a dirty nested container is
      listed in its parent's dirty set" at every level. */
  lemma {:induction false} EditAtWF(c: Ctx, d: AttrDict, fullName: string, path: seq<string>, e: Edit)
    requires WF(d) && EditAt(c, d, fullName, path, e).Success?
    requires At(d, path).Some? && LeafOK(At(d, path).value, e)
    ensures WF(EditAt(c, d, fullName, path, e).value.0)
    decreases |path|
  {
    if |path| == 0 {
      ApplyLeafWF(c, d, fullName, e);
    } else {
      var child := Assoc.Get(d.entries, path[0]).value.dict;
      var r := EditAt(c, child, FullName(fullName, path[0]), path[1..], e).value;
      var j :| 0 <= j < |d.entries| && d.entries[j] == (path[0], Nested(child));
      EditAtWF(c, child, FullName(fullName, path[0]), path[1..], e);
      PutWF(d, path[0], Nested(r.0), EditAt(c, d, fullName, path, e).value.0.dirty);
    }
  }

  /** Writing the same value twice: the second write changes nothing and marks nothing. */
  lemma {:induction false} SetItemIdempotent(c: Ctx, d: AttrDict, fullName: string, path: seq<string>,
                                             key: string, v: Json)
    requires EditAt(c, d, fullName, path, SetItem(key, v)).Success?
    ensures var d' := EditAt(c, d, fullName, path, SetItem(key, v)).value.0;
      EditAt(c, d', fullName, path, SetItem(key, v)) == Success((d', false))
    decreases |path|
  {
    var d' := EditAt(c, d, fullName, path, SetItem(key, v)).value.0;
    if |path| == 0 {
      Assoc.PutSame(d'.entries, key, Plain(v));
    } else {
      var child := Assoc.Get(d.entries, path[0]).value.dict;
      var child' := EditAt(c, child, FullName(fullName, path[0]), path[1..], SetItem(key, v)).value.0;
      SetItemIdempotent(c, child, FullName(fullName, path[0]), path[1..], key, v);
      Assoc.PutSame(d'.entries, path[0], Nested(child'));
    }
  }

  /** `d[...][key] = v` at a path: it succeeds whenever the path leads to a nested container;
      afterwards the field holds `v`; it marks exactly when `v` differs from what `get`
      returned before, so an equal value or `None` for an absent field leaves every dirty
      set as it was. */
  lemma SetItemAt(c: Ctx, d: AttrDict, fullName: string, path: seq<string>, key: string, v: Json)
    ensures EditAt(c, d, fullName, path, SetItem(key, v)).Success? <==> At(d, path).Some?
    ensures EditAt(c, d, fullName, path, SetItem(key, v)).Success? ==>
      var r := EditAt(c, d, fullName, path, SetItem(key, v)).value;
      && At(r.0, path).Some?
      && Assoc.Get(At(r.0, path).value.entries, key) == Some(Plain(v))
      && (r.1 <==> Current(At(d, path).value.entries, key) != v)
      && (!r.1 ==> r.0.dirty == d.dirty)
  {
    EditAtSucceeds(c, d, fullName, path, SetItem(key, v));
    if EditAt(c, d, fullName, path, SetItem(key, v)).Success? {
      EditAtReadBack(c, d, fullName, path, SetItem(key, v));
    }
  }

  // ---------------------------------------------------------------- clean, diff, post data

  /** `mark_clean`: each dirty field that holds a nested container is cleaned recursively,
      then the dirty set is emptied. Reading a dirty name that is not a key raises
      `KeyError`. */
  function MarkClean(d: AttrDict): (r: Res<AttrDict>)
    ensures r.Success? ==> r.value.dirty == {} && r.value.invalid == d.invalid
    ensures r.Success? ==> Assoc.Keys(r.value.entries) == Assoc.Keys(d.entries)
    ensures r.Success? <==> (forall k :: k in d.dirty ==> k in Assoc.Keys(d.entries)) && CleanEntries(d, 0).Success?
    decreases d, 1
  {
    if !(forall k :: k in d.dirty ==> k in Assoc.Keys(d.entries)) then Failure(KeyError(""))
    else
      var entries :- CleanEntries(d, 0);
      Success(AttrDict(entries, {}, d.invalid))
  }

  /** The entries of `d` from index `i` on, each dirty nested container cleaned. A
      repeated key is read through its first entry, as `self[attr]` reads it. */
  function CleanEntries(d: AttrDict, i: nat): (r: Res<seq<(string, Value)>>)
    requires i <= |d.entries|
    ensures r.Success? ==> Assoc.Keys(r.value) == Assoc.Keys(d.entries[i..])
    decreases d, 0, |d.entries| - i
  {
    if i == |d.entries| then Success([])
    else
      var v :- CleanValue(d, i);
      var rest :- CleanEntries(d, i + 1);
      assert d.entries[i..] == [d.entries[i]] + d.entries[i + 1..];
      Success([(d.entries[i].0, v)] + rest)
  }

  /** The value of entry `i` after `mark_clean`: cleaned when it is a dirty nested container. */
  function CleanValue(d: AttrDict, i: nat): Res<Value>
    requires i < |d.entries|
    decreases d, 0, 0
  {
    var (k, v) := d.entries[i];
    if k in d.dirty && k !in Assoc.Keys(d.entries[..i]) && v.Nested? then
      var c :- MarkClean(v.dict);
      Success(Nested(c))
    else Success(v)
  }

  // ---------------------------------------------------------------- clean lemmas

  /** Under the invariant, a container's own dirty set tells whether anything in its
      subtree is dirty, which is what `is_dirty` relies on. */
  lemma {:induction false} WFDirtyIffDeep(d: AttrDict)
    requires WF(d)
    ensures IsDirty(d) <==> DeepDirty(d)
    decreases d
  {
    if exists i :: 0 <= i < |d.entries| && d.entries[i].1.Nested? && DeepDirty(d.entries[i].1.dict) {
      var i :| 0 <= i < |d.entries| && d.entries[i].1.Nested? && DeepDirty(d.entries[i].1.dict);
      WFDirtyIffDeep(d.entries[i].1.dict);
    }
  }

  /** Under the invariant, `mark_clean` succeeds and leaves nothing dirty at any depth,
      without changing any value. */
  lemma {:induction false} MarkCleanSound(d: AttrDict)
    requires WF(d)
    ensures MarkClean(d).Success?
    ensures var r := MarkClean(d).value; WF(r) && !DeepDirty(r) && ToJson(r) == ToJson(d)
    decreases d, 1
  {
    Assoc.DistinctKeysFirst(d.entries);
    CleanEntriesSound(d, 0);
    var r := MarkClean(d).value;
    Assoc.DistinctKeysSameKeys(r.entries, d.entries);
    assert ToJson(r).fields == ToJson(d).fields by {
      forall j | 0 <= j < |r.entries| ensures ToJson(r).fields[j] == ToJson(d).fields[j] {
        assert ToJson(r).fields[j] == (r.entries[j].0, ValueJson(r.entries[j].1));
      }
    }
  }

  lemma {:induction false} CleanEntriesSound(d: AttrDict, i: nat)
    requires WF(d) && i <= |d.entries|
    requires forall j :: 0 <= j < |d.entries| ==> d.entries[j].0 !in Assoc.Keys(d.entries[..j])
    ensures CleanEntries(d, i).Success?
    ensures var r := CleanEntries(d, i).value;
      && |r| == |d.entries| - i
      && forall j :: 0 <= j < |r| ==>
        && r[j].0 == d.entries[i + j].0
        && ValueJson(r[j].1) == ValueJson(d.entries[i + j].1)
        && (r[j].1.Nested? ==> WF(r[j].1.dict) && !IsDirty(r[j].1.dict) && !DeepDirty(r[j].1.dict))
    decreases d, 0, |d.entries| - i
  {
    if i < |d.entries| {
      CleanValueSound(d, i);
      CleanEntriesSound(d, i + 1);
      var r := CleanEntries(d, i).value;
      var rest := CleanEntries(d, i + 1).value;
      assert r == [(d.entries[i].0, CleanValue(d, i).value)] + rest;
      forall j | 0 <= j < |r|
        ensures r[j].0 == d.entries[i + j].0 && ValueJson(r[j].1) == ValueJson(d.entries[i + j].1)
        ensures r[j].1.Nested? ==> WF(r[j].1.dict) && !IsDirty(r[j].1.dict) && !DeepDirty(r[j].1.dict)
      {
        if j > 0 {
          assert r[j] == rest[j - 1];
          assert d.entries[i + j] == d.entries[(i + 1) + (j - 1)];
        }
      }
    }
  }

  lemma {:induction false} CleanValueSound(d: AttrDict, i: nat)
    requires WF(d) && i < |d.entries|
    requires d.entries[i].0 !in Assoc.Keys(d.entries[..i])
    ensures CleanValue(d, i).Success?
    ensures var v := CleanValue(d, i).value;
      && ValueJson(v) == ValueJson(d.entries[i].1)
      && (v.Nested? ==> WF(v.dict) && !IsDirty(v.dict) && !DeepDirty(v.dict))
    decreases d, 0, 0
  {
    var (k, v) := d.entries[i];
    if v.Nested? {
      if k in d.dirty {
        MarkCleanSound(v.dict);
      } else {
        WFDirtyIffDeep(v.dict);
      }
    }
  }

  /** Without the invariant `mark_clean` can leave a dirty subtree behind: it only descends
      into fields its own dirty set names. */
  lemma MarkCleanNeedsWF()
    ensures var child := AttrDict([("x", Plain(JNull))], {"x"}, false);
      var d := AttrDict([("a", Nested(child))], {}, false);
      && !WF(d) && MarkClean(d).Success? && DeepDirty(MarkClean(d).value)
  {
    var child := AttrDict([("x", Plain(JNull))], {"x"}, false);
    var d := AttrDict([("a", Nested(child))], {}, false);
    assert CleanEntries(d, 1) == Success([]);
    assert CleanValue(d, 0) == Success(Nested(child));
    assert MarkClean(d).value.entries[0].1.dict == child;
  }

  /** `diff`: the dirty fields only, a dirty nested container by its own `diff`, any other
      value as it is. Fails on an invalidated container, or for a dirty name that is not a
      key. The fields come in the container's order. */
  function Diff(d: AttrDict): (r: Res<Json>)
    ensures r.Success? ==> r.value.JObj?
    ensures d.invalid ==> r == Failure(DocumentInvalid)
    decreases d, 1
  {
    if d.invalid then Failure(DocumentInvalid)
    else if !(forall k :: k in d.dirty ==> k in Assoc.Keys(d.entries)) then Failure(KeyError(""))
    else
      var fields :- DiffEntries(d, 0);
      Success(JObj(fields))
  }

  function DiffEntries(d: AttrDict, i: nat): (r: Res<Fields>)
    requires i <= |d.entries|
    decreases d, 0, |d.entries| - i
  {
    if i == |d.entries| then Success([])
    else
      var head :- DiffValue(d, i);
      var rest :- DiffEntries(d, i + 1);
      Success(match head case Some(v) => [(d.entries[i].0, v)] + rest case None => rest)
  }

  /** What entry `i` contributes to `diff`: nothing unless its key is dirty. */
  function DiffValue(d: AttrDict, i: nat): Res<Option<Json>>
    requires i < |d.entries|
    decreases d, 0, 0
  {
    var (k, v) := d.entries[i];
    if k !in d.dirty || k in Assoc.Keys(d.entries[..i]) then Success(None)
    else if v.Nested? && IsDirty(v.dict) then
      var j :- Diff(v.dict);
      Success(Some(j))
    else Success(Some(ValueJson(v)))
  }

  /** `post_data`: the container without its `None` values, each nested container by its
      own `post_data`, dropped when that is empty. Fails on an invalidated container. */
  function PostData(d: AttrDict): (r: Res<Json>)
    ensures r.Success? ==> r.value.JObj?
    ensures d.invalid ==> r == Failure(DocumentInvalid)
    decreases d, 1
  {
    if d.invalid then Failure(DocumentInvalid)
    else
      var fields :- PostEntries(d, 0);
      Success(JObj(fields))
  }

  function PostEntries(d: AttrDict, i: nat): (r: Res<Fields>)
    requires i <= |d.entries|
    decreases d, 0, |d.entries| - i
  {
    if i == |d.entries| then Success([])
    else
      var head :- PostValue(d, i);
      var rest :- PostEntries(d, i + 1);
      Success(match head case Some(v) => [(d.entries[i].0, v)] + rest case None => rest)
  }

  /** What entry `i` contributes to `post_data`. */
  function PostValue(d: AttrDict, i: nat): Res<Option<Json>>
    requires i < |d.entries|
    decreases d, 0, 0
  {
    match d.entries[i].1
    case Plain(j) => Success(if j == JNull then None else Some(j))
    case Nested(c) =>
      var p :- PostData(c);
      Success(if p.JObj? && |p.fields| == 0 then None else Some(p))
  }

  /** `mark_invalid`: this container and every nested one. */
  function MarkInvalid(d: AttrDict): (r: AttrDict)
    decreases d
  {
    AttrDict(seq(|d.entries|, i requires 0 <= i < |d.entries| =>
               (d.entries[i].0, match d.entries[i].1 case Plain(j) => Plain(j) case Nested(c) => Nested(MarkInvalid(c)))),
             d.dirty, true)
  }

  /** `keys_python`: the keys with their names pythonified, in order. */
  function KeysPython(d: AttrDict): (r: seq<string>)
    ensures |r| == |d.entries|
    ensures forall i :: 0 <= i < |r| ==> r[i] == Utils.PythonifyName(d.entries[i].0)
  {
    Utils.PythonifyNames(Assoc.Keys(d.entries))
  }

  // ---------------------------------------------------------------- diff and post data lemmas

  /** Looking a key up in a list that starts with a given entry. */
  lemma GetCons<V>(k0: string, v0: V, rest: seq<(string, V)>, k: string)
    ensures Assoc.Get([(k0, v0)] + rest, k) == if k0 == k then Some(v0) else Assoc.Get(rest, k)
  {
    assert ([(k0, v0)] + rest)[1..] == rest;
  }

  /** The keys from index `i` on: the key at `i`, then the keys after it. */
  lemma KeysFrom(es: seq<(string, Value)>, i: nat)
    requires i < |es|
    ensures forall k :: k in Assoc.Keys(es[i..]) <==> k == es[i].0 || k in Assoc.Keys(es[i + 1..])
  {
    assert es[i..] == [es[i]] + es[i + 1..];
    forall k ensures k in Assoc.Keys(es[i..]) <==> k == es[i].0 || k in Assoc.Keys(es[i + 1..]) {
      if k in Assoc.Keys(es[i + 1..]) {
        var m :| 0 <= m < |es[i + 1..]| && Assoc.Keys(es[i + 1..])[m] == k;
        assert Assoc.Keys(es[i..])[m + 1] == k;
      }
      if k in Assoc.Keys(es[i..]) {
        var m :| 0 <= m < |es[i..]| && Assoc.Keys(es[i..])[m] == k;
        if m > 0 {
          assert Assoc.Keys(es[i + 1..])[m - 1] == k;
        }
      }
    }
  }

  /** Under the invariant, on a valid tree, `diff` succeeds. */
  lemma {:induction false} DiffSucceeds(d: AttrDict)
    requires WF(d) && NoneInvalid(d)
    ensures Diff(d).Success?
    decreases d, 1
  {
    DiffEntriesSucceed(d, 0);
  }

  lemma {:induction false} DiffEntriesSucceed(d: AttrDict, i: nat)
    requires WF(d) && NoneInvalid(d) && i <= |d.entries|
    ensures DiffEntries(d, i).Success?
    decreases d, 0, |d.entries| - i
  {
    if i < |d.entries| {
      if d.entries[i].1.Nested? {
        DiffSucceeds(d.entries[i].1.dict);
      }
      DiffEntriesSucceed(d, i + 1);
    }
  }

  /** `diff` of the entries from `i` on, one step: the entry's contribution, if any, in
      front of the rest. */
  lemma DiffEntriesStep(d: AttrDict, i: nat)
    requires i < |d.entries| && DiffEntries(d, i).Success?
    ensures DiffValue(d, i).Success? && DiffEntries(d, i + 1).Success?
    ensures forall k :: Assoc.Get(DiffEntries(d, i).value, k) ==
                        (if DiffValue(d, i).value.Some? && d.entries[i].0 == k then DiffValue(d, i).value
                         else Assoc.Get(DiffEntries(d, i + 1).value, k))
  {
    var rest := DiffEntries(d, i + 1).value;
    var head := DiffValue(d, i).value;
    forall k ensures Assoc.Get(DiffEntries(d, i).value, k) ==
      if head.Some? && d.entries[i].0 == k then head else Assoc.Get(rest, k)
    {
      if head.Some? {
        GetCons(d.entries[i].0, head.value, rest, k);
      }
    }
  }

  /** The keys of `diff` over the entries from `i` on are the dirty ones among them. */
  lemma {:induction false} DiffEntriesKeys(d: AttrDict, i: nat)
    requires i <= |d.entries| && DiffEntries(d, i).Success?
    requires forall j :: 0 <= j < |d.entries| ==> d.entries[j].0 !in Assoc.Keys(d.entries[..j])
    ensures forall k :: Assoc.Get(DiffEntries(d, i).value, k).Some? <==> k in d.dirty && k in Assoc.Keys(d.entries[i..])
    decreases |d.entries| - i
  {
    if i < |d.entries| {
      DiffEntriesKeys(d, i + 1);
      DiffEntriesStep(d, i);
      KeysFrom(d.entries, i);
    }
  }

  /** `diff` over the entries from `i` on repeats no key. */
  lemma {:induction false} DiffEntriesDistinct(d: AttrDict, i: nat)
    requires i <= |d.entries| && DiffEntries(d, i).Success?
    requires forall j :: 0 <= j < |d.entries| ==> d.entries[j].0 !in Assoc.Keys(d.entries[..j])
    ensures Assoc.DistinctKeys(DiffEntries(d, i).value)
    decreases |d.entries| - i
  {
    if i < |d.entries| {
      DiffEntriesDistinct(d, i + 1);
      DiffEntriesStep(d, i);
      var head := DiffValue(d, i).value;
      var rest := DiffEntries(d, i + 1).value;
      if head.Some? {
        DiffEntriesKeys(d, i + 1);
        KeyNotLater(d.entries, i);
        var r := [(d.entries[i].0, head.value)] + rest;
        assert DiffEntries(d, i).value == r;
        assert Assoc.Get(rest, d.entries[i].0).None?;
        assert r[1..] == rest;
      } else {
        assert DiffEntries(d, i).value == rest;
      }
    }
  }

  /** Each dirty entry from `i` on is found in `diff` with the value it contributes. */
  lemma {:induction false} DiffEntriesValues(d: AttrDict, i: nat)
    requires i <= |d.entries| && DiffEntries(d, i).Success?
    requires forall j :: 0 <= j < |d.entries| ==> d.entries[j].0 !in Assoc.Keys(d.entries[..j])
    ensures forall j :: i <= j < |d.entries| && d.entries[j].0 in d.dirty ==>
      DiffValue(d, j).Success? && Assoc.Get(DiffEntries(d, i).value, d.entries[j].0) == DiffValue(d, j).value
    decreases |d.entries| - i
  {
    if i < |d.entries| {
      DiffEntriesValues(d, i + 1);
      DiffEntriesStep(d, i);
      forall j | i < j < |d.entries| ensures d.entries[j].0 != d.entries[i].0 {
        assert Assoc.Keys(d.entries[..j])[i] == d.entries[i].0;
      }
    }
  }

  /** `diff` of a well-formed, valid container: its keys are exactly the dirty names; a
      dirty nested container contributes its own `diff`, any other value itself. */
  lemma DiffSpec(d: AttrDict)
    requires WF(d) && NoneInvalid(d)
    ensures Diff(d).Success?
    ensures forall k :: k in Assoc.Keys(Diff(d).value.fields) <==> k in d.dirty
    ensures Assoc.DistinctKeys(Diff(d).value.fields)
    ensures forall j :: 0 <= j < |d.entries| && d.entries[j].0 in d.dirty ==>
      var v := d.entries[j].1;
      if v.Nested? && IsDirty(v.dict) then
        Diff(v.dict).Success? && Assoc.Get(Diff(d).value.fields, d.entries[j].0) == Some(Diff(v.dict).value)
      else Assoc.Get(Diff(d).value.fields, d.entries[j].0) == Some(ValueJson(v))
  {
    DiffSucceeds(d);
    Assoc.DistinctKeysFirst(d.entries);
    DiffEntriesKeys(d, 0);
    DiffEntriesDistinct(d, 0);
    DiffEntriesValues(d, 0);
    assert d.entries[0..] == d.entries;
  }

  /** Entries with nothing dirty contribute nothing to `diff`. */
  lemma {:induction false} DiffEntriesClean(d: AttrDict, i: nat)
    requires d.dirty == {} && i <= |d.entries|
    ensures DiffEntries(d, i) == Success([])
    decreases |d.entries| - i
  {
    if i < |d.entries| {
      DiffEntriesClean(d, i + 1);
    }
  }

  /** After `mark_clean`, a well-formed valid container has an empty `diff`: a PATCH
      right after a commit sends no attributes. */
  lemma DiffAfterClean(d: AttrDict)
    requires WF(d) && !d.invalid
    ensures MarkClean(d).Success? && Diff(MarkClean(d).value) == Success(Empty)
  {
    MarkCleanSound(d);
    DiffEntriesClean(MarkClean(d).value, 0);
  }

  /** On a valid tree `post_data` succeeds. */
  lemma {:induction false} PostDataSucceeds(d: AttrDict)
    requires NoneInvalid(d)
    ensures PostData(d).Success?
    decreases d, 1
  {
    PostEntriesSucceed(d, 0);
  }

  lemma {:induction false} PostEntriesSucceed(d: AttrDict, i: nat)
    requires NoneInvalid(d) && i <= |d.entries|
    ensures PostEntries(d, i).Success?
    decreases d, 0, |d.entries| - i
  {
    if i < |d.entries| {
      if d.entries[i].1.Nested? {
        PostDataSucceeds(d.entries[i].1.dict);
      }
      PostEntriesSucceed(d, i + 1);
    }
  }

  /** `post_data` of the entries from `i` on, one step. */
  lemma PostEntriesStep(d: AttrDict, i: nat)
    requires i < |d.entries| && PostEntries(d, i).Success?
    ensures PostValue(d, i).Success? && PostEntries(d, i + 1).Success?
    ensures forall k :: Assoc.Get(PostEntries(d, i).value, k) ==
                        (if PostValue(d, i).value.Some? && d.entries[i].0 == k then PostValue(d, i).value
                         else Assoc.Get(PostEntries(d, i + 1).value, k))
  {
    var rest := PostEntries(d, i + 1).value;
    var head := PostValue(d, i).value;
    forall k ensures Assoc.Get(PostEntries(d, i).value, k) ==
      if head.Some? && d.entries[i].0 == k then head else Assoc.Get(rest, k)
    {
      if head.Some? {
        GetCons(d.entries[i].0, head.value, rest, k);
      }
    }
  }

  /** With first occurrences only, an entry's key does not come back later. */
  lemma KeyNotLater(es: seq<(string, Value)>, i: nat)
    requires i < |es|
    requires forall j :: 0 <= j < |es| ==> es[j].0 !in Assoc.Keys(es[..j])
    ensures es[i].0 !in Assoc.Keys(es[i + 1..])
  {
    var later := Assoc.Keys(es[i + 1..]);
    forall m | 0 <= m < |later| ensures later[m] != es[i].0 {
      assert Assoc.Keys(es[..i + 1 + m])[i] == es[i].0;
    }
  }

  /** `post_data` of the entries from `i` on holds only their keys, each once. */
  lemma {:induction false} PostEntriesKeys(d: AttrDict, i: nat)
    requires i <= |d.entries| && PostEntries(d, i).Success?
    requires forall j :: 0 <= j < |d.entries| ==> d.entries[j].0 !in Assoc.Keys(d.entries[..j])
    ensures forall k :: Assoc.Get(PostEntries(d, i).value, k).Some? ==> k in Assoc.Keys(d.entries[i..])
    ensures Assoc.DistinctKeys(PostEntries(d, i).value)
    decreases |d.entries| - i
  {
    if i < |d.entries| {
      PostEntriesKeys(d, i + 1);
      PostEntriesStep(d, i);
      KeysFrom(d.entries, i);
      KeyNotLater(d.entries, i);
      if PostValue(d, i).value.Some? {
        assert d.entries[i].0 !in Assoc.Keys(PostEntries(d, i + 1).value);
      }
    }
  }

  /** Entry `i` is found in `post_data` of the entries from `i` on as it contributes. */
  lemma PostEntriesHere(d: AttrDict, i: nat)
    requires i < |d.entries| && PostEntries(d, i).Success?
    requires forall j :: 0 <= j < |d.entries| ==> d.entries[j].0 !in Assoc.Keys(d.entries[..j])
    ensures PostValue(d, i).Success? && Assoc.Get(PostEntries(d, i).value, d.entries[i].0) == PostValue(d, i).value
  {
    PostEntriesStep(d, i);
    PostEntriesKeys(d, i + 1);
    KeyNotLater(d.entries, i);
  }

  /** Each entry from `i` on is found in `post_data` as it contributes, or not at all. */
  lemma {:induction false} PostEntriesValues(d: AttrDict, i: nat)
    requires i <= |d.entries| && PostEntries(d, i).Success?
    requires forall j :: 0 <= j < |d.entries| ==> d.entries[j].0 !in Assoc.Keys(d.entries[..j])
    ensures forall j :: i <= j < |d.entries| ==>
      PostValue(d, j).Success? && Assoc.Get(PostEntries(d, i).value, d.entries[j].0) == PostValue(d, j).value
    decreases |d.entries| - i
  {
    if i < |d.entries| {
      PostEntriesHere(d, i);
      PostEntriesValues(d, i + 1);
      PostEntriesStep(d, i);
      forall j | i < j < |d.entries| ensures d.entries[j].0 != d.entries[i].0 {
        assert Assoc.Keys(d.entries[..j])[i] == d.entries[i].0;
      }
    }
  }

  /** What one entry contributes to `post_data`. */
  lemma PostValueCases(d: AttrDict, j: nat)
    requires j < |d.entries| && PostValue(d, j).Success?
    ensures d.entries[j].1.Plain? ==>
      var x := d.entries[j].1.json;
      PostValue(d, j).value == if x == JNull then None else Some(x)
    ensures d.entries[j].1.Nested? ==>
      var c := d.entries[j].1.dict;
      && PostData(c).Success?
      && PostValue(d, j).value == if PostData(c).value.fields == [] then None else Some(PostData(c).value)
    ensures PostValue(d, j).value != Some(JNull)
  {
  }

  /** `post_data` of a valid container: a plain value is kept unless it is `None`; a
      nested container appears as its own `post_data` unless that is empty; nothing else
      appears, and no key holds `None`. */
  lemma PostDataSpec(d: AttrDict)
    requires Assoc.DistinctKeys(d.entries) && NoneInvalid(d)
    ensures PostData(d).Success?
    ensures Assoc.DistinctKeys(PostData(d).value.fields)
    ensures forall k :: k !in Assoc.Keys(d.entries) ==> Assoc.Get(PostData(d).value.fields, k).None?
    ensures forall k :: Assoc.Get(PostData(d).value.fields, k) != Some(JNull)
    ensures forall j :: 0 <= j < |d.entries| && d.entries[j].1.Plain? ==>
      var x := d.entries[j].1.json;
      Assoc.Get(PostData(d).value.fields, d.entries[j].0) == if x == JNull then None else Some(x)
    ensures forall j :: 0 <= j < |d.entries| && d.entries[j].1.Nested? ==>
      var c := d.entries[j].1.dict;
      && PostData(c).Success?
      && Assoc.Get(PostData(d).value.fields, d.entries[j].0) ==
           if PostData(c).value.fields == [] then None else Some(PostData(c).value)
  {
    PostDataSucceeds(d);
    Assoc.DistinctKeysFirst(d.entries);
    PostEntriesKeys(d, 0);
    PostEntriesValues(d, 0);
    assert d.entries[0..] == d.entries;
    var f := PostData(d).value.fields;
    forall j | 0 <= j < |d.entries| {
      PostValueCases(d, j);
    }
    forall k ensures Assoc.Get(f, k) != Some(JNull) {
      if k in Assoc.Keys(d.entries) {
        var j :| 0 <= j < |d.entries| && Assoc.Keys(d.entries)[j] == k;
        assert d.entries[j].0 == k;
      }
    }
  }

  /** `{a: 1, b: None, c: {d: None}}` posts as `{a: 1}`. */
  lemma PostDataExample()
    ensures var c := AttrDict([("d", Plain(JNull))], {}, false);
      var d := AttrDict([("a", Plain(JNum(1))), ("b", Plain(JNull)), ("c", Nested(c))], {}, false);
      PostData(d) == Success(JObj([("a", JNum(1))]))
  {
    var c := AttrDict([("d", Plain(JNull))], {}, false);
    var d := AttrDict([("a", Plain(JNum(1))), ("b", Plain(JNull)), ("c", Nested(c))], {}, false);
    assert PostEntries(c, 1) == Success([]);
    assert PostValue(c, 0) == Success(None);
    assert PostEntries(c, 0) == Success([]);
    assert PostData(c) == Success(Empty);
    assert PostEntries(d, 3) == Success([]);
    assert PostValue(d, 2) == Success(None);
    assert PostEntries(d, 2) == Success([]);
    assert PostValue(d, 1) == Success(None);
    assert PostEntries(d, 1) == Success([]);
    assert PostValue(d, 0) == Success(Some(JNum(1)));
    assert d.entries[0].0 == "a";
    assert [(d.entries[0].0, JNum(1))] + [] == [("a", JNum(1))];
  }

  // ---------------------------------------------------------------- invalidation lemmas

  /** `mark_invalid` reaches every nested container and changes no value or dirty set. */
  lemma {:induction false} MarkInvalidAll(d: AttrDict)
    ensures AllInvalid(MarkInvalid(d))
    ensures ToJson(MarkInvalid(d)) == ToJson(d)
    ensures Assoc.Keys(MarkInvalid(d).entries) == Assoc.Keys(d.entries) && MarkInvalid(d).dirty == d.dirty
    decreases d
  {
    var r := MarkInvalid(d);
    forall i | 0 <= i < |d.entries| && d.entries[i].1.Nested?
      ensures AllInvalid(r.entries[i].1.dict) && ToJson(r.entries[i].1.dict) == ToJson(d.entries[i].1.dict)
    {
      MarkInvalidAll(d.entries[i].1.dict);
    }
    assert ToJson(r).fields == ToJson(d).fields by {
      forall i | 0 <= i < |d.entries| ensures ToJson(r).fields[i] == ToJson(d).fields[i] {
        assert ToJson(r).fields[i] == (r.entries[i].0, ValueJson(r.entries[i].1));
      }
    }
    assert Assoc.Keys(r.entries) == Assoc.Keys(d.entries);
  }

  /** Every container reached in an invalidated tree is invalidated. */
  lemma {:induction false} AtAllInvalid(d: AttrDict, path: seq<string>)
    requires AllInvalid(d) && At(d, path).Some?
    ensures AllInvalid(At(d, path).value)
    decreases |path|
  {
    if |path| > 0 {
      var child := Assoc.Get(d.entries, path[0]).value.dict;
      var i :| 0 <= i < |d.entries| && d.entries[i] == (path[0], Nested(child));
      AtAllInvalid(child, path[1..]);
    }
  }

  /** After `mark_invalid`, `diff`, `post_data` and `create_map` fail with `DocumentInvalid`
      on the container and on every container nested in it. */
  lemma InvalidatedRejects(c: Ctx, d: AttrDict, fullName: string, path: seq<string>, attrName: string)
    ensures var t := MarkInvalid(d);
      At(t, path).Some? ==>
        && Diff(At(t, path).value) == Failure(DocumentInvalid)
        && PostData(At(t, path).value) == Failure(DocumentInvalid)
        && EditAt(c, t, fullName, path, CreateMap(attrName)) == Failure(DocumentInvalid)
  {
    var t := MarkInvalid(d);
    MarkInvalidAll(d);
    if At(t, path).Some? {
      AtAllInvalid(t, path);
      EditAtSucceeds(c, t, fullName, path, CreateMap(attrName));
    }
  }

  // ---------------------------------------------------------------- construction without a schema

  /** Entries as the plain key/value pairs a comparison sees. */
  function EntriesJson(es: seq<(string, Value)>): (f: Fields)
    ensures |f| == |es| && Assoc.Keys(f) == Assoc.Keys(es)
  {
    var f := seq(|es|, i requires 0 <= i < |es| => (es[i].0, ValueJson(es[i].1)));
    assert forall i :: 0 <= i < |es| ==> Assoc.Keys(f)[i] == Assoc.Keys(es)[i];
    f
  }

  lemma ToJsonFields(d: AttrDict)
    ensures ToJson(d) == JObj(EntriesJson(d.entries))
  {
    assert ToJson(d).fields == EntriesJson(d.entries) by {
      forall i | 0 <= i < |d.entries| ensures ToJson(d).fields[i] == EntriesJson(d.entries)[i] { }
    }
  }

  /** Without a schema, a constructor within the recursion limit succeeds, marks nothing,
      and holds exactly the data it was given. */
  lemma {:induction false} BuildPlain(s: Schemas.Schema, rtype: string, fullName: string, data: Json, fuel: nat)
    requires !Schemas.IsEnabled(s) && data.JObj? && UniqueKeys(data) && ObjectDepth(data) <= fuel
    ensures Build(s, rtype, fullName, data, fuel).Success?
    ensures !Build(s, rtype, fullName, data, fuel).value.1
    ensures ToJson(Build(s, rtype, fullName, data, fuel).value.0) == data
    decreases fuel, 2, 0
  {
    forall i | 0 <= i < |data.fields| ensures ObjectDepth(data.fields[i].1) < fuel {
      ObjectDepthMember(data, i);
    }
    var empty: seq<(string, Value)> := [];
    assert EntriesJson(empty) + data.fields == data.fields;
    ExtraFieldsPlain(s, rtype, fullName, data.fields, empty, false, fuel);
    BuildNoSchema(s, rtype, fullName, data, fuel);
    ToJsonFields(Build(s, rtype, fullName, data, fuel).value.0);
  }

  /** Without a schema, construction is the extra-data loop over all of the data. */
  lemma BuildNoSchema(s: Schemas.Schema, rtype: string, fullName: string, data: Json, fuel: nat)
    requires !Schemas.IsEnabled(s) && data.JObj? && fuel > 0
    ensures Build(s, rtype, fullName, data, fuel) ==
      match ExtraFields(s, rtype, fullName, data.fields, [], false, fuel)
      case Success(x) => Success((AttrDict(x.0, {}, false), x.1))
      case Failure(e) => Failure(e)
  {
    assert Schemas.FindSpec(s, rtype, fullName) == Success(Empty);
  }

  lemma {:induction false} ExtraFieldsPlain(s: Schemas.Schema, rtype: string, fullName: string, rest: Fields,
                                            acc: seq<(string, Value)>, touched: bool, fuel: nat)
    requires !Schemas.IsEnabled(s) && fuel > 0
    requires forall i :: 0 <= i < |rest| ==> ObjectDepth(rest[i].1) < fuel && UniqueKeys(rest[i].1)
    requires Assoc.DistinctKeys(EntriesJson(acc) + rest)
    ensures ExtraFields(s, rtype, fullName, rest, acc, touched, fuel).Success?
    ensures ExtraFields(s, rtype, fullName, rest, acc, touched, fuel).value.1 == touched
    ensures EntriesJson(ExtraFields(s, rtype, fullName, rest, acc, touched, fuel).value.0) == EntriesJson(acc) + rest
    decreases fuel, 1, |rest|
  {
    if |rest| > 0 {
      var (key, v) := rest[0];
      FirstKeyFresh(EntriesJson(acc), rest);
      var value: Value;
      if v.JObj? {
        BuildPlain(s, rtype, FullName(fullName, key), v, fuel - 1);
        value := Nested(Build(s, rtype, FullName(fullName, key), v, fuel - 1).value.0);
      } else {
        value := Plain(v);
      }
      ExtraFieldsStep(s, rtype, fullName, rest, acc, touched, fuel, value);
      var acc' := acc + [(key, value)];
      EntriesJsonSnoc(acc, key, value);
      SnocRest(EntriesJson(acc), rest);
      ExtraFieldsPlain(s, rtype, fullName, rest[1..], acc', touched, fuel);
    } else {
      assert rest == [];
    }
  }

  /** In a list with distinct keys, the first key of the second part is not in the first. */
  lemma FirstKeyFresh(a: Fields, b: Fields)
    requires |b| > 0 && Assoc.DistinctKeys(a + b)
    ensures b[0].0 !in Assoc.Keys(a)
  {
    Assoc.DistinctKeysPairwise(a + b);
    forall m | 0 <= m < |a| ensures Assoc.Keys(a)[m] != b[0].0 {
      assert (a + b)[m] == a[m] && (a + b)[|a|] == b[0];
    }
  }

  lemma SnocRest<T>(a: seq<T>, b: seq<T>)
    requires |b| > 0
    ensures (a + [b[0]]) + b[1..] == a + b
  {
    assert b == [b[0]] + b[1..];
  }

  lemma EntriesJsonSnoc(es: seq<(string, Value)>, key: string, v: Value)
    ensures EntriesJson(es + [(key, v)]) == EntriesJson(es) + [(key, ValueJson(v))]
  {
  }

  /** One step of the extra-data loop when the value is stored unchanged and its
      construction marks nothing: the key is appended with the value. */
  lemma ExtraFieldsStep(s: Schemas.Schema, rtype: string, fullName: string, rest: Fields,
                        acc: seq<(string, Value)>, touched: bool, fuel: nat, value: Value)
    requires fuel > 0 && |rest| > 0 && rest[0].0 !in Assoc.Keys(acc)
    requires !rest[0].1.JObj? ==> value == Plain(rest[0].1)
    requires rest[0].1.JObj? ==>
      var b := Build(s, rtype, FullName(fullName, rest[0].0), rest[0].1, fuel - 1);
      b.Success? && !b.value.1 && ToJson(b.value.0) == rest[0].1 && value == Nested(b.value.0)
    ensures ValueJson(value) == rest[0].1
    ensures ExtraFields(s, rtype, fullName, rest, acc, touched, fuel) ==
      ExtraFields(s, rtype, fullName, rest[1..], acc + [(rest[0].0, value)], touched, fuel)
  {
    Assoc.PutNew(acc, rest[0].0, value);
  }
}

=== FILE: errors.dfy ===
/** The exceptions the library raises, as values. */
module Errors {
  import opened Wrappers

  datatype Error =
    | DocumentInvalid            // access to an invalidated attribute container
    | ValidationError(msg: string)
    | KeyError(key: string)      // a missing dictionary key
    | TypeError(msg: string)     // a value of the wrong Python type
    | ValueError(msg: string)
    | AttributeError(msg: string)
    | AsyncError(msg: string)    // a call made in the wrong session mode
    | RecursionError             // Python's recursion limit was reached

  /** A computation that either yields a value or raises one of the errors above. */
  type Res<T> = Result<T, Error>
}

=== FILE: http.dfy ===
/** HTTP constants and status-code helpers (status classes as in section 15 of RFC 9110). */
module Http {
  import opened Json
  import Assoc

  /** The Content-Type header sent with every write request. */
  const ContentType: string := "application/vnd.api+json"

  /** The write methods, as the lower-case strings handed to the transport. */
  datatype Method = Post | Patch | Delete {
    function Name(): (s: string)
      ensures s in {"post", "patch", "delete"}
    {
      match this
      case Post => "post"
      case Patch => "patch"
      case Delete => "delete"
    }
  }

  const Ok200: int := 200
  const Created201: int := 201
  const Accepted202: int := 202

  predicate IsInformational(code: int) { 100 <= code <= 199 }
  predicate IsSuccess(code: int) { 200 <= code <= 299 }
  predicate IsRedirect(code: int) { 300 <= code <= 399 }
  predicate IsClientError(code: int) { 400 <= code <= 499 }
  predicate IsServerError(code: int) { 500 <= code <= 599 }

  /** Only 200 and 201 carry the resource's new state in the response body. */
  predicate HasResource(code: int) { code == Ok200 || code == Created201 }

  datatype StatusClass = Informational | Success | Redirect | ClientError | ServerError

  /** The class of a status code, if any; one code never belongs to two classes. */
  function ClassOf(code: int): (c: Wrappers.Option<StatusClass>)
    ensures c == Wrappers.Some(Informational) <==> IsInformational(code)
    ensures c == Wrappers.Some(Success) <==> IsSuccess(code)
    ensures c == Wrappers.Some(Redirect) <==> IsRedirect(code)
    ensures c == Wrappers.Some(ClientError) <==> IsClientError(code)
    ensures c == Wrappers.Some(ServerError) <==> IsServerError(code)
    ensures c.None? <==> code < 100 || code > 599
  {
    if code < 100 || code > 599 then Wrappers.None
    else if code < 200 then Wrappers.Some(Informational)
    else if code < 300 then Wrappers.Some(Success)
    else if code < 400 then Wrappers.Some(Redirect)
    else if code < 500 then Wrappers.Some(ClientError)
    else Wrappers.Some(ServerError)
  }

  /** A status with a resource body is a success; 202 Accepted is a success without one. */
  lemma HasResourceIsSuccess(code: int)
    ensures HasResource(code) ==> IsSuccess(code)
    ensures IsSuccess(Accepted202) && !HasResource(Accepted202)
  {
  }

  /** `error_from_response`: the `title` of the first element of `errors` in the parsed
      body (`None` when the body is not JSON), or `'?'` when any step of that path fails. */
  function ErrorFromResponse(body: Wrappers.Option<Json>): (title: Json)
    ensures title != JStr("?") ==>
      && body.Some? && body.value.JObj?
      && Assoc.Get(body.value.fields, "errors").Some?
      && Assoc.Get(body.value.fields, "errors").value.JArr?
      && |Assoc.Get(body.value.fields, "errors").value.items| > 0
      && Member(Assoc.Get(body.value.fields, "errors").value.items[0], "title") == Wrappers.Some(title)
  {
    if body.None? then JStr("?")
    else match Member(body.value, "errors")
      case Some(JArr(items)) =>
        if |items| > 0 && Member(items[0], "title").Some?
        then Member(items[0], "title").value
        else JStr("?")
      case _ => JStr("?")
  }

  /** Conversely, when the whole path exists its title is returned, whatever it is. */
  lemma ErrorFromResponseFound(body: Json, items: seq<Json>, title: Json)
    requires Member(body, "errors") == Wrappers.Some(JArr(items))
    requires |items| > 0 && Member(items[0], "title") == Wrappers.Some(title)
    ensures ErrorFromResponse(Wrappers.Some(body)) == title
  {
  }

  /** The three write methods are sent as three different strings. */
  lemma MethodNamesDistinct()
    ensures Post.Name() != Patch.Name() && Patch.Name() != Delete.Name() && Post.Name() != Delete.Name()
  {
  }
}

=== FILE: json.dfy ===
/** JSON values as the library sees them after `json.loads`: Python `None`, `bool`, numbers,
    `str`, `list` and insertion-ordered `dict`. Numbers are modelled as integers; JSON
    floats are not represented. */
module Json {
  import opened Wrappers
  import Assoc

  datatype Json =
    | JNull
    | JBool(b: bool)
    | JNum(n: int)
    | JStr(s: string)
    | JArr(items: seq<Json>)
    | JObj(fields: seq<(string, Json)>)

  /** The members of a JSON object, in insertion order. */
  type Fields = seq<(string, Json)>

  /** An empty object `{}`. */
  const Empty: Json := JObj([])

  /** Python truthiness (`bool(v)`): `None`, `False`, `0`, `''`, `[]` and `{}` are false. */
  predicate Truthy(j: Json) {
    match j
    case JNull => false
    case JBool(b) => b
    case JNum(n) => n != 0
    case JStr(s) => s != ""
    case JArr(items) => |items| > 0
    case JObj(fields) => |fields| > 0
  }

  /** `v.get(k)` on a value known to be an object; any other value has no members. */
  function Member(j: Json, k: string): Option<Json> {
    if j.JObj? then Assoc.Get(j.fields, k) else None
  }

  /** Number of constructors in a value: a measure that strictly shrinks into members. */
  function Size(j: Json): (n: nat)
    ensures n >= 1
    decreases j
  {
    match j
    case JArr(items) => 1 + Sum(seq(|items|, i requires 0 <= i < |items| => Size(items[i])))
    case JObj(fields) => 1 + Sum(seq(|fields|, i requires 0 <= i < |fields| => Size(fields[i].1)))
    case _ => 1
  }

  function Sum(xs: seq<nat>): nat {
    if |xs| == 0 then 0 else xs[0] + Sum(xs[1..])
  }

  lemma {:induction false} SumBounds(xs: seq<nat>, i: nat)
    requires i < |xs|
    ensures xs[i] <= Sum(xs)
  {
    if i > 0 {
      SumBounds(xs[1..], i - 1);
    }
  }

  /** A member of an object is strictly smaller than the object. */
  lemma MemberSmaller(fields: Fields, k: string)
    requires Assoc.Get(fields, k).Some?
    ensures Size(Assoc.Get(fields, k).value) < Size(JObj(fields))
  {
    var v := Assoc.Get(fields, k).value;
    var i :| 0 <= i < |fields| && fields[i] == (k, v);
    var sizes := seq(|fields|, i requires 0 <= i < |fields| => Size(fields[i].1));
    SumBounds(sizes, i);
  }

  /** How deeply objects nest in objects (arrays are not entered): `{}` has depth 1. */
  function ObjectDepth(j: Json): nat
    decreases j
  {
    match j
    case JObj(fields) => 1 + Max(seq(|fields|, i requires 0 <= i < |fields| => ObjectDepth(fields[i].1)))
    case _ => 0
  }

  /** A member of an object is strictly shallower than the object. */
  lemma ObjectDepthMember(j: Json, i: nat)
    requires j.JObj? && i < |j.fields|
    ensures ObjectDepth(j.fields[i].1) < ObjectDepth(j)
  {
    var depths := seq(|j.fields|, k requires 0 <= k < |j.fields| => ObjectDepth(j.fields[k].1));
    assert depths[i] == ObjectDepth(j.fields[i].1);
  }

  function Max(xs: seq<nat>): (m: nat)
    ensures forall i :: 0 <= i < |xs| ==> xs[i] <= m
  {
    if |xs| == 0 then 0
    else
      var rest := Max(xs[1..]);
      assert forall i :: 1 <= i < |xs| ==> xs[i] == xs[1..][i - 1];
      if xs[0] < rest then rest else xs[0]
  }

  /** Every object reached through objects has distinct keys, as `json.loads` yields them. */
  predicate UniqueKeys(j: Json)
    decreases j
  {
    j.JObj? ==>
      && Assoc.DistinctKeys(j.fields)
      && forall i :: 0 <= i < |j.fields| ==> UniqueKeys(j.fields[i].1)
  }

  /** `data.pop(key, default)`: the value (or the default) and the dict without the key. */
  function Pop(data: Fields, key: string, default: Json): (r: (Json, Fields))
    ensures r.0 == (match Assoc.Get(data, key) case Some(v) => v case None => default)
    ensures forall k :: k != key ==> Assoc.Get(r.1, k) == Assoc.Get(data, k)
    ensures Assoc.DistinctKeys(data) ==> Assoc.Get(r.1, key).None?
    ensures key !in Assoc.Keys(data) ==> r.1 == data
    ensures forall i :: Assoc.FirstAt(data, key, i) ==> r.1 == data[..i] + data[i + 1..]
  {
    var popped := (match Assoc.Get(data, key) case Some(v) => v case None => default, Assoc.Remove(data, key));
    Assoc.RemoveOrder(data, key);
    if key !in Assoc.Keys(data) then Assoc.RemoveAbsent(data, key); popped
    else if Assoc.DistinctKeys(data) then Assoc.RemoveGone(data, key); popped
    else popped
  }
}

=== FILE: modifiers.dfy ===
/** Query modifiers appended to collection URLs: filtering, sparse fieldsets, inclusion of
    related resources and sorting (JSON:API 1.0, "Fetching Data"), and their sums. */
module Modifiers {
  import opened Wrappers
  import opened Errors
  import opened Strings
  import Assoc
  import Utils

  /** A named parameter value: a scalar, or a list that is sent comma-joined. Python
      renders non-string scalars with `str()`; here they arrive already rendered. */
  datatype Param = Scalar(value: string) | Many(values: seq<string>)

  datatype Modifier =
    | Raw(query: string)                                        // `Modifier(query_str)`
    | Filtered(keyword: string, params: seq<(string, string)>)  // `Filter`, `SparseFieldset`
    | Listed(keyword: string, values: seq<string>)              // `Include`, `Sort`
    | Sum(mods: seq<Modifier>)                                  // `ModifierSum`

  /** The `k=v` pieces of a parsed filter, in dict order. */
  function Pairs(ps: seq<(string, string)>): (r: seq<string>)
    ensures |r| == |ps|
    ensures forall i :: 0 <= i < |ps| ==> r[i] == ps[i].0 + "=" + ps[i].1
  {
    seq(|ps|, i requires 0 <= i < |ps| => ps[i].0 + "=" + ps[i].1)
  }

  /** `appended_query` */
  function Query(m: Modifier): string
    decreases m
  {
    match m
    case Raw(q) => q
    case Filtered(_, ps) => Join('&', Pairs(ps))
    case Listed(kw, vs) => kw + "=" + Join(',', vs)
    case Sum(ms) => Join('&', seq(|ms|, i requires 0 <= i < |ms| => Query(ms[i])))
  }

  /** The queries of a list of modifiers, in order. */
  function Queries(ms: seq<Modifier>): (r: seq<string>)
    ensures |r| == |ms|
    ensures forall i :: 0 <= i < |ms| ==> r[i] == Query(ms[i])
  {
    seq(|ms|, i requires 0 <= i < |ms| => Query(ms[i]))
  }

  /** `url_with_modifiers(base)`: the base, a `?`, then the query; for a base without `?`
      the first `?` of the result separates exactly those two parts again. */
  function UrlWithModifiers(m: Modifier, base: string): (u: string)
    ensures StartsWith(u, base + "?")
    ensures '?' !in base ==> SplitFirst(u, '?') == Some((base, Query(m)))
  {
    var u := base + "?" + Query(m);
    assert u[..|base + "?"|] == base + "?";
    if '?' in base then u
    else
      SplitFirstAt(base, Query(m), '?');
      u
  }

  // ---------------------------------------------------------------- sums

  /** The operands a sum contributes: its members for a sum, itself otherwise. */
  function Flatten(m: Modifier): seq<Modifier> {
    if m.Sum? then m.mods else [m]
  }

  /** `a + b`: one level of sums is flattened, so repeated additions stay flat. */
  function Add(a: Modifier, b: Modifier): (r: Modifier)
    ensures r.Sum? && Flatten(r) == Flatten(a) + Flatten(b)
  {
    Sum(Flatten(a) + Flatten(b))
  }

  /** A modifier's query is the `&`-join of the queries of what it contributes to a sum. */
  lemma QueryFlatten(m: Modifier)
    ensures Query(m) == Join('&', Queries(Flatten(m)))
  {
    if !m.Sum? {
      assert Queries(Flatten(m)) == [Query(m)];
    }
  }

  /** Addition is associative, up to equality of the resulting modifiers. */
  lemma AddAssociative(a: Modifier, b: Modifier, c: Modifier)
    ensures Add(Add(a, b), c) == Add(a, Add(b, c))
    ensures Query(Add(Add(a, b), c)) == Query(Add(a, Add(b, c)))
  {
    assert Flatten(a) + Flatten(b) + Flatten(c) == Flatten(a) + (Flatten(b) + Flatten(c));
  }

  /** The query of a sum joins the operands' queries with `&`, left to right (an operand
      that is itself an empty sum contributes nothing, not even its `&`). */
  lemma AddQuery(a: Modifier, b: Modifier)
    requires |Flatten(a)| > 0 && |Flatten(b)| > 0
    ensures Query(Add(a, b)) == Query(a) + "&" + Query(b)
  {
    var qa := Queries(Flatten(a));
    var qb := Queries(Flatten(b));
    assert Queries(Flatten(a) + Flatten(b)) == qa + qb;
    JoinConcat('&', qa, qb);
    QueryFlatten(a);
    QueryFlatten(b);
  }

  // ---------------------------------------------------------------- filters

  /** The key of a `k=v` segment. */
  function SegmentKey(seg: string): Option<string> {
    match SplitFirst(seg, '=')
    case Some((k, _)) => Some(k)
    case None => None
  }

  /** Segment `i` is the last one naming its key. */
  predicate LastOfKey(segs: seq<string>, i: int)
    requires 0 <= i < |segs|
  {
    forall j :: i < j < |segs| ==> SegmentKey(segs[j]) != SegmentKey(segs[i])
  }

  /** Some segment names key `k`. */
  predicate NamesKey(segs: seq<string>, k: string) {
    exists j :: 0 <= j < |segs| && SegmentKey(segs[j]) == Some(k)
  }

  /** The `query_str` loop of `Filter.__init__` over `&`-separated segments: empty segments
      are skipped, each other one is split at its first `=` (a segment without one raises
      `ValueError`), and the pair is written into the dict. */
  function ParseSegments(segs: seq<string>, acc: seq<(string, string)>): Res<seq<(string, string)>>
    decreases |segs|
  {
    if |segs| == 0 then Success(acc)
    else if segs[0] == "" then ParseSegments(segs[1..], acc)
    else match SplitFirst(segs[0], '=')
      case None => Failure(ValueError("not enough values to unpack"))
      case Some((k, v)) => ParseSegments(segs[1..], Assoc.Put(acc, k, v))
  }

  /** Some non-empty segment holds no `=`. */
  predicate Malformed(segs: seq<string>) {
    exists i :: 0 <= i < |segs| && segs[i] != "" && '=' !in segs[i]
  }

  /** Parsing fails exactly when a non-empty segment holds no `=`. */
  lemma {:induction false} ParseFails(segs: seq<string>, acc: seq<(string, string)>)
    ensures ParseSegments(segs, acc).Failure? <==> Malformed(segs)
    decreases |segs|
  {
    if |segs| > 0 {
      var rest := segs[1..];
      assert forall j :: 0 <= j < |rest| ==> rest[j] == segs[j + 1];
      if segs[0] == "" {
        ParseFails(rest, acc);
      } else if SplitFirst(segs[0], '=').Some? {
        var (k, v) := SplitFirst(segs[0], '=').value;
        ParseFails(rest, Assoc.Put(acc, k, v));
      }
    }
  }

  /** A key named by no segment keeps the value it had before parsing, and earlier keys
      keep their positions. */
  lemma {:induction false} ParseKeepsOthers(segs: seq<string>, acc: seq<(string, string)>, k: string)
    requires ParseSegments(segs, acc).Success?
    requires !NamesKey(segs, k)
    ensures Assoc.Get(ParseSegments(segs, acc).value, k) == Assoc.Get(acc, k)
    ensures Assoc.Keys(acc) <= Assoc.Keys(ParseSegments(segs, acc).value)
    decreases |segs|
  {
    if |segs| > 0 {
      var rest := segs[1..];
      assert forall j :: 0 <= j < |rest| ==> rest[j] == segs[j + 1];
      assert !NamesKey(rest, k);
      if segs[0] == "" {
        ParseKeepsOthers(rest, acc, k);
      } else {
        var (k0, v0) := SplitFirst(segs[0], '=').value;
        assert SegmentKey(segs[0]) == Some(k0);
        ParseKeepsOthers(rest, Assoc.Put(acc, k0, v0), k);
      }
    }
  }

  /** The last segment naming a key decides its value: a repeated key takes the later value. */
  lemma {:induction false} ParseLastWins(segs: seq<string>, acc: seq<(string, string)>, i: int)
    requires ParseSegments(segs, acc).Success?
    requires 0 <= i < |segs| && SegmentKey(segs[i]).Some? && LastOfKey(segs, i)
    ensures Assoc.Get(ParseSegments(segs, acc).value, SegmentKey(segs[i]).value)
            == Some(SplitFirst(segs[i], '=').value.1)
    decreases |segs|
  {
    var rest := segs[1..];
    var acc' := acc;
    if segs[0] != "" {
      assert SplitFirst(segs[0], '=').Some?;
      var (k0, v0) := SplitFirst(segs[0], '=').value;
      acc' := Assoc.Put(acc, k0, v0);
    }
    assert ParseSegments(segs, acc) == ParseSegments(rest, acc');
    if i == 0 {
      var (k0, v0) := SplitFirst(segs[0], '=').value;
      assert Assoc.Get(acc', k0) == Some(v0);
      assert !NamesKey(rest, k0) by {
        forall j | 0 <= j < |rest| ensures SegmentKey(rest[j]) != Some(k0) {
          assert rest[j] == segs[j + 1];
        }
      }
      ParseKeepsOthers(rest, acc', k0);
    } else {
      assert rest[i - 1] == segs[i];
      assert LastOfKey(rest, i - 1) by {
        forall j | i - 1 < j < |rest|
          ensures SegmentKey(rest[j]) != SegmentKey(rest[i - 1])
        {
          assert rest[j] == segs[j + 1];
        }
      }
      ParseLastWins(rest, acc', i - 1);
    }
  }

  /** The rendering of a named parameter value: lists are comma-joined. */
  function Render(p: Param): string {
    match p
    case Scalar(s) => s
    case Many(vs) => Join(',', vs)
  }

  /** The dict key a named parameter goes under: `keyword[jsonified name]`. */
  function NamedKey(keyword: string, name: string): string {
    keyword + "[" + Utils.JsonifyName(name) + "]"
  }

  /** A name without `_` goes under `keyword[name]` unchanged. */
  lemma NamedKeyPlain(keyword: string, name: string)
    requires '_' !in name
    ensures NamedKey(keyword, name) == keyword + "[" + name + "]"
  {
    Utils.JsonifyPlain(name);
  }

  /** One named parameter: appended after a comma to a non-empty value already under its
      key, set otherwise; every other key keeps its value. */
  function AddNamedOne(keyword: string, acc: seq<(string, string)>, name: string, p: Param)
    : (r: seq<(string, string)>)
    ensures var prev := Assoc.Get(acc, NamedKey(keyword, name));
      Assoc.Get(r, NamedKey(keyword, name)) ==
        Some(if prev.Some? && prev.value != "" then prev.value + "," + Render(p) else Render(p))
    ensures forall k :: k != NamedKey(keyword, name) ==> Assoc.Get(r, k) == Assoc.Get(acc, k)
    ensures Assoc.Keys(acc) <= Assoc.Keys(r)
  {
    var key := NamedKey(keyword, name);
    var prev := Assoc.Get(acc, key);
    Assoc.Put(acc, key, if prev.Some? && prev.value != "" then prev.value + "," + Render(p) else Render(p))
  }

  /** The keyword-argument loop of `Filter.__init__`, in argument order. */
  function AddNamed(keyword: string, acc: seq<(string, string)>, kwargs: seq<(string, Param)>)
    : (r: seq<(string, string)>)
    ensures Assoc.Keys(acc) <= Assoc.Keys(r)
    ensures forall k :: (forall i :: 0 <= i < |kwargs| ==> NamedKey(keyword, kwargs[i].0) != k) ==>
      Assoc.Get(r, k) == Assoc.Get(acc, k)
    decreases |kwargs|
  {
    if |kwargs| == 0 then acc
    else AddNamed(keyword, AddNamedOne(keyword, acc, kwargs[0].0, kwargs[0].1), kwargs[1..])
  }

  /** `Filter(query_str, **kwargs)` with the class's `modifier_keyword`. */
  function MakeFilter(keyword: string, queryStr: string, kwargs: seq<(string, Param)>): (r: Res<Modifier>)
    ensures r.Failure? <==> Malformed(Split(queryStr, '&'))
    ensures r.Success? ==> r.value.Filtered? && r.value.keyword == keyword
    ensures r.Success? && |kwargs| == 0 ==>
      ParseSegments(Split(queryStr, '&'), []) == Success(r.value.params)
  {
    ParseFails(Split(queryStr, '&'), []);
    var parsed :- ParseSegments(Split(queryStr, '&'), []);
    Success(Filtered(keyword, AddNamed(keyword, parsed, kwargs)))
  }

  /** `Filter` */
  function Filter(queryStr: string, kwargs: seq<(string, Param)>): Res<Modifier> {
    MakeFilter("filter", queryStr, kwargs)
  }

  /** `SparseFieldset`: a `Filter` whose keyword is `fields`. */
  function SparseFieldset(queryStr: string, kwargs: seq<(string, Param)>): Res<Modifier> {
    MakeFilter("fields", queryStr, kwargs)
  }

  /** `Include(*values)` */
  function Include(values: seq<string>): Modifier {
    Listed("include", values)
  }

  /** `Sort(*values)` */
  function Sort(values: seq<string>): Modifier {
    Listed("sort", values)
  }

  /** The first piece of a filter query is parsed into the first pair. */
  lemma ParseFirstPair(ps: seq<(string, string)>, acc: seq<(string, string)>)
    requires |ps| > 0 && '=' !in ps[0].0 && ps[0].0 !in Assoc.Keys(acc)
    ensures ParseSegments(Pairs(ps), acc) == ParseSegments(Pairs(ps[1..]), acc + [ps[0]])
  {
    var k := ps[0].0;
    var v := ps[0].1;
    var segs := Pairs(ps);
    assert segs[0] == k + ['='] + v;
    SplitFirstAt(k, v, '=');
    assert segs[1..] == Pairs(ps[1..]);
    Assoc.PutNew(acc, k, v);
  }

  /** Moving the head of a sequence onto the end of another keeps their concatenation. */
  lemma AppendHead<T>(a: seq<T>, s: seq<T>)
    requires |s| > 0
    ensures a + [s[0]] + s[1..] == a + s
  {
    assert s == [s[0]] + s[1..];
  }

  /** Pairs whose keys lack `=`, are distinct, and are new to `acc`. */
  predicate FreshPairs(ps: seq<(string, string)>, acc: seq<(string, string)>) {
    && (forall i :: 0 <= i < |ps| ==> '=' !in ps[i].0)
    && Assoc.DistinctKeys(ps)
    && (forall i :: 0 <= i < |ps| ==> ps[i].0 !in Assoc.Keys(acc))
  }

  /** Moving the first fresh pair onto the accumulator leaves the rest fresh. */
  lemma FreshPairsTail(ps: seq<(string, string)>, acc: seq<(string, string)>)
    requires |ps| > 0 && FreshPairs(ps, acc)
    ensures FreshPairs(ps[1..], acc + [ps[0]])
  {
    var acc' := acc + [ps[0]];
    var tail := ps[1..];
    assert Assoc.Keys(acc') == Assoc.Keys(acc) + [ps[0].0];
    assert ps[0].0 !in Assoc.Keys(tail);
    forall i | 0 <= i < |tail| ensures tail[i].0 !in Assoc.Keys(acc') && '=' !in tail[i].0 {
      assert tail[i] == ps[i + 1];
      assert Assoc.Keys(tail)[i] == tail[i].0;
    }
  }

  /** Parsing the `k=v` pieces of distinct keys appends them, in order. */
  lemma {:induction false} ParsePairs(ps: seq<(string, string)>, acc: seq<(string, string)>)
    requires FreshPairs(ps, acc)
    ensures ParseSegments(Pairs(ps), acc) == Success(acc + ps)
    decreases |ps|
  {
    if |ps| > 0 {
      ParseFirstPair(ps, acc);
      FreshPairsTail(ps, acc);
      ParsePairs(ps[1..], acc + [ps[0]]);
      AppendHead(acc, ps);
    } else {
      assert Pairs(ps) == [];
      assert acc + ps == acc;
    }
  }

  /** A filter holds what its query string parses to, with the named parameters merged in;
      without named parameters, exactly what the query string parses to. */
  lemma MakeFilterParsed(keyword: string, queryStr: string, parsed: seq<(string, string)>,
                         kwargs: seq<(string, Param)>)
    requires ParseSegments(Split(queryStr, '&'), []) == Success(parsed)
    ensures MakeFilter(keyword, queryStr, kwargs) == Success(Filtered(keyword, AddNamed(keyword, parsed, kwargs)))
    ensures MakeFilter(keyword, queryStr, []) == Success(Filtered(keyword, parsed))
  {
    assert AddNamed(keyword, parsed, []) == parsed;
  }

  /** Splitting the `&`-joined pieces of pairs at `&` and parsing them gives the pairs back. */
  lemma PairsReparse(ps: seq<(string, string)>)
    requires forall i :: 0 <= i < |ps| ==> '=' !in ps[i].0 && '&' !in ps[i].0 && '&' !in ps[i].1
    requires Assoc.DistinctKeys(ps)
    ensures ParseSegments(Split(Join('&', Pairs(ps)), '&'), []) == Success(ps)
  {
    var pieces := Pairs(ps);
    var none: seq<(string, string)> := [];
    if |ps| == 0 {
      assert Join('&', pieces) == "";
      assert Split("", '&') == [""];
      assert ParseSegments([""], none) == ParseSegments([], none);
    } else {
      forall i | 0 <= i < |pieces| ensures '&' !in pieces[i] {
        assert pieces[i] == ps[i].0 + "=" + ps[i].1;
      }
      SplitJoin(pieces, '&');
      assert Assoc.Keys(none) == [];
      assert FreshPairs(ps, none);
      ParsePairs(ps, none);
      assert none + ps == ps;
    }
  }

  /** Re-parsing a filter's own query string gives the same filter back, provided keys hold
      no `=` or `&` and values no `&`. */
  lemma FilterReparse(keyword: string, ps: seq<(string, string)>)
    requires forall i :: 0 <= i < |ps| ==> '=' !in ps[i].0 && '&' !in ps[i].0 && '&' !in ps[i].1
    requires Assoc.DistinctKeys(ps)
    ensures MakeFilter(keyword, Query(Filtered(keyword, ps)), []) == Success(Filtered(keyword, ps))
  {
    PairsReparse(ps);
    MakeFilterParsed(keyword, Query(Filtered(keyword, ps)), ps, []);
  }

  /** A single `k=v` segment parses to its one pair. */
  lemma ParseOnePair(k: string, v: string)
    requires '=' !in k && '&' !in k && '&' !in v
    ensures ParseSegments(Split(k + "=" + v, '&'), []) == Success([(k, v)])
  {
    var ps := [(k, v)];
    assert Pairs(ps) == [k + "=" + v];
    PairsReparse(ps);
  }

  /** A filter built from named parameters alone holds each one under its `keyword[name]`
      key; a single named parameter gives a single pair. */
  lemma FilterNamedOnly(keyword: string, name: string, p: Param)
    ensures MakeFilter(keyword, "", [(name, p)]) == Success(Filtered(keyword, [(NamedKey(keyword, name), Render(p))]))
  {
    var none: seq<(string, string)> := [];
    assert Split("", '&') == [""];
    assert ParseSegments([""], none) == Success(none);
    MakeFilterParsed(keyword, "", none, [(name, p)]);
    Assoc.PutNew(none, NamedKey(keyword, name), Render(p));
  }

  /** A named parameter whose key the query string already gave a non-empty value is
      appended to that value after a comma. */
  lemma FilterNamedMerges(keyword: string, name: string, v: string, p: Param)
    requires '=' !in NamedKey(keyword, name) && '&' !in NamedKey(keyword, name) && '&' !in v
    requires v != ""
    ensures MakeFilter(keyword, NamedKey(keyword, name) + "=" + v, [(name, p)])
      == Success(Filtered(keyword, [(NamedKey(keyword, name), v + "," + Render(p))]))
  {
    var key := NamedKey(keyword, name);
    ParseOnePair(key, v);
    MakeFilterParsed(keyword, key + "=" + v, [(key, v)], [(name, p)]);
    var r := AddNamedOne(keyword, [(key, v)], name, p);
    assert Assoc.Keys(r) == [key];
    assert Assoc.Get(r, key) == Some(v + "," + Render(p));
    assert r == [(key, v + "," + Render(p))];
    assert AddNamed(keyword, [(key, v)], [(name, p)]) == AddNamed(keyword, r, []) == r;
  }

  /** The same for a name without `_`, whose key is `keyword[name]` as written. */
  lemma FilterPlainNamedMerges(keyword: string, name: string, v: string, p: Param)
    requires '_' !in name && '=' !in keyword + name && '&' !in keyword + name && '&' !in v
    requires v != ""
    ensures MakeFilter(keyword, keyword + "[" + name + "]=" + v, [(name, p)])
      == Success(Filtered(keyword, [(keyword + "[" + name + "]", v + "," + Render(p))]))
  {
    NamedKeyPlain(keyword, name);
    var key := keyword + "[" + name + "]";
    assert key + "=" + v == keyword + "[" + name + "]=" + v;
    assert forall c :: c in key ==> c in keyword + name || c == '[' || c == ']';
    FilterNamedMerges(keyword, name, v, p);
  }

  /** Of two segments naming the same key, the later one's value is kept. */
  lemma FilterLaterSegmentWins(keyword: string, k: string, v1: string, v2: string)
    requires '=' !in k && '&' !in k && '&' !in v1 && '&' !in v2
    ensures MakeFilter(keyword, k + "=" + v1 + "&" + k + "=" + v2, []) == Success(Filtered(keyword, [(k, v2)]))
  {
    var s1 := k + "=" + v1;
    var s2 := k + "=" + v2;
    var q := k + "=" + v1 + "&" + k + "=" + v2;
    assert q == Join('&', [s1, s2]);
    SplitJoin([s1, s2], '&');
    SplitFirstAt(k, v1, '=');
    SplitFirstAt(k, v2, '=');
    var none: seq<(string, string)> := [];
    Assoc.PutNew(none, k, v1);
    var r := Assoc.Put([(k, v1)], k, v2);
    assert Assoc.Keys(r) == [k];
    assert r == [(k, v2)];
    assert ParseSegments([s1, s2], none) == ParseSegments([s2], [(k, v1)]);
    assert ParseSegments([s2], [(k, v1)]) == Success([(k, v2)]);
    MakeFilterParsed(keyword, q, [(k, v2)], []);
  }

  /** A non-empty query string without `=` or `&` is rejected, whatever the named parameters. */
  lemma FilterRejectsBareSegment(keyword: string, seg: string, kwargs: seq<(string, Param)>)
    requires seg != "" && '=' !in seg && '&' !in seg
    ensures MakeFilter(keyword, seg, kwargs).Failure?
  {
    SplitLackingSep(seg, '&');
    assert [seg][0] == seg;
    assert Malformed([seg]);
  }

  /** An `Include`/`Sort` query names its keyword, and splitting its value on `,` gives the
      arguments back when none holds a comma. */
  lemma ListedQuery(keyword: string, values: seq<string>)
    requires '=' !in keyword && |values| > 0
    requires forall i :: 0 <= i < |values| ==> ',' !in values[i]
    ensures SplitFirst(Query(Listed(keyword, values)), '=') == Some((keyword, Join(',', values)))
    ensures Split(SplitFirst(Query(Listed(keyword, values)), '=').value.1, ',') == values
  {
    SplitFirstAt(keyword, Join(',', values), '=');
    assert keyword + "=" + Join(',', values) == keyword + ['='] + Join(',', values);
    SplitJoin(values, ',');
  }
}

=== FILE: modifiers_examples.dfy ===
/** The expected query strings of the modifier unit tests, stated of the model. */
module ModifiersExamples {
  import opened Wrappers
  import opened Modifiers
  import Utils
  import Strings

  const Url := "http://localhost:8080"

  /** A raw modifier appends its query string verbatim. */
  lemma RawExample()
    ensures UrlWithModifiers(Raw("example_attr=1"), Url) == Url + "?example_attr=1"
  {
  }

  /** `Include` comma-joins its arguments in order. */
  lemma IncludeExample()
    ensures Query(Include(["something", "something_else"])) == "include=something,something_else"
  {
    var vs := ["something", "something_else"];
    assert Strings.Join(',', vs) == "something,something_else" by {
      assert vs[1..] == ["something_else"];
    }
  }

  /** `Sort` comma-joins its arguments in order. */
  lemma SortExample()
    ensures Query(Sort(["something", "something_else"])) == "sort=something,something_else"
  {
    var vs := ["something", "something_else"];
    assert Strings.Join(',', vs) == "something,something_else" by {
      assert vs[1..] == ["something_else"];
    }
  }

  /** However three raw modifiers are grouped, the sum's query joins them left to right. */
  lemma SumExample()
    ensures Query(Add(Add(Raw("item1=1"), Raw("item2=2")), Raw("item3=3")))
      == "item1=1&item2=2&item3=3"
    ensures Query(Add(Raw("item1=1"), Add(Raw("item2=2"), Raw("item3=3"))))
      == "item1=1&item2=2&item3=3"
  {
    AddQuery(Raw("item1=1"), Raw("item2=2"));
    AddQuery(Add(Raw("item1=1"), Raw("item2=2")), Raw("item3=3"));
    AddAssociative(Raw("item1=1"), Raw("item2=2"), Raw("item3=3"));
  }

  /** The URL the `Include` test expects, on any base URL. */
  lemma IncludeUrl(url: string)
    ensures UrlWithModifiers(Include(["something", "something_else"]), url)
      == url + "?" + "include=something,something_else"
  {
    IncludeExample();
  }

  /** The URL the `Sort` test expects, on any base URL. */
  lemma SortUrl(url: string)
    ensures UrlWithModifiers(Sort(["something", "something_else"]), url)
      == url + "?" + "sort=something,something_else"
  {
    SortExample();
  }

  /** A double underscore in a parameter name becomes a dot. */
  lemma JsonifyExample()
    ensures Utils.JsonifyName("rel1__arg1") == "rel1.arg1"
  {
    assert "rel1__arg1" == "rel1" + ("__" + "arg1");
    Strings.ReplaceSkip("rel1", "__" + "arg1", "__", ".");
    Strings.ReplaceFront("arg1", "__", ".");
    Strings.ReplaceLacking("arg1", "__", ".");
    assert "rel1" + ("." + "arg1") == "rel1.arg1";
    Strings.ReplaceLacking("rel1.arg1", "_", "-");
  }

  /** The URL of a filter holding one pair, on any base URL, is `url?k=v`. */
  lemma OnePairUrl(url: string, keyword: string, k: string, v: string)
    ensures UrlWithModifiers(Filtered(keyword, [(k, v)]), url) == url + ("?" + k + "=" + v)
  {
  }

  /** The query strings the filter tests expect, written as `?key=value`. */
  lemma ExpectedQueries()
    ensures "?" + "filter[hello]" + "=" + "world" == "?filter[hello]=world"
    ensures "?" + "filter[arg1]" + "=" + "1" == "?filter[arg1]=1"
    ensures "?" + "filter[hello]" + "=" + "world,universe" == "?filter[hello]=world,universe"
    ensures "?" + "filter[hello]" + "=" + "universe" == "?filter[hello]=universe"
    ensures "?" + "fields[myclazz]" + "=" + "attr1,attr2" == "?fields[myclazz]=attr1,attr2"
  {
  }

  /** `Filter('filter[hello]=world')` */
  lemma FilterQueryExample()
    ensures Filter("filter[hello]=world", []) == Success(Filtered("filter", [("filter[hello]", "world")]))
  {
    assert "filter[hello]=world" == "filter[hello]" + "=" + "world";
    ParseOnePair("filter[hello]", "world");
    MakeFilterParsed("filter", "filter[hello]=world", [("filter[hello]", "world")], []);
  }

  /** `Filter(arg1='1')` */
  lemma FilterNamedExample()
    ensures Filter("", [("arg1", Scalar("1"))]) == Success(Filtered("filter", [("filter[arg1]", "1")]))
  {
    assert "filter" + "[" + "arg1" + "]" == "filter[arg1]";
    NamedKeyPlain("filter", "arg1");
    FilterNamedOnly("filter", "arg1", Scalar("1"));
  }

  /** `Filter('filter[hello]=world', hello='universe')`: a named value joins the parsed one. */
  lemma FilterMergeExample()
    ensures Filter("filter[hello]=world", [("hello", Scalar("universe"))])
      == Success(Filtered("filter", [("filter[hello]", "world,universe")]))
  {
    assert "filter" + "[" + "hello" + "]=" + "world" == "filter[hello]=world";
    assert "filter" + "[" + "hello" + "]" == "filter[hello]";
    assert "world" + "," + "universe" == "world,universe";
    FilterPlainNamedMerges("filter", "hello", "world", Scalar("universe"));
  }

  /** `Filter('filter[hello]=world&filter[hello]=universe')`: the later segment wins. The
      test's other case, `Filter(**{'hello': 'world', 'hello': 'universe'})`, is a dict
      literal that Python collapses to its later entry before the call, so it is the
      single-parameter case of `FilterNamedExample`. */
  lemma FilterRepeatedKeyExample()
    ensures Filter("filter[hello]=world&filter[hello]=universe", [])
      == Success(Filtered("filter", [("filter[hello]", "universe")]))
  {
    assert Filter("filter[hello]=world&filter[hello]=universe", [])
      == Success(Filtered("filter", [("filter[hello]", "universe")])) by {
      assert "filter[hello]" + "=" + "world" + "&" + "filter[hello]" + "=" + "universe"
        == "filter[hello]=world&filter[hello]=universe";
      FilterLaterSegmentWins("filter", "filter[hello]", "world", "universe");
    }
  }

  /** `SparseFieldset('fields[myclazz]=attr1', myclazz='attr2')` */
  lemma FieldsetMergeExample()
    ensures SparseFieldset("fields[myclazz]=attr1", [("myclazz", Scalar("attr2"))])
      == Success(Filtered("fields", [("fields[myclazz]", "attr1,attr2")]))
  {
    assert "fields" + "[" + "myclazz" + "]=" + "attr1" == "fields[myclazz]=attr1";
    assert "fields" + "[" + "myclazz" + "]" == "fields[myclazz]";
    assert "attr1" + "," + "attr2" == "attr1,attr2";
    FilterPlainNamedMerges("fields", "myclazz", "attr1", Scalar("attr2"));
  }

  /** The URL the test expects for the modifier of `FilterQueryExample`, on any base URL. */
  lemma FilterQueryUrl(url: string)
    ensures Filter("filter[hello]=world", []).Success?
    ensures UrlWithModifiers(Filter("filter[hello]=world", []).value, url)
      == url + "?filter[hello]=world"
  {
    FilterQueryExample();
    ExpectedQueries();
    OnePairUrl(url, "filter", "filter[hello]", "world");
  }

  /** The URL the test expects for the modifier of `FilterNamedExample`, on any base URL. */
  lemma FilterNamedUrl(url: string)
    ensures Filter("", [("arg1", Scalar("1"))]).Success?
    ensures UrlWithModifiers(Filter("", [("arg1", Scalar("1"))]).value, url)
      == url + "?filter[arg1]=1"
  {
    FilterNamedExample();
    ExpectedQueries();
    OnePairUrl(url, "filter", "filter[arg1]", "1");
  }

  /** The URL the test expects for the modifier of `FilterMergeExample`, on any base URL. */
  lemma FilterMergeUrl(url: string)
    ensures Filter("filter[hello]=world", [("hello", Scalar("universe"))]).Success?
    ensures UrlWithModifiers(Filter("filter[hello]=world", [("hello", Scalar("universe"))]).value, url)
      == url + "?filter[hello]=world,universe"
  {
    FilterMergeExample();
    ExpectedQueries();
    OnePairUrl(url, "filter", "filter[hello]", "world,universe");
  }

  /** The URL the test expects for the modifier of `FilterRepeatedKeyExample`, on any base URL. */
  lemma FilterRepeatedKeyUrl(url: string)
    ensures Filter("filter[hello]=world&filter[hello]=universe", []).Success?
    ensures UrlWithModifiers(Filter("filter[hello]=world&filter[hello]=universe", []).value, url)
      == url + "?filter[hello]=universe"
  {
    FilterRepeatedKeyExample();
    ExpectedQueries();
    OnePairUrl(url, "filter", "filter[hello]", "universe");
  }

  /** The URL the test expects for the modifier of `FieldsetMergeExample`, on any base URL. */
  lemma FieldsetMergeUrl(url: string)
    ensures SparseFieldset("fields[myclazz]=attr1", [("myclazz", Scalar("attr2"))]).Success?
    ensures UrlWithModifiers(SparseFieldset("fields[myclazz]=attr1", [("myclazz", Scalar("attr2"))]).value, url)
      == url + "?fields[myclazz]=attr1,attr2"
  {
    FieldsetMergeExample();
    ExpectedQueries();
    OnePairUrl(url, "fields", "fields[myclazz]", "attr1,attr2");
  }

  /** A segment without `=` is rejected. */
  lemma FilterMissingEqualsExample()
    ensures Filter("filter[hello]", []).Failure?
  {
    FilterRejectsBareSegment("filter", "filter[hello]", []);
  }
}

=== FILE: objects.dfy ===
/** The small JSON:API value objects: links, link containers, meta and resource identifiers. */
module Objects {
  import opened Wrappers
  import opened Errors
  import opened Json
  import opened Strings
  import Assoc
  import Utils

  // ---------------------------------------------------------------- URL schemes

  const SchemeChars: set<char> :=
    set c: char | ('a' <= c <= 'z') || ('A' <= c <= 'Z') || ('0' <= c <= '9') || c in {'+', '-', '.'}

  /** Whether `urlparse(href).scheme` is non-empty, by the rule of the Python 3.6 `urlsplit`
      the package targets: text before the first `:` made of scheme characters, unless what
      follows the `:` is a non-empty run of digits (a port); `http:` always counts. */
  predicate HasScheme(href: string) {
    match SplitFirst(href, ':')
    case None => false
    case Some((prefix, rest)) =>
      |prefix| > 0 &&
      (prefix == "http" ||
       ((forall c | c in prefix :: c in SchemeChars) &&
        (|rest| == 0 || exists c | c in rest :: !('0' <= c <= '9'))))
  }

  // ---------------------------------------------------------------- Meta

  /** `Meta`: schemaless metadata; `data` is whatever the document held. */
  datatype Meta = Meta(data: Json)

  /** `meta[name]`: the stored value, or `None` when absent; non-object data has no `get`. */
  function MetaGet(m: Meta, name: string): (r: Res<Json>)
    ensures r.Success? <==> m.data.JObj?
    ensures r.Success? ==> (r.value == match Assoc.Get(m.data.fields, name)
                                       case Some(v) => v
                                       case None => JNull)
  {
    if !m.data.JObj? then Failure(AttributeError("get"))
    else match Assoc.Get(m.data.fields, name)
      case Some(v) => Success(v)
      case None => Success(JNull)
  }

  /** `meta.some_name`: attribute access jsonifies the name first. */
  function MetaAttr(m: Meta, name: string): (r: Res<Json>)
    ensures r.Success? <==> m.data.JObj?
    ensures r == MetaGet(m, Utils.JsonifyName(name))
    ensures '_' !in name ==> r == MetaGet(m, name)
    ensures r.Success? && Utils.JsonifyName(name) !in Assoc.Keys(m.data.fields) ==> r.value == JNull
  {
    if '_' !in name then Utils.JsonifyPlain(name); MetaGet(m, name)
    else MetaGet(m, Utils.JsonifyName(name))
  }

  // ---------------------------------------------------------------- Link

  /** `Link`: a target `href` (the empty string for a missing link) and, when built from a
      link object, its `meta`. */
  datatype Link = Link(href: string, meta: Option<Meta>)

  const EmptyLink: Link := Link("", None)

  /** `Link(session, data)`: a falsy value gives the empty link, a string is the href itself,
      and an object supplies its `href` member. A string `href` is kept; a falsy one (`null`,
      `0`, `[]`, ...) gives a falsy link, as `bool(link)` and `str(link)` see it. */
  function LinkFrom(data: Json): (r: Res<Link>)
    ensures !Truthy(data) ==> r == Success(EmptyLink)
    ensures data.JStr? && data.s != "" ==> r.Success? && r.value.href == data.s
    ensures Truthy(data) && data.JObj? ==>
      (r.Success? <==> Assoc.Get(data.fields, "href").Some? &&
                       (Assoc.Get(data.fields, "href").value.JStr? || !Truthy(Assoc.Get(data.fields, "href").value)))
    ensures Truthy(data) && data.JObj? && r.Success? ==>
      (LinkTruthy(r.value) <==> Truthy(Assoc.Get(data.fields, "href").value)) &&
      (Assoc.Get(data.fields, "href").value.JStr? ==> r.value.href == Assoc.Get(data.fields, "href").value.s)
    ensures Truthy(data) && data.JObj? && r.Success? ==>
      r.value.meta == Some(Meta(Assoc.Get(data.fields, "meta").GetOr(Empty)))
    ensures Truthy(data) && !data.JStr? && !data.JObj? ==> r.Failure?
  {
    if !Truthy(data) then Success(EmptyLink)
    else if data.JStr? then Success(Link(data.s, None))
    else if !data.JObj? then Failure(TypeError("string indices must be integers"))
    else
      var href: Option<Json> := Assoc.Get(data.fields, "href");
      var meta := Some(Meta(Assoc.Get(data.fields, "meta").GetOr(Empty)));
      match href
      case None => Failure(KeyError("href"))
      case Some(JStr(h)) => Success(Link(h, meta))
      case Some(h) => if Truthy(h) then Failure(TypeError("href")) else Success(Link("", meta))
  }

  /** `bool(link)` */
  predicate LinkTruthy(l: Link) { l.href != "" }

  /** `link1 == link2` compares the targets only. */
  predicate LinkEq(a: Link, b: Link) { a.href == b.href }

  /** `link.url`: an href with a scheme is used as is, any other is put after the server URL. */
  function LinkUrl(l: Link, serverUrl: string): (u: string)
    ensures HasScheme(l.href) ==> u == l.href
    ensures !HasScheme(l.href) ==> u == serverUrl + l.href
  {
    if HasScheme(l.href) then l.href else serverUrl + l.href
  }

  /** `str(link)`: the url of a non-empty link, and `''` for an empty one. */
  function LinkStr(l: Link, serverUrl: string): (s: string)
    ensures s == "" <==> !LinkTruthy(l)
    ensures LinkTruthy(l) ==> s == LinkUrl(l, serverUrl)
  {
    if l.href != "" then LinkUrl(l, serverUrl) else ""
  }

  /** The session's server URL has the form `scheme://netloc`; resolving any href against it
      gives a URL that itself has a scheme, so resolving again changes nothing. */
  lemma LinkUrlAbsolute(scheme: string, netloc: string, href: string)
    requires |scheme| > 0 && forall c | c in scheme :: c in SchemeChars
    ensures HasScheme(LinkUrl(Link(href, None), scheme + "://" + netloc))
    ensures var u := LinkUrl(Link(href, None), scheme + "://" + netloc);
            LinkUrl(Link(u, None), scheme + "://" + netloc) == u
  {
    var server := scheme + "://" + netloc;
    if !HasScheme(href) {
      assert ':' !in scheme;
      var s := server + href;
      assert s == scheme + [':'] + ("//" + netloc + href);
      SplitFirstAt(scheme, "//" + netloc + href, ':');
      var rest := "//" + netloc + href;
      assert rest[0] == '/' && rest[0] in rest;
      assert exists c | c in rest :: !('0' <= c <= '9');
    }
  }

  // ---------------------------------------------------------------- Links

  /** `Links`: the named links of a document or resource, in document order. */
  datatype Links = Links(links: seq<(string, Link)>)

  /** `Links(session, data)`: every member of the object becomes a `Link`. */
  function LinksFrom(data: Json): (r: Res<Links>)
    ensures r.Success? ==> data.JObj? && Assoc.Keys(r.value.links) == Assoc.Keys(data.fields)
    ensures r.Success? ==> forall i :: 0 <= i < |data.fields| ==>
      LinkFrom(data.fields[i].1) == Success(r.value.links[i].1)
    ensures data.JObj? && (forall i :: 0 <= i < |data.fields| ==> LinkFrom(data.fields[i].1).Success?) ==>
      r.Success?
  {
    if !data.JObj? then Failure(AttributeError("items"))
    else LinksFromFields(data.fields)
  }

  function LinksFromFields(fields: Fields): (r: Res<Links>)
    ensures r.Success? ==> Assoc.Keys(r.value.links) == Assoc.Keys(fields)
    ensures r.Success? ==> forall i :: 0 <= i < |fields| ==> LinkFrom(fields[i].1) == Success(r.value.links[i].1)
    ensures (forall i :: 0 <= i < |fields| ==> LinkFrom(fields[i].1).Success?) ==> r.Success?
  {
    if |fields| == 0 then Success(Links([]))
    else
      var first := LinkFrom(fields[0].1);
      var rest := LinksFromFields(fields[1..]);
      if first.Failure? then Failure(first.error)
      else if rest.Failure? then
        assert forall i :: 0 <= i < |fields[1..]| ==> fields[1..][i] == fields[i + 1];
        Failure(rest.error)
      else
        var r := Links([(fields[0].0, first.value)] + rest.value.links);
        assert Assoc.Keys(r.links) == [fields[0].0] + Assoc.Keys(rest.value.links);
        assert forall i :: 1 <= i < |fields| ==> r.links[i] == rest.value.links[i - 1];
        Success(r)
  }

  /** `links.name`: the named link, or an empty (falsy) link when there is none. */
  function LinksGet(ls: Links, name: string): (l: Link)
    ensures name !in Assoc.Keys(ls.links) ==> l == EmptyLink && !LinkTruthy(l)
    ensures name in Assoc.Keys(ls.links) ==> Assoc.Get(ls.links, name) == Some(l)
  {
    match Assoc.Get(ls.links, name)
    case Some(l) => l
    case None => EmptyLink
  }

  /** `bool(links)`: at least one link is held. */
  predicate LinksTruthy(ls: Links) { |ls.links| > 0 }

  // ---------------------------------------------------------------- Resource identifiers

  /** `ResourceTuple(id, type)`, the caller-side way to name a typed target. */
  datatype ResourceTuple = ResourceTuple(id: string, rtype: string)

  /** `ResourceIdentifier`: `id` and `type` as read from the document, `None` when missing. */
  datatype ResourceIdentifier = ResourceIdentifier(id: Option<string>, rtype: Option<string>)

  /** `data.get(name)` for an identifier member that is a string or absent/null. */
  function OptionalString(data: Fields, name: string): (r: Res<Option<string>>)
    ensures r == Success(None) <==> Assoc.Get(data, name) in {None, Some(JNull)}
    ensures r.Success? && r.value.Some? <==> Assoc.Get(data, name).Some? && Assoc.Get(data, name).value.JStr?
    ensures r.Success? && r.value.Some? ==> Assoc.Get(data, name) == Some(JStr(r.value.value))
  {
    var v: Option<Json> := Assoc.Get(data, name);
    match v
    case None => Success(None)
    case Some(JNull) => Success(None)
    case Some(JStr(s)) => Success(Some(s))
    case Some(_) => Failure(TypeError(name))
  }

  /** `ResourceIdentifier(session, data)`: missing members read as `None`. */
  function IdentifierFrom(data: Fields): (r: Res<ResourceIdentifier>)
    ensures Assoc.Get(data, "id").None? && Assoc.Get(data, "type").None? ==>
      r == Success(ResourceIdentifier(None, None))
    ensures r.Success? ==>
      OptionalString(data, "id") == Success(r.value.id) && OptionalString(data, "type") == Success(r.value.rtype)
  {
    var id :- OptionalString(data, "id");
    var t :- OptionalString(data, "type");
    Success(ResourceIdentifier(id, t))
  }

  /** `bool(identifier)`: the id is not `None` (an empty id is still truthy). */
  predicate IdentifierTruthy(ri: ResourceIdentifier) { ri.id.Some? }

  /** How an f-string renders an optional string. */
  function Show(s: Option<string>): string {
    match s
    case Some(v) => v
    case None => "None"
  }

  /** `identifier.url`: `prefix/type/id`. */
  function IdentifierUrl(ri: ResourceIdentifier, urlPrefix: string): (u: string)
    ensures StartsWith(u, urlPrefix + "/")
    ensures ri.rtype.Some? && ri.id.Some? ==> u == urlPrefix + "/" + ri.rtype.value + "/" + ri.id.value
  {
    StartsWithConcat(urlPrefix + "/", Show(ri.rtype) + "/" + Show(ri.id));
    assert urlPrefix + "/" + Show(ri.rtype) + "/" + Show(ri.id) == (urlPrefix + "/") + (Show(ri.rtype) + "/" + Show(ri.id));
    urlPrefix + "/" + Show(ri.rtype) + "/" + Show(ri.id)
  }

  /** `as_resource_identifier_dict`: `{'id', 'type'}` for a truthy id, `None` otherwise. */
  function AsIdentifierDict(ri: ResourceIdentifier): (r: Option<Json>)
    ensures r.Some? <==> ri.id.Some? && ri.id.value != ""
    ensures r.Some? ==> Member(r.value, "id") == Some(JStr(ri.id.value))
    ensures r.Some? ==> Member(r.value, "type") == Some(if ri.rtype.Some? then JStr(ri.rtype.value) else JNull)
    ensures r.Some? ==> Assoc.Keys(r.value.fields) == ["id", "type"]
  {
    if ri.id.Some? && ri.id.value != "" then
      Some(JObj([("id", JStr(ri.id.value)),
                 ("type", if ri.rtype.Some? then JStr(ri.rtype.value) else JNull)]))
    else None
  }
}

=== FILE: relationships.dfy ===
/** `RelationshipDict`: the relationship container of a resource, and the choice of the
    relationship class for a payload. The relationship classes themselves are not part of
    this model: a relationship is a record of its class, its payload, its dirty and invalid
    flags, and the two things the resource reads from it when committing (whether it is
    non-empty and its resource identifiers as JSON). */
module Relationships {
  import opened Wrappers
  import opened Errors
  import opened Json
  import opened Strings
  import Assoc
  import Schemas

  /** The relationship classes `ToOneRelationship`, `ToManyRelationship`,
      `LinkRelationship` and `MetaRelationship`. */
  datatype Kind = ToOne | ToMany | LinkRel | MetaRel

  /** `RelationType.TO_ONE` and `RelationType.TO_MANY`. */
  const ToOneType: string := "to-one"
  const ToManyType: string := "to-many"

  /** What a relationship object exposes to its resource: `bool(rel)` and
      `rel.as_json_resource_identifiers`. */
  datatype View = View(nonEmpty: bool, identifiers: Json)

  /** How the relationship classes derive their view from a payload. */
  type Interp = (Kind, Json) -> View

  datatype Relationship = Relationship(
    kind: Kind, data: Json, resourceTypes: Json, relationType: Json,
    view: View, dirty: bool, invalid: bool)

  /** `RelationshipDict`: relationships by name, in insertion order. */
  datatype RelDict = RelDict(rels: seq<(string, Relationship)>, invalid: bool)

  // ---------------------------------------------------------------- class choice

  /** `k in s` for two strings: `k` occurs in `s` as a substring. */
  predicate Occurs(k: string, s: string)
    decreases |s|
  {
    StartsWith(s, k) || (|s| > 0 && Occurs(k, s[1..]))
  }

  /** `key in data`: a dict tests its keys, a list its elements, a string its substrings;
      any other value is not a container. */
  function HasKey(data: Json, key: string): (r: Res<bool>)
    ensures data.JObj? ==> r == Success(key in Assoc.Keys(data.fields))
    ensures r.Failure? <==> !(data.JObj? || data.JArr? || data.JStr?)
  {
    match data
    case JObj(fields) => Success(key in Assoc.Keys(fields))
    case JArr(items) => Success(JStr(key) in items)
    case JStr(s) => Success(Occurs(key, s))
    case _ => Failure(TypeError("argument is not iterable"))
  }

  /** `_determine_class(data, relation_type)`: a `data` member decides by its shape
      (a list is to-many, an object or null is to-one, whatever the hint says), then a
      `links` member, then a `meta` member, and only then the relation type from the
      schema. */
  function DetermineClass(data: Json, hint: Json): (r: Res<Kind>)
    ensures data.JObj? && "data" in Assoc.Keys(data.fields) ==>
      var d := Assoc.Get(data.fields, "data").value;
      && (d.JArr? ==> r == Success(ToMany))
      && (d.JObj? || d.JNull? ==> r == Success(ToOne))
      && (!d.JArr? && !d.JObj? && !d.JNull? ==> r.Failure? && r.error.ValidationError?)
    ensures data.JObj? && "data" !in Assoc.Keys(data.fields) && "links" in Assoc.Keys(data.fields) ==>
      r == Success(LinkRel)
    ensures data.JObj? && r == Success(MetaRel) ==> "meta" in Assoc.Keys(data.fields) && "links" !in Assoc.Keys(data.fields)
    ensures data.JNull? || data.JBool? || data.JNum? ==> r.Failure? && r.error.TypeError?
  {
    var hasData :- HasKey(data, "data");
    if hasData then
      var d :- Schemas.Subscript(data, "data");
      if d.JArr? then Success(ToMany)
      else if d.JNull? || d.JObj? then Success(ToOne)
      else Failure(ValidationError("Relationship data key is invalid"))
    else
      // `data` is a container here, so the later membership tests cannot fail
      if HasKey(data, "links").value then Success(LinkRel)
      else
        if HasKey(data, "meta").value then Success(MetaRel)
        else if hint == JStr(ToManyType) then Success(ToMany)
        else if hint == JStr(ToOneType) then Success(ToOne)
        else Failure(ValidationError("Must have either links, data or meta in relationship"))
  }

  /** A payload is a relationship object in the sense of the "Relationships" rule of the
      "Resource Objects" section of JSON:API 1.0: it holds at least one of `links`, `data`
      and `meta`. */
  predicate HasRelationshipMember(fields: Fields) {
    "links" in Assoc.Keys(fields) || "data" in Assoc.Keys(fields) || "meta" in Assoc.Keys(fields)
  }

  /** Without a usable hint, exactly the relationship objects with a well-shaped `data` (if
      any) are accepted; with one, a payload lacking all three members takes the hint. */
  lemma DetermineClassRule(fields: Fields, hint: Json)
    ensures hint != JStr(ToManyType) && hint != JStr(ToOneType) ==>
      (DetermineClass(JObj(fields), hint).Success? <==>
        && HasRelationshipMember(fields)
        && ("data" in Assoc.Keys(fields) ==>
              var d := Assoc.Get(fields, "data").value; d.JArr? || d.JObj? || d.JNull?))
    ensures !HasRelationshipMember(fields) && hint == JStr(ToManyType) ==>
      DetermineClass(JObj(fields), hint) == Success(ToMany)
    ensures !HasRelationshipMember(fields) && hint == JStr(ToOneType) ==>
      DetermineClass(JObj(fields), hint) == Success(ToOne)
  {
  }

  /** The hint matters only for a payload with none of the three members: a conflicting
      hint is overruled by the payload. */
  lemma HintOnlyWhenBare(fields: Fields, h1: Json, h2: Json)
    requires DetermineClass(JObj(fields), h1) != DetermineClass(JObj(fields), h2)
    ensures !HasRelationshipMember(fields)
  {
  }

  /** `_make_relationship(data, relation_type, resource_types)`: a fresh relationship of the
      chosen class. */
  function MakeRelationship(data: Json, hint: Json, resourceTypes: Json, interp: Interp)
    : (r: Res<Relationship>)
    ensures r.Success? <==> DetermineClass(data, hint).Success?
    ensures r.Success? ==> Consistent(r.value, interp) && !r.value.dirty && !r.value.invalid
    ensures r.Success? ==> r.value.data == data && r.value.resourceTypes == resourceTypes
  {
    var kind :- DetermineClass(data, hint);
    Success(Relationship(kind, data, resourceTypes, hint, interp(kind, data), false, false))
  }

  /** A relationship's class is the one its payload and hint select, and its view is the
      one its class derives from the payload. */
  predicate Consistent(rel: Relationship, interp: Interp) {
    DetermineClass(rel.data, rel.relationType) == Success(rel.kind) &&
    rel.view == interp(rel.kind, rel.data)
  }

  // ---------------------------------------------------------------- construction

  /** Every relationship is clean, valid and consistent with its payload. */
  predicate FreshRels(rels: seq<(string, Relationship)>, interp: Interp) {
    forall i :: 0 <= i < |rels| ==>
      !rels[i].1.dirty && !rels[i].1.invalid && Consistent(rels[i].1, interp)
  }

  /** A schema property that declares a relationship: an object with a truthy `relation`. */
  predicate IsRelationSpec(spec: Json) {
    spec.JObj? && Truthy(Member(spec, "relation").GetOr(JNull))
  }

  /** `RelationshipDict(data, resource)`: with a schema for the type, one relationship per
      property that declares a relation, from the payload popped under its name (or `{}`);
      without one, one relationship per payload member, with no hint. */
  function BuildRels(s: Schemas.Schema, rtype: string, data: Json, interp: Interp): (r: Res<RelDict>)
    ensures r.Success? ==> !r.value.invalid && FreshRels(r.value.rels, interp)
    ensures r.Success? ==> Assoc.DistinctKeys(r.value.rels)
    ensures r.Success? && !Truthy(Schemas.SchemaForModel(s, rtype)) ==>
      data.JObj? && (forall k :: k in Assoc.Keys(r.value.rels) <==> k in Assoc.Keys(data.fields))
  {
    var model := Schemas.SchemaForModel(s, rtype);
    if Truthy(model) then
      var props :- Schemas.Subscript(model, "properties");
      if !props.JObj? then Failure(AttributeError("items"))
      else
        var rels :- SchemaRels(props.fields, data, interp, []);
        Success(RelDict(rels, false))
    else if !data.JObj? then Failure(AttributeError("items"))
    else
      var rels :- PlainRels(data.fields, interp, []);
      Success(RelDict(rels, false))
  }

  /** The loop over the schema's properties. A property that is not an object has no
      `get`; one without a truthy `relation` is skipped; one with a relation must name its
      `resource` types, and takes its payload out of `data` (`{}` when absent). */
  function SchemaRels(props: Fields, data: Json, interp: Interp, acc: seq<(string, Relationship)>)
    : (r: Res<seq<(string, Relationship)>>)
    ensures r.Success? && FreshRels(acc, interp) ==> FreshRels(r.value, interp)
    ensures r.Success? && Assoc.DistinctKeys(acc) ==> Assoc.DistinctKeys(r.value)
    ensures r.Success? ==> forall k :: k in Assoc.Keys(r.value) <==>
      (k in Assoc.Keys(acc) || exists i :: 0 <= i < |props| && props[i].0 == k && IsRelationSpec(props[i].1))
    decreases |props|
  {
    if |props| == 0 then Success(acc)
    else
      var (name, spec) := props[0];
      assert forall i :: 1 <= i < |props| ==> props[i] == props[1..][i - 1];
      if !spec.JObj? then Failure(AttributeError("get"))
      else
        var relType := Member(spec, "relation").GetOr(JNull);
        if !Truthy(relType) then SchemaRels(props[1..], data, interp, acc)
        else
          var resourceTypes :- Schemas.Subscript(spec, "resource");
          if !data.JObj? then
            Failure(if data.JArr? then TypeError("pop") else AttributeError("pop"))
          else
            var (value, data') := Pop(data.fields, name, Empty);
            var rel :- MakeRelationship(value, relType, resourceTypes, interp);
            PutRel(acc, name, rel, interp);
            SchemaRels(props[1..], JObj(data'), interp, Assoc.Put(acc, name, rel))
  }

  /** The comprehension over the payload's members, then `update`. */
  function PlainRels(fields: Fields, interp: Interp, acc: seq<(string, Relationship)>)
    : (r: Res<seq<(string, Relationship)>>)
    ensures r.Success? && FreshRels(acc, interp) ==> FreshRels(r.value, interp)
    ensures r.Success? && Assoc.DistinctKeys(acc) ==> Assoc.DistinctKeys(r.value)
    ensures r.Success? ==> forall k :: k in Assoc.Keys(r.value) <==>
      (k in Assoc.Keys(acc) || k in Assoc.Keys(fields))
    ensures (forall i :: 0 <= i < |fields| ==> DetermineClass(fields[i].1, JNull).Success?) ==> r.Success?
    decreases |fields|
  {
    if |fields| == 0 then Success(acc)
    else
      var (name, value) := fields[0];
      assert forall i :: 1 <= i < |fields| ==> fields[i] == fields[1..][i - 1];
      assert Assoc.Keys(fields) == [name] + Assoc.Keys(fields[1..]);
      var rel :- MakeRelationship(value, JNull, JNull, interp);
      PutRel(acc, name, rel, interp);
      PlainRels(fields[1..], interp, Assoc.Put(acc, name, rel))
  }

  /** Storing a fresh relationship keeps the container fresh and its keys distinct, and adds
      exactly the new name. */
  lemma PutRel(acc: seq<(string, Relationship)>, name: string, rel: Relationship, interp: Interp)
    requires !rel.dirty && !rel.invalid && Consistent(rel, interp)
    ensures FreshRels(acc, interp) ==> FreshRels(Assoc.Put(acc, name, rel), interp)
    ensures Assoc.DistinctKeys(acc) ==> Assoc.DistinctKeys(Assoc.Put(acc, name, rel))
    ensures forall k :: k in Assoc.Keys(Assoc.Put(acc, name, rel)) <==> k in Assoc.Keys(acc) || k == name
  {
    Assoc.PutEntries(acc, name, rel);
    if Assoc.DistinctKeys(acc) {
      Assoc.PutDistinct(acc, name, rel);
    }
  }

  // ---------------------------------------------------------------- state

  /** `is_dirty`: some relationship is dirty. */
  predicate RelsIsDirty(rd: RelDict) {
    exists i :: 0 <= i < |rd.rels| && rd.rels[i].1.dirty
  }

  /** The names of the dirty relationships. */
  function DirtyNames(rd: RelDict): (names: set<string>)
    ensures names == {} <==> !RelsIsDirty(rd)
  {
    DirtyWitness(rd);
    set i | 0 <= i < |rd.rels| && rd.rels[i].1.dirty :: rd.rels[i].0
  }

  lemma DirtyWitness(rd: RelDict)
    ensures RelsIsDirty(rd) ==> (set i | 0 <= i < |rd.rels| && rd.rels[i].1.dirty :: rd.rels[i].0) != {}
  {
    if RelsIsDirty(rd) {
      var k :| 0 <= k < |rd.rels| && rd.rels[k].1.dirty;
      var names := set i | 0 <= i < |rd.rels| && rd.rels[i].1.dirty :: rd.rels[i].0;
      assert rd.rels[k].0 in names;
    }
  }

  /** `mark_clean`: every relationship is marked clean; nothing else about them changes. */
  function RelsMarkClean(rd: RelDict): (r: RelDict)
    ensures !RelsIsDirty(r)
    ensures r.invalid == rd.invalid && |r.rels| == |rd.rels|
    ensures forall i :: 0 <= i < |rd.rels| ==>
      r.rels[i].0 == rd.rels[i].0 && r.rels[i].1 == rd.rels[i].1.(dirty := false)
  {
    RelDict(seq(|rd.rels|, i requires 0 <= i < |rd.rels| => (rd.rels[i].0, rd.rels[i].1.(dirty := false))),
            rd.invalid)
  }

  /** `mark_invalid`: the container and every relationship in it become invalid. */
  function RelsMarkInvalid(rd: RelDict): (r: RelDict)
    ensures r.invalid && |r.rels| == |rd.rels|
    ensures forall i :: 0 <= i < |rd.rels| ==>
      r.rels[i].0 == rd.rels[i].0 && r.rels[i].1 == rd.rels[i].1.(invalid := true)
  {
    RelDict(seq(|rd.rels|, i requires 0 <= i < |rd.rels| => (rd.rels[i].0, rd.rels[i].1.(invalid := true))),
            true)
  }

  /** Invalidating does not change which relationships are dirty, and cleaning does not
      change which are invalid. */
  lemma MarkCleanInvalidIndependent(rd: RelDict)
    ensures DirtyNames(RelsMarkInvalid(rd)) == DirtyNames(rd)
    ensures RelsMarkClean(RelsMarkInvalid(rd)) == RelsMarkInvalid(RelsMarkClean(rd))
  {
    var a := RelsMarkInvalid(rd);
    assert forall i :: 0 <= i < |rd.rels| ==> a.rels[i].1.dirty == rd.rels[i].1.dirty;
  }

  /** A constructed container is clean. */
  lemma BuiltClean(s: Schemas.Schema, rtype: string, data: Json, interp: Interp)
    requires BuildRels(s, rtype, data, interp).Success?
    ensures !RelsIsDirty(BuildRels(s, rtype, data, interp).value)
    ensures DirtyNames(BuildRels(s, rtype, data, interp).value) == {}
  {
  }
}

=== FILE: resources.dfy ===
/** `ResourceObject`: a resource of a document, with its attribute and relationship
    containers, and what a commit sends and does to it. The requests themselves are not
    part of this model: a commit is the payload it would send and the update it makes from
    the response's status and parsed resource. */
module Resources {
  import opened Wrappers
  import opened Errors
  import opened Json
  import Assoc
  import Http
  import Objects
  import Schemas
  import Attributes
  import Relationships

  /** What the session provides to its resources: the schema, how the relationship classes
      read their payloads, the schema validator, and the two URLs derived from the server
      URL (`server_url`, `scheme://netloc`, and `url_prefix`, the URL without trailing
      slashes). */
  datatype Env = Env(
    schema: Schemas.Schema,
    interp: Relationships.Interp,
    conforms: (Json, Json) -> bool,
    serverUrl: string,
    urlPrefix: string)

  /** A resource: `id` (`None` for one not yet created on the server), `type`, links, meta,
      the two containers, the pending-delete flag, the metadata sent with the next commit,
      and the invalid flag. */
  datatype Resource = Resource(
    id: Option<string>,
    rtype: string,
    links: Objects.Links,
    meta: Objects.Meta,
    attributes: Attributes.AttrDict,
    relationships: Relationships.RelDict,
    delete: bool,
    commitMeta: Json,
    invalid: bool)

  /** `bool(self.id)` */
  predicate IdTruthy(r: Resource) {
    r.id.Some? && r.id.value != ""
  }

  /** The bookkeeping invariant: the attribute tree keeps a dirty child's name in its
      parent's dirty set, and its keys are distinct. */
  predicate WF(r: Resource) {
    Attributes.WF(r.attributes)
  }

  // ---------------------------------------------------------------- construction

  /** `data.get(key, {})` on a resource object. */
  function MemberOrEmpty(data: Json, key: string): Json
    requires data.JObj?
  {
    Member(data, key).GetOr(Empty)
  }

  /** `ResourceObject(session, data)`: `id` and `type` must be present; `links`, `meta`,
      `attributes` and `relationships` default to `{}`; a resource with a truthy id is
      validated against the schema. */
  function ResourceFrom(env: Env, data: Json): (r: Res<Resource>)
    ensures r.Success? ==> data.JObj?
    ensures r.Success? ==>
      && Some(if r.value.id.Some? then JStr(r.value.id.value) else JNull) == Assoc.Get(data.fields, "id")
      && Some(JStr(r.value.rtype)) == Assoc.Get(data.fields, "type")
    ensures r.Success? ==>
      && WF(r.value) && !Attributes.DeepDirty(r.value.attributes)
      && Attributes.NoneInvalid(r.value.attributes)
      && !Relationships.RelsIsDirty(r.value.relationships)
      && !r.value.relationships.invalid && !r.value.delete && !r.value.invalid
    ensures r.Success? && IdTruthy(r.value) ==>
      Schemas.Validate(env.schema, r.value.rtype, Attributes.ToJson(r.value.attributes), env.conforms).Success?
  {
    var idJson :- Schemas.Subscript(data, "id");
    var typeJson :- Schemas.Subscript(data, "type");
    if !(idJson.JStr? || idJson.JNull?) then Failure(TypeError("id"))
    else if !typeJson.JStr? then Failure(TypeError("type"))
    else
      var id := if idJson.JStr? then Some(idJson.s) else None;
      var rtype := typeJson.s;
      var links :- Objects.LinksFrom(MemberOrEmpty(data, "links"));
      var meta := Objects.Meta(MemberOrEmpty(data, "meta"));
      var built :- Attributes.Build(env.schema, rtype, "", MemberOrEmpty(data, "attributes"),
                                    Attributes.RecursionLimit);
      var rels :- Relationships.BuildRels(env.schema, rtype, MemberOrEmpty(data, "relationships"), env.interp);
      var res := Resource(id, rtype, links, meta, built.0, rels, false, Empty, false);
      Attributes.FreshSound(built.0);
      Relationships.BuiltClean(env.schema, rtype, MemberOrEmpty(data, "relationships"), env.interp);
      if IdTruthy(res) then
        var _ :- Schemas.Validate(env.schema, rtype, Attributes.ToJson(built.0), env.conforms);
        Success(res)
      else Success(res)
  }

  // ---------------------------------------------------------------- state

  /** `is_dirty`: not yet created, a delete pending, or a change in either container. */
  predicate IsDirty(r: Resource) {
    r.id.None? || r.delete || Attributes.IsDirty(r.attributes) || Relationships.RelsIsDirty(r.relationships)
  }

  /** A resource read from the server is clean. */
  lemma ReadIsClean(env: Env, data: Json)
    requires ResourceFrom(env, data).Success?
    requires Member(data, "id").Some? && Member(data, "id").value.JStr?
    ensures !IsDirty(ResourceFrom(env, data).value)
  {
  }

  /** `dirty_fields`: the dirty attribute names and the dirty relationship names. */
  function DirtyFields(r: Resource): (names: set<string>)
    ensures names == {} <==> !Attributes.IsDirty(r.attributes) && !Relationships.RelsIsDirty(r.relationships)
    ensures r.attributes.dirty <= names
    ensures forall k :: k in names <==>
      k in r.attributes.dirty ||
      exists i :: 0 <= i < |r.relationships.rels| && r.relationships.rels[i].0 == k && r.relationships.rels[i].1.dirty
  {
    r.attributes.dirty + Relationships.DirtyNames(r.relationships)
  }

  /** A created resource with nothing changed is dirty only because it has no id, or a
      delete is pending. */
  lemma DirtyIffFieldsOrPending(r: Resource)
    ensures IsDirty(r) <==> r.id.None? || r.delete || DirtyFields(r) != {}
  {
  }

  /** `delete()`: only the pending-delete flag changes, and the resource becomes dirty. */
  function Delete(r: Resource): (d: Resource)
    ensures IsDirty(d) && d.delete
    ensures d.(delete := r.delete) == r
  {
    r.(delete := true)
  }

  /** `_http_method`: PATCH for a resource with a truthy id, POST otherwise. */
  function HttpMethod(r: Resource): (m: Http.Method)
    ensures m == Http.Post <==> !IdTruthy(r)
    ensures m != Http.Delete
  {
    if IdTruthy(r) then Http.Patch else Http.Post
  }

  // ---------------------------------------------------------------- URLs

  /** `url`: the resource's `self` link when it has one, otherwise `None` or `''` for a
      falsy id, and `prefix/type/id` for a truthy one. */
  function Url(env: Env, r: Resource): (u: Option<string>)
    ensures Objects.LinkTruthy(Objects.LinksGet(r.links, "self")) ==>
      u == Some(Objects.LinkUrl(Objects.LinksGet(r.links, "self"), env.serverUrl))
    ensures !Objects.LinkTruthy(Objects.LinksGet(r.links, "self")) ==>
      (u == None <==> r.id.None?) && (u == Some("") <==> r.id == Some(""))
    ensures u.Some? && u.value != "" <==> Objects.LinkTruthy(Objects.LinksGet(r.links, "self")) || IdTruthy(r)
  {
    var link := Objects.LinkStr(Objects.LinksGet(r.links, "self"), env.serverUrl);
    if link != "" then
      assert Objects.HasScheme(link) || |env.serverUrl + Objects.LinksGet(r.links, "self").href| > 0;
      Some(link)
    else if !IdTruthy(r) then r.id
    else Some(env.urlPrefix + "/" + r.rtype + "/" + r.id.value)
  }

  /** `post_url`: the collection URL of the resource's type. */
  function PostUrl(env: Env, r: Resource): (u: string)
    ensures u == env.urlPrefix + "/" + r.rtype
    ensures |u| > |env.urlPrefix| && u[..|env.urlPrefix|] == env.urlPrefix
  {
    env.urlPrefix + "/" + r.rtype
  }

  /** Without a `self` link, the URL of a resource with a truthy id is its identifier's URL,
      which extends the collection URL by the id. */
  lemma UrlFromIdentifier(env: Env, r: Resource)
    requires !Objects.LinkTruthy(Objects.LinksGet(r.links, "self")) && IdTruthy(r)
    ensures Url(env, r) == Some(PostUrl(env, r) + "/" + r.id.value)
    ensures Url(env, r) ==
      Some(Objects.IdentifierUrl(Objects.ResourceIdentifier(r.id, Some(r.rtype)), env.urlPrefix))
  {
  }

  // ---------------------------------------------------------------- commit payload

  /** Whether a relationship is sent: any non-empty one in a POST (or full) payload, only a
      dirty one in a PATCH payload. */
  predicate Sent(rel: Relationships.Relationship, post: bool) {
    if post then rel.view.nonEmpty else rel.dirty
  }

  /** `{'data': rel.as_json_resource_identifiers}` */
  function RelJson(rel: Relationships.Relationship): Json {
    JObj([("data", rel.view.identifiers)])
  }

  /** The `relationships` member of a commit payload, in container order. */
  function RelsPayload(rels: seq<(string, Relationships.Relationship)>, post: bool): (f: Fields)
    ensures forall k :: k in Assoc.Keys(f) <==>
      exists i :: 0 <= i < |rels| && rels[i].0 == k && Sent(rels[i].1, post)
    ensures forall j :: 0 <= j < |f| ==>
      exists i :: 0 <= i < |rels| && Sent(rels[i].1, post) && f[j] == (rels[i].0, RelJson(rels[i].1))
    ensures Assoc.DistinctKeys(rels) ==> Assoc.DistinctKeys(f)
  {
    if |rels| == 0 then []
    else
      var rest := RelsPayload(rels[1..], post);
      assert forall i :: 1 <= i < |rels| ==> rels[i] == rels[1..][i - 1];
      if Sent(rels[0].1, post) then
        var f := [(rels[0].0, RelJson(rels[0].1))] + rest;
        assert Assoc.Keys(f) == [rels[0].0] + Assoc.Keys(rest);
        assert forall j :: 1 <= j < |f| ==> f[j] == rest[j - 1];
        f
      else rest
  }

  /** Nothing selected, nothing sent. */
  lemma {:induction false} RelsPayloadNoneSent(rels: seq<(string, Relationships.Relationship)>, post: bool)
    requires forall i :: 0 <= i < |rels| ==> !Sent(rels[i].1, post)
    ensures RelsPayload(rels, post) == []
  {
    if |rels| > 0 {
      assert forall i :: 1 <= i < |rels| ==> rels[1..][i - 1] == rels[i];
      RelsPayloadNoneSent(rels[1..], post);
    }
  }

  /** The metadata a commit sends: the argument when truthy, else the stored one. */
  function CommitMeta(r: Resource, meta: Json): Json {
    if Truthy(meta) then meta else r.commitMeta
  }

  /** Whether a payload is the full one: a POST or an explicit `full`. */
  predicate FullPayload(r: Resource, full: bool) {
    HttpMethod(r) == Http.Post || full
  }

  /** The attributes a commit sends: `post_data` for a full payload, `diff` otherwise. */
  function SentAttributes(r: Resource, full: bool): Res<Json> {
    if FullPayload(r, full) then Attributes.PostData(r.attributes) else Attributes.Diff(r.attributes)
  }

  /** `_commit_data(meta, full)`: `{'data': {...}}` holding the type, the id when truthy,
      the attributes, the relationships (non-empty ones, or dirty ones), and the metadata
      when truthy. What each member holds is `CommitDataSpec`. */
  function CommitData(r: Resource, meta: Json, full: bool): (res: Res<Json>)
    ensures res.Success? <==> SentAttributes(r, full).Success?
    ensures res.Success? ==> res.value.JObj? && Assoc.Keys(res.value.fields) == ["data"]
  {
    var attrs :- SentAttributes(r, full);
    var m := CommitMeta(r, meta);
    Success(JObj([("data", JObj(PayloadBody(PayloadNames, r.rtype, if IdTruthy(r) then Some(r.id.value) else None, attrs,
                                            JObj(RelsPayload(r.relationships.rels, FullPayload(r, full))),
                                            if Truthy(m) then Some(m) else None)))]))
  }

  /** The member names of a payload body. */
  datatype Names = Names(rtype: string, id: string, attributes: string, relationships: string, meta: string)

  const PayloadNames := Names("type", "id", "attributes", "relationships", "meta")

  predicate DistinctNames(n: Names) {
    && n.rtype != n.id && n.rtype != n.attributes && n.rtype != n.relationships && n.rtype != n.meta
    && n.id != n.attributes && n.id != n.relationships && n.id != n.meta
    && n.attributes != n.relationships && n.attributes != n.meta
    && n.relationships != n.meta
  }

  /** `res_json`: `type`; `id` when given; then `attributes` and `relationships` by
      `update`; `meta` when given. */
  function PayloadBody(n: Names, rtype: string, id: Option<string>, attrs: Json, rels: Json, meta: Option<Json>): Fields {
    var body := Assoc.Put(Assoc.Put(TypeAndId(n, rtype, id), n.attributes, attrs), n.relationships, rels);
    if meta.Some? then Assoc.Put(body, n.meta, meta.value) else body
  }

  /** Each member of the payload body holds what was put there, the optional ones are
      present exactly when given, and no name repeats. */
  lemma PayloadBodyLookups(n: Names, rtype: string, id: Option<string>, attrs: Json, rels: Json, meta: Option<Json>)
    requires DistinctNames(n)
    ensures var body := PayloadBody(n, rtype, id, attrs, rels, meta);
      && Assoc.Get(body, n.rtype) == Some(JStr(rtype))
      && Assoc.Get(body, n.id) == (if id.Some? then Some(JStr(id.value)) else None)
      && Assoc.Get(body, n.attributes) == Some(attrs)
      && Assoc.Get(body, n.relationships) == Some(rels)
      && Assoc.Get(body, n.meta) == meta
      && Assoc.DistinctKeys(body)
  {
    var withId := TypeAndId(n, rtype, id);
    TypeAndIdLookups(n, rtype, id);
    Assoc.PutTwice(withId, n.attributes, attrs, n.relationships, rels);
    var body := Assoc.Put(Assoc.Put(withId, n.attributes, attrs), n.relationships, rels);
    Assoc.PutDistinct(body, n.meta, meta.GetOr(JNull));
  }

  /** `{'type': type}`, with `id` added when given. */
  function TypeAndId(n: Names, rtype: string, id: Option<string>): Fields {
    if id.Some? then Assoc.Put([(n.rtype, JStr(rtype))], n.id, JStr(id.value)) else [(n.rtype, JStr(rtype))]
  }

  lemma TypeAndIdLookups(n: Names, rtype: string, id: Option<string>)
    requires DistinctNames(n)
    ensures var t := TypeAndId(n, rtype, id);
      && Assoc.Get(t, n.rtype) == Some(JStr(rtype))
      && Assoc.Get(t, n.id) == (if id.Some? then Some(JStr(id.value)) else None)
      && Assoc.Get(t, n.meta) == None
      && Assoc.DistinctKeys(t)
  {
    var head: Fields := [(n.rtype, JStr(rtype))];
    assert Assoc.Get(head, n.id) == None && Assoc.Get(head, n.meta) == None;
    Assoc.PutDistinct(head, n.id, JStr(id.GetOr("")));
  }

  /** What each member of the commit payload holds: the type; the id exactly when truthy;
      `post_data` or `diff`; the selected relationships; the metadata exactly when truthy. */
  lemma CommitDataSpec(r: Resource, meta: Json, full: bool)
    requires CommitData(r, meta, full).Success?
    ensures var body := CommitData(r, meta, full).value.fields[0].1;
      && body.JObj?
      && Assoc.Get(body.fields, "type") == Some(JStr(r.rtype))
      && ("id" in Assoc.Keys(body.fields) <==> IdTruthy(r))
      && (IdTruthy(r) ==> Assoc.Get(body.fields, "id") == Some(JStr(r.id.value)))
      && Assoc.Get(body.fields, "attributes") == Some(SentAttributes(r, full).value)
      && Assoc.Get(body.fields, "relationships") == Some(JObj(RelsPayload(r.relationships.rels, FullPayload(r, full))))
      && ("meta" in Assoc.Keys(body.fields) <==> Truthy(CommitMeta(r, meta)))
      && (Truthy(CommitMeta(r, meta)) ==> Assoc.Get(body.fields, "meta") == Some(CommitMeta(r, meta)))
      && Assoc.DistinctKeys(body.fields)
  {
    var m := CommitMeta(r, meta);
    assert DistinctNames(PayloadNames);
    PayloadBodyLookups(PayloadNames, r.rtype, if IdTruthy(r) then Some(r.id.value) else None, SentAttributes(r, full).value,
                       JObj(RelsPayload(r.relationships.rels, FullPayload(r, full))),
                       if Truthy(m) then Some(m) else None);
  }

  /** `json`: the full payload's resource object. */
  function AsJson(r: Resource): (j: Res<Json>)
    ensures j.Success? <==> Attributes.PostData(r.attributes).Success?
    ensures j.Success? ==> j.value.JObj? && Assoc.Get(j.value.fields, "attributes") == Some(Attributes.PostData(r.attributes).value)
  {
    var c :- CommitData(r, JNull, true);
    CommitDataSpec(r, JNull, true);
    Success(c.fields[0].1)
  }

  /** A PATCH right after `mark_clean` sends nothing but the type, the id and the metadata:
      the attribute diff and the relationship selection are both empty. */
  lemma CleanPatchIsEmpty(r: Resource, meta: Json)
    requires WF(r) && !r.attributes.invalid && IdTruthy(r)
    ensures MarkClean(r).Success?
    ensures var c := CommitData(MarkClean(r).value, meta, false);
      && c.Success?
      && Assoc.Get(c.value.fields[0].1.fields, "attributes") == Some(Empty)
      && Assoc.Get(c.value.fields[0].1.fields, "relationships") == Some(Empty)
  {
    Attributes.DiffAfterClean(r.attributes);
    var m := MarkClean(r).value;
    CommitDataSpec(m, meta, false);
    RelsPayloadNoneSent(m.relationships.rels, false);
  }

  /** A created resource (no id) is sent in full by POST: its attributes as `post_data`
      and every non-empty relationship. */
  lemma NewResourcePosts(r: Resource, meta: Json)
    requires r.id.None? && Attributes.NoneInvalid(r.attributes)
    ensures HttpMethod(r) == Http.Post && IsDirty(r)
    ensures var c := CommitData(r, meta, false);
      && c.Success?
      && Assoc.Get(c.value.fields[0].1.fields, "attributes") == Some(Attributes.PostData(r.attributes).value)
      && "id" !in Assoc.Keys(c.value.fields[0].1.fields)
  {
    Attributes.PostDataSucceeds(r.attributes);
    CommitDataSpec(r, meta, false);
  }

  // ---------------------------------------------------------------- after the request

  /** `mark_clean`: both containers. */
  function MarkClean(r: Resource): (c: Res<Resource>)
    ensures c.Success? <==> Attributes.MarkClean(r.attributes).Success?
    ensures c.Success? ==> !Attributes.IsDirty(c.value.attributes) && !Relationships.RelsIsDirty(c.value.relationships)
    ensures c.Success? ==> (IsDirty(c.value) <==> r.id.None? || r.delete)
    ensures c.Success? ==> c.value.(attributes := r.attributes, relationships := r.relationships) == r
  {
    var attrs :- Attributes.MarkClean(r.attributes);
    Success(r.(attributes := attrs, relationships := Relationships.RelsMarkClean(r.relationships)))
  }

  /** `_update_resource`: the id, the containers, meta and links are taken from the
      resource the response was read into. (Registering the resource with the session
      cache is the session's part of the step.) */
  function UpdateResource(r: Resource, read: Resource): (u: Resource)
    ensures u.id == read.id && u.attributes == read.attributes && u.relationships == read.relationships
    ensures u.meta == read.meta && u.links == read.links
    ensures u.rtype == r.rtype && u.delete == r.delete && u.commitMeta == r.commitMeta && u.invalid == r.invalid
  {
    r.(id := read.id, attributes := read.attributes, relationships := read.relationships,
       meta := read.meta, links := read.links)
  }

  /** `_post_commit(status, result, location)`: with 200 or 201 the resource takes the
      state of `read` (`session.read(result, location).resource`); whatever the status it is
      then marked clean; with 202 the read resource is also returned. */
  function PostCommit(r: Resource, status: int, read: Resource): (res: Res<(Resource, Option<Resource>)>)
    ensures res.Success? ==> !Attributes.IsDirty(res.value.0.attributes) && !Relationships.RelsIsDirty(res.value.0.relationships)
    ensures res.Success? ==> (res.value.1.Some? <==> status == Http.Accepted202)
    ensures res.Success? && res.value.1.Some? ==> res.value.1.value == read
    ensures res.Success? ==> res.value.0.id == (if Http.HasResource(status) then read.id else r.id)
    ensures res.Success? ==>
      (Assoc.Keys(res.value.0.attributes.entries) ==
       Assoc.Keys((if Http.HasResource(status) then read else r).attributes.entries))
    ensures WF(if Http.HasResource(status) then read else r) ==> res.Success?
  {
    var updated := if Http.HasResource(status) then UpdateResource(r, read) else r;
    CleanableIfWF(updated);
    var cleaned :- MarkClean(updated);
    Success((cleaned, if status == Http.Accepted202 then Some(read) else None))
  }

  lemma CleanableIfWF(r: Resource)
    ensures WF(r) ==> MarkClean(r).Success?
  {
    if WF(r) {
      Attributes.MarkCleanSound(r.attributes);
    }
  }

  /** A successful POST answered with 201 and a created resource leaves a clean resource
      holding the server's id and values. */
  lemma CreatedIsClean(r: Resource, read: Resource)
    requires WF(read) && read.id.Some? && !r.delete
    ensures PostCommit(r, Http.Created201, read).Success?
    ensures var c := PostCommit(r, Http.Created201, read).value.0;
      !IsDirty(c) && c.id == read.id && Attributes.ToJson(c.attributes) == Attributes.ToJson(read.attributes)
  {
    Attributes.MarkCleanSound(read.attributes);
  }

  /** 202 Accepted keeps the resource's own state (only marking it clean) and hands back
      the placeholder read from the response. */
  lemma AcceptedKeepsState(r: Resource, read: Resource)
    requires WF(r)
    ensures PostCommit(r, Http.Accepted202, read).Success?
    ensures var (c, placeholder) := PostCommit(r, Http.Accepted202, read).value;
      c.id == r.id && placeholder == Some(read) && Attributes.ToJson(c.attributes) == Attributes.ToJson(r.attributes)
  {
    Attributes.MarkCleanSound(r.attributes);
  }

  // ---------------------------------------------------------------- invalidation

  /** `mark_invalid`: the resource and both containers, all the way down. */
  function MarkInvalid(r: Resource): (i: Resource)
    ensures i.invalid && i.relationships.invalid && Attributes.AllInvalid(i.attributes)
    ensures i.id == r.id && i.rtype == r.rtype && i.delete == r.delete
    ensures Attributes.ToJson(i.attributes) == Attributes.ToJson(r.attributes)
  {
    Attributes.MarkInvalidAll(r.attributes);
    r.(invalid := true, attributes := Attributes.MarkInvalid(r.attributes),
       relationships := Relationships.RelsMarkInvalid(r.relationships))
  }

  /** An invalidated resource cannot produce a commit payload, full or not. */
  lemma InvalidCannotCommit(r: Resource, meta: Json, full: bool)
    ensures CommitData(MarkInvalid(r), meta, full) == Failure(DocumentInvalid)
  {
  }

  // ---------------------------------------------------------------- commit URL

  /** `_pre_commit(url)` as written: `url or self.post_url if POST else self.url` groups
      as `(url or post_url) if POST else url_of_resource`, so a PATCH ignores the caller's
      URL. The schema validation it also performs is `PreCommitValidates`. */
  function PreCommitUrlAsWritten(env: Env, r: Resource, url: string): (u: Option<string>)
    ensures HttpMethod(r) == Http.Post ==> u == Some(if url != "" then url else PostUrl(env, r))
    ensures HttpMethod(r) == Http.Patch ==> u == Url(env, r)
  {
    if HttpMethod(r) == Http.Post then Some(if url != "" then url else PostUrl(env, r))
    else Url(env, r)
  }

  /** A PATCH commit with a custom URL is sent to the resource's own URL instead. */
  lemma PreCommitIgnoresCustomUrl(env: Env, r: Resource)
    requires IdTruthy(r) && !Objects.LinkTruthy(Objects.LinksGet(r.links, "self"))
    ensures PreCommitUrlAsWritten(env, r, "custom") != Some("custom")
  {
    UrlFromIdentifier(env, r);
    var u := PostUrl(env, r) + "/" + r.id.value;
    assert u[|env.urlPrefix|] == '/';
    assert '/' !in "custom";
  }

  /** The target `commit(custom_url)` documents: the caller's URL whenever one is given,
      else the collection URL for a POST and the resource's URL for a PATCH. */
  function PreCommitUrl(env: Env, r: Resource, url: string): (u: Option<string>)
    ensures url != "" ==> u == Some(url)
    ensures url == "" ==> u == PreCommitUrlAsWritten(env, r, url)
  {
    if url != "" then Some(url)
    else if HttpMethod(r) == Http.Post then Some(PostUrl(env, r))
    else Url(env, r)
  }

  /** The corrected target agrees with the written one everywhere except a PATCH with a
      custom URL. */
  lemma PreCommitUrlAgrees(env: Env, r: Resource, url: string)
    ensures PreCommitUrl(env, r, url) != PreCommitUrlAsWritten(env, r, url) ==>
      url != "" && HttpMethod(r) == Http.Patch
  {
  }

  /** `_pre_commit` also validates the attributes; without a schema that never fails. */
  function PreCommitValidates(env: Env, r: Resource): (v: Res<()>)
    ensures !Schemas.IsEnabled(env.schema) ==> v.Success?
    ensures v.Failure? ==> v.error.ValidationError?
  {
    Schemas.Validate(env.schema, r.rtype, Attributes.ToJson(r.attributes), env.conforms)
  }
}

=== FILE: schema.dfy ===
/** The session's model schemas (`Schema`): a dict from resource type to a JSON-Schema
    document, and the lookup of the specification of a dotted attribute path in it. */
module Schemas {
  import opened Wrappers
  import opened Errors
  import opened Json
  import opened Strings
  import Assoc

  /** `Schema(schema_data)`: `None`, or a dict from resource type to its schema. */
  datatype Schema = Schema(data: Option<Fields>)

  /** `is_enabled`: the schema data is a non-empty dict. */
  predicate IsEnabled(s: Schema) {
    s.data.Some? && |s.data.value| > 0
  }

  /** `add_model_schema(data)`: the given types' schemas are merged into the dict and
      replace earlier ones of the same type; without schema data there is no dict to update. */
  function AddModelSchema(s: Schema, data: Fields): (r: Res<Schema>)
    requires Assoc.DistinctKeys(data)
    ensures r.Failure? <==> s.data.None?
    ensures r.Success? ==> forall t :: t in Assoc.Keys(data) ==> Some(SchemaForModel(r.value, t)) == Assoc.Get(data, t)
    ensures r.Success? && IsEnabled(s) ==>
      forall t :: t !in Assoc.Keys(data) ==> SchemaForModel(r.value, t) == SchemaForModel(s, t)
  {
    if s.data.None? then Failure(AttributeError("update"))
    else
      var merged := Assoc.Update(s.data.value, data);
      assert |data| > 0 ==> Assoc.Get(merged, data[0].0).Some?;
      assert IsEnabled(s) ==> Assoc.Get(merged, s.data.value[0].0).Some?;
      Success(Schema(Some(merged)))
  }

  /** `schema_for_model`: the type's schema when enabled (`None` for an unknown type),
      `{}` when disabled. */
  function SchemaForModel(s: Schema, modelType: string): (r: Json)
    ensures !IsEnabled(s) ==> r == Empty
    ensures IsEnabled(s) && modelType !in Assoc.Keys(s.data.value) ==> r == JNull
    ensures IsEnabled(s) && modelType in Assoc.Keys(s.data.value) ==>
      Some(r) == Assoc.Get(s.data.value, modelType)
  {
    if !IsEnabled(s) then Empty
    else match Assoc.Get(s.data.value, modelType)
      case Some(m) => m
      case None => JNull
  }

  /** `v[k]` on a JSON value: a missing key of an object raises `KeyError`, any other value
      is not subscriptable by a string. */
  function Subscript(v: Json, k: string): (r: Res<Json>)
    ensures r.Success? <==> v.JObj? && k in Assoc.Keys(v.fields)
    ensures r.Success? ==> Some(r.value) == Assoc.Get(v.fields, k)
    ensures v.JObj? && k !in Assoc.Keys(v.fields) ==> r == Failure(KeyError(k))
  {
    if !v.JObj? then Failure(TypeError("not subscriptable"))
    else match Assoc.Get(v.fields, k)
      case Some(x) => Success(x)
      case None => Failure(KeyError(k))
  }

  /** The `for a in attr_struct` loop of `find_spec`: at each segment `model['properties']`
      is read and `.get(segment)` taken from it. `Success(None)` is the early `return {}`
      for a segment that is missing or null. */
  function Walk(model: Json, segs: seq<string>): Res<Option<Json>>
    decreases |segs|
  {
    if |segs| == 0 then Success(Some(model))
    else
      var props :- Subscript(model, "properties");
      if !props.JObj? then Failure(AttributeError("get"))
      else match Assoc.Get(props.fields, segs[0])
        case None => Success(None)
        case Some(next) => if next == JNull then Success(None) else Walk(next, segs[1..])
  }

  /** `find_spec(model_name, attribute_name)` */
  function FindSpec(s: Schema, modelName: string, attr: string): (r: Res<Json>)
    ensures attr == "meta" || EndsWith(attr, ".meta") ==> r == Success(Empty)
    ensures !Truthy(SchemaForModel(s, modelName)) ==> r == Success(Empty)
    ensures attr == "" ==>
      r == Success(if Truthy(SchemaForModel(s, modelName)) then SchemaForModel(s, modelName) else Empty)
  {
    if attr == "meta" || (attr != "" && EndsWith(attr, ".meta")) then Success(Empty)
    else
      var model := SchemaForModel(s, modelName);
      if !Truthy(model) then Success(Empty)
      else if attr == "" then Success(model)
      else
        var found :- Walk(model, Split(attr, '.'));
        Success(if found.None? then Empty else found.value)
  }

  /** `validate(model_type, data)`; `conforms` stands for `jsonschema.validate`, which the
      library calls only when the type has a (truthy) schema. */
  function Validate(s: Schema, modelType: string, data: Json, conforms: (Json, Json) -> bool)
    : (r: Res<()>)
    ensures !IsEnabled(s) ==> r.Success?
    ensures r.Failure? <==> Truthy(SchemaForModel(s, modelType)) && !conforms(data, SchemaForModel(s, modelType))
    ensures r.Failure? ==> r.error.ValidationError?
  {
    var schema := SchemaForModel(s, modelType);
    if !Truthy(schema) then Success(())
    else if conforms(data, schema) then Success(())
    else Failure(ValidationError("does not conform to the schema"))
  }

  // ---------------------------------------------------------------- walking lemmas

  /** Walking a path in two parts walks the first part, and from what it reached, the
      second; an early stop or an error in the first part is the overall outcome. */
  lemma {:induction false} WalkCompose(model: Json, a: seq<string>, b: seq<string>)
    ensures Walk(model, a + b) ==
      match Walk(model, a)
      case Success(Some(x)) => Walk(x, b)
      case other => other
    decreases |a|
  {
    if |a| > 0 {
      assert (a + b)[0] == a[0];
      assert (a + b)[1..] == a[1..] + b;
      var props := Subscript(model, "properties");
      if props.Success? && props.value.JObj? {
        match Assoc.Get(props.value.fields, a[0])
        case None =>
        case Some(next) =>
          if next != JNull {
            WalkCompose(next, a[1..], b);
          }
      }
    } else {
      assert a + b == b;
    }
  }

  /** One step of the walk: a present, non-null property is descended into. */
  lemma WalkStep(model: Json, seg: string)
    requires model.JObj? && Assoc.Get(model.fields, "properties").Some?
    requires Assoc.Get(model.fields, "properties").value.JObj?
    ensures Walk(model, [seg]) ==
      match Assoc.Get(Assoc.Get(model.fields, "properties").value.fields, seg)
      case Some(next) => Success(if next == JNull then None else Some(next))
      case None => Success(None)
  {
    var props := Assoc.Get(model.fields, "properties").value;
    match Assoc.Get(props.fields, seg)
    case None =>
    case Some(next) =>
      if next != JNull {
        assert [seg][1..] == [];
      }
  }

  /** Whatever the walk reaches lies strictly inside the model: two levels (`properties`,
      then the member) per segment. */
  lemma {:induction false} WalkSmaller(model: Json, segs: seq<string>)
    requires Walk(model, segs).Success? && Walk(model, segs).value.Some?
    ensures Size(Walk(model, segs).value.value) + 2 * |segs| <= Size(model)
    decreases |segs|
  {
    if |segs| > 0 {
      var props := Subscript(model, "properties").value;
      var next := Assoc.Get(props.fields, segs[0]).value;
      MemberSmaller(model.fields, "properties");
      MemberSmaller(props.fields, segs[0]);
      WalkSmaller(next, segs[1..]);
    }
  }

  /** A segment the model's `properties` lack ends the lookup with the empty spec, even
      when more segments follow. */
  lemma FindSpecMissing(s: Schema, modelName: string, first: string, rest: string)
    requires '.' !in first
    requires !EndsWith(first + "." + rest, ".meta")
    requires Truthy(SchemaForModel(s, modelName))
    requires Subscript(SchemaForModel(s, modelName), "properties").Success?
    requires Subscript(SchemaForModel(s, modelName), "properties").value.JObj?
    requires first !in Assoc.Keys(Subscript(SchemaForModel(s, modelName), "properties").value.fields)
    ensures FindSpec(s, modelName, first + "." + rest) == Success(Empty)
  {
    var attr := first + "." + rest;
    assert attr == first + ['.'] + rest;
    SplitPrefix(first, rest, '.');
    assert attr[|first|] == '.';
    assert '.' !in "meta";
  }

  /** The spec of `parent.child` is found by one more step from the spec of `parent`,
      when the spec of `parent` was reached by the walk (not by an early stop). */
  lemma FindSpecChild(s: Schema, modelName: string, parent: string, child: string)
    requires parent != "" && '.' !in child
    requires !EndsWith(parent + "." + child, ".meta") && parent != "meta" && !EndsWith(parent, ".meta")
    requires Truthy(SchemaForModel(s, modelName))
    requires Walk(SchemaForModel(s, modelName), Split(parent, '.')).Success?
    requires Walk(SchemaForModel(s, modelName), Split(parent, '.')).value.Some?
    ensures FindSpec(s, modelName, parent).Success?
    ensures Walk(SchemaForModel(s, modelName), Split(parent + "." + child, '.')) ==
      Walk(FindSpec(s, modelName, parent).value, [child])
  {
    var model := SchemaForModel(s, modelName);
    var attr := parent + "." + child;
    assert attr == parent + ['.'] + child;
    SplitAround(parent, child, '.');
    SplitLackingSep(child, '.');
    WalkCompose(model, Split(parent, '.'), [child]);
  }
}

=== FILE: session.dfy ===
/** `Session`: the cache of resources and documents a session keeps, the construction of
    new resources from keyword fields, and the URLs of its requests. Python object identity
    matters here, since a resource held by a cache is the same object a caller holds: the
    model keeps resources in a heap indexed by references and the caches hold references. */
module Sessions {
  import opened Wrappers
  import opened Errors
  import opened Json
  import opened Strings
  import Assoc
  import Utils
  import Objects
  import Modifiers
  import Schemas
  import Http
  import Relationships
  import Attributes
  import Resources

  /** The identity of a Python object. */
  type Ref = nat

  /** The key of `resources_by_resource_identifier`: `(type, id)`. */
  type Identity = (string, Option<string>)

  /** A session: its environment, the async flag, the objects (resources, and the invalid
      flag of each document) and the three caches, as insertion-ordered dicts. */
  datatype Session = Session(
    env: Resources.Env,
    isAsync: bool,
    heap: map<Ref, Resources.Resource>,
    documents: map<Ref, bool>,
    byIdentity: seq<(Identity, Ref)>,
    byLink: seq<(string, Ref)>,
    documentsByLink: seq<(string, Ref)>)

  /** The objects a cache holds (`d.values()`). */
  function Refs<K>(xs: seq<(K, Ref)>): set<Ref> {
    set i | 0 <= i < |xs| :: xs[i].1
  }

  /** The same objects in the cache's order. */
  function Values<K>(xs: seq<(K, Ref)>): (vs: seq<Ref>)
    ensures forall r :: r in vs <==> r in Refs(xs)
  {
    var vs := seq(|xs|, i requires 0 <= i < |xs| => xs[i].1);
    assert forall i :: 0 <= i < |xs| ==> vs[i] == xs[i].1;
    vs
  }

  /** The session's bookkeeping: the caches are dicts, hold live objects, and the link
      cache never holds the empty link (`add_resources` skips falsy links). */
  predicate WF(s: Session) {
    && Assoc.DistinctKeys(s.byIdentity)
    && Assoc.DistinctKeys(s.byLink)
    && Assoc.DistinctKeys(s.documentsByLink)
    && Refs(s.byIdentity) <= s.heap.Keys
    && Refs(s.byLink) <= s.heap.Keys
    && Refs(s.documentsByLink) <= s.documents.Keys
    && "" !in Assoc.Keys(s.byLink)
  }

  /** `Session(...)`: all three caches start empty. */
  function NewSession(env: Resources.Env, isAsync: bool): (s: Session)
    ensures WF(s)
    ensures s.byIdentity == [] && s.byLink == [] && s.documentsByLink == []
  {
    Session(env, isAsync, map[], map[], [], [], [])
  }

  /** `(res.type, res.id)` */
  function IdentityOf(r: Resources.Resource): Identity {
    (r.rtype, r.id)
  }

  /** `res.url` when it is truthy: the key of the link cache. */
  predicate HasLinkKey(env: Resources.Env, r: Resources.Resource) {
    Resources.Url(env, r).Some? && Resources.Url(env, r).value != ""
  }

  // ---------------------------------------------------------------- cache lemmas

  lemma PutRefs<K(!new)>(xs: seq<(K, Ref)>, k: K, v: Ref)
    ensures Refs(Assoc.Put(xs, k, v)) <= Refs(xs) + {v}
  {
    Assoc.PutEntries(xs, k, v);
    forall r | r in Refs(Assoc.Put(xs, k, v)) ensures r in Refs(xs) + {v} {
      var i :| 0 <= i < |Assoc.Put(xs, k, v)| && Assoc.Put(xs, k, v)[i].1 == r;
      if Assoc.Put(xs, k, v)[i] != (k, v) {
        var j :| 0 <= j < |xs| && xs[j] == Assoc.Put(xs, k, v)[i];
        assert xs[j].1 == r;
      }
    }
  }

  lemma RemoveRefs<K(!new)>(xs: seq<(K, Ref)>, k: K)
    ensures Refs(Assoc.Remove(xs, k)) <= Refs(xs)
  {
    Assoc.RemoveEntries(xs, k);
    forall r | r in Refs(Assoc.Remove(xs, k)) ensures r in Refs(xs) {
      var i :| 0 <= i < |Assoc.Remove(xs, k)| && Assoc.Remove(xs, k)[i].1 == r;
      var j :| 0 <= j < |xs| && xs[j] == Assoc.Remove(xs, k)[i];
      assert xs[j].1 == r;
    }
  }

  // ---------------------------------------------------------------- add_resources

  /** The link `add_resources` indexes a resource under: its `self` link's URL when that
      link is truthy, otherwise `res.url`. */
  function LinkKey(env: Resources.Env, r: Resources.Resource): Option<string> {
    var self := Objects.LinksGet(r.links, "self");
    if Objects.LinkTruthy(self) then Some(Objects.LinkUrl(self, env.serverUrl)) else Resources.Url(env, r)
  }

  /** Both branches of the link choice are the resource's URL: a truthy `self` link is what
      `url` returns first. */
  lemma LinkKeyIsUrl(env: Resources.Env, r: Resources.Resource)
    ensures LinkKey(env, r) == Resources.Url(env, r)
  {
  }

  /** `if lnk: resources_by_link[lnk] = res` */
  function IndexLink(byLink: seq<(string, Ref)>, lnk: Option<string>, ref: Ref): (r: seq<(string, Ref)>)
    requires Assoc.DistinctKeys(byLink) && "" !in Assoc.Keys(byLink)
    ensures Assoc.DistinctKeys(r) && "" !in Assoc.Keys(r) && Refs(r) <= Refs(byLink) + {ref}
    ensures lnk.Some? && lnk.value != "" ==> Assoc.Get(r, lnk.value) == Some(ref)
    ensures forall u :: lnk != Some(u) ==> Assoc.Get(r, u) == Assoc.Get(byLink, u)
    ensures !(lnk.Some? && lnk.value != "") ==> r == byLink
  {
    if lnk.Some? && lnk.value != "" then
      Assoc.PutDistinct(byLink, lnk.value, ref);
      PutRefs(byLink, lnk.value, ref);
      Assoc.Put(byLink, lnk.value, ref)
    else byLink
  }

  /** One iteration of `add_resources`: index under `(type, id)`, and under the link when
      it is truthy. */
  function AddResource(s: Session, ref: Ref): (t: Session)
    requires WF(s) && ref in s.heap
    ensures WF(t)
    ensures t.heap == s.heap && t.documents == s.documents && t.documentsByLink == s.documentsByLink
    ensures t.env == s.env && t.isAsync == s.isAsync
  {
    var res := s.heap[ref];
    Assoc.PutDistinct(s.byIdentity, IdentityOf(res), ref);
    PutRefs(s.byIdentity, IdentityOf(res), ref);
    s.(byIdentity := Assoc.Put(s.byIdentity, IdentityOf(res), ref),
       byLink := IndexLink(s.byLink, LinkKey(s.env, res), ref))
  }

  /** The identity half of `AddResource`: the resource is found under `(type, id)`; no
      other identity changes. */
  lemma AddResourceIdentity(s: Session, ref: Ref)
    requires WF(s) && ref in s.heap
    ensures Assoc.Get(AddResource(s, ref).byIdentity, IdentityOf(s.heap[ref])) == Some(ref)
    ensures forall k :: k != IdentityOf(s.heap[ref]) ==>
      Assoc.Get(AddResource(s, ref).byIdentity, k) == Assoc.Get(s.byIdentity, k)
  {
  }

  /** The link half of `AddResource`: the resource is found under its URL when that is
      truthy; no other link changes. */
  lemma AddResourceLink(s: Session, ref: Ref)
    requires WF(s) && ref in s.heap
    ensures HasLinkKey(s.env, s.heap[ref]) ==>
      Assoc.Get(AddResource(s, ref).byLink, Resources.Url(s.env, s.heap[ref]).value) == Some(ref)
    ensures forall u :: Resources.Url(s.env, s.heap[ref]) != Some(u) ==>
      Assoc.Get(AddResource(s, ref).byLink, u) == Assoc.Get(s.byLink, u)
    ensures !HasLinkKey(s.env, s.heap[ref]) ==> AddResource(s, ref).byLink == s.byLink
  {
    LinkKeyIsUrl(s.env, s.heap[ref]);
  }

  /** The resource `add_resources(*refs)` leaves under an identity key: the last of them
      with that key, if any. */
  function LastWithIdentity(heap: map<Ref, Resources.Resource>, refs: seq<Ref>, k: Identity): Option<Ref>
    requires forall i :: 0 <= i < |refs| ==> refs[i] in heap
  {
    if |refs| == 0 then None
    else if IdentityOf(heap[refs[|refs| - 1]]) == k then Some(refs[|refs| - 1])
    else LastWithIdentity(heap, refs[..|refs| - 1], k)
  }

  /** The resource `add_resources(*refs)` leaves under a link: the last of them whose
      truthy URL it is, if any. */
  function LastWithLink(env: Resources.Env, heap: map<Ref, Resources.Resource>, refs: seq<Ref>, u: string): Option<Ref>
    requires forall i :: 0 <= i < |refs| ==> refs[i] in heap
  {
    if |refs| == 0 then None
    else if HasLinkKey(env, heap[refs[|refs| - 1]]) && Resources.Url(env, heap[refs[|refs| - 1]]) == Some(u) then
      Some(refs[|refs| - 1])
    else LastWithLink(env, heap, refs[..|refs| - 1], u)
  }

  /** `add_resources(*refs)`: each key ends up with the last resource indexed under it;
      keys none of them has keep their entry. */
  function AddResources(s: Session, refs: seq<Ref>): (t: Session)
    requires WF(s) && forall i :: 0 <= i < |refs| ==> refs[i] in s.heap
    ensures WF(t)
    ensures t.heap == s.heap && t.documents == s.documents && t.documentsByLink == s.documentsByLink
    ensures t.env == s.env && t.isAsync == s.isAsync
    decreases |refs|
  {
    if |refs| == 0 then s
    else AddResource(AddResources(s, refs[..|refs| - 1]), refs[|refs| - 1])
  }

  /** After `add_resources(*refs)`, an identity key holds the last of them with that key,
      or, if none has it, what it held before. */
  lemma {:induction false} AddResourcesIdentity(s: Session, refs: seq<Ref>, k: Identity)
    requires WF(s) && forall i :: 0 <= i < |refs| ==> refs[i] in s.heap
    ensures Assoc.Get(AddResources(s, refs).byIdentity, k) ==
      if LastWithIdentity(s.heap, refs, k).Some? then LastWithIdentity(s.heap, refs, k) else Assoc.Get(s.byIdentity, k)
    decreases |refs|
  {
    if |refs| > 0 {
      AddResourcesIdentity(s, refs[..|refs| - 1], k);
    }
  }

  /** After `add_resources(*refs)`, a link holds the last of them whose truthy URL it is,
      or, if none, what it held before. */
  lemma {:induction false} AddResourcesLink(s: Session, refs: seq<Ref>, u: string)
    requires WF(s) && forall i :: 0 <= i < |refs| ==> refs[i] in s.heap
    ensures Assoc.Get(AddResources(s, refs).byLink, u) ==
      if LastWithLink(s.env, s.heap, refs, u).Some? then LastWithLink(s.env, s.heap, refs, u) else Assoc.Get(s.byLink, u)
    decreases |refs|
  {
    if |refs| > 0 {
      AddResourcesLink(s, refs[..|refs| - 1], u);
      AddResourceLink(AddResources(s, refs[..|refs| - 1]), refs[|refs| - 1]);
    }
  }

  /** Every resource added is found under its own identity unless a later one shares it. */
  lemma {:induction false} AddedAreCached(s: Session, refs: seq<Ref>, i: nat)
    requires WF(s) && forall j :: 0 <= j < |refs| ==> refs[j] in s.heap
    requires i < |refs|
    requires forall j :: i < j < |refs| ==> IdentityOf(s.heap[refs[j]]) != IdentityOf(s.heap[refs[i]])
    ensures Assoc.Get(AddResources(s, refs).byIdentity, IdentityOf(s.heap[refs[i]])) == Some(refs[i])
    decreases |refs|
  {
    if i < |refs| - 1 {
      var pre := refs[..|refs| - 1];
      AddedAreCached(s, pre, i);
      assert pre[i] == refs[i];
    }
  }

  // ---------------------------------------------------------------- remove_resource

  /** `remove_resource(res)`: `del` under `(type, id)`, then `del` under `res.url`. Either
      raises `KeyError` when its key is absent; the first deletion stays done when the
      second raises. */
  function RemoveResource(s: Session, ref: Ref): (r: (Session, Option<Error>))
    requires WF(s) && ref in s.heap
    ensures WF(r.0)
    ensures r.0.heap == s.heap && r.0.documents == s.documents && r.0.documentsByLink == s.documentsByLink
    ensures r.1.None? <==>
      IdentityOf(s.heap[ref]) in Assoc.Keys(s.byIdentity) && HasLinkKey(s.env, s.heap[ref])
      && Resources.Url(s.env, s.heap[ref]).value in Assoc.Keys(s.byLink)
    ensures r.1.Some? ==> r.1.value.KeyError?
    ensures IdentityOf(s.heap[ref]) !in Assoc.Keys(s.byIdentity) ==> r.0 == s
    ensures IdentityOf(s.heap[ref]) in Assoc.Keys(s.byIdentity) ==>
      && IdentityOf(s.heap[ref]) !in Assoc.Keys(r.0.byIdentity)
      && forall k :: k != IdentityOf(s.heap[ref]) ==> Assoc.Get(r.0.byIdentity, k) == Assoc.Get(s.byIdentity, k)
    ensures r.1.Some? ==> r.0.byLink == s.byLink
    ensures r.1.None? ==>
      && Resources.Url(s.env, s.heap[ref]).value !in Assoc.Keys(r.0.byLink)
      && forall u :: u != Resources.Url(s.env, s.heap[ref]).value ==> Assoc.Get(r.0.byLink, u) == Assoc.Get(s.byLink, u)
  {
    var res := s.heap[ref];
    var key := IdentityOf(res);
    if key !in Assoc.Keys(s.byIdentity) then (s, Some(KeyError("(type, id)")))
    else
      Assoc.RemoveGone(s.byIdentity, key);
      RemoveRefs(s.byIdentity, key);
      var s1 := s.(byIdentity := Assoc.Remove(s.byIdentity, key));
      var url := Resources.Url(s.env, res);
      if url.None? || url.value !in Assoc.Keys(s.byLink) then (s1, Some(KeyError("url")))
      else
        Assoc.RemoveGone(s.byLink, url.value);
        RemoveRefs(s.byLink, url.value);
        (s1.(byLink := Assoc.Remove(s.byLink, url.value)), None)
  }

  /** Removing a resource just added succeeds when it has a truthy URL, and leaves both
      caches as they were apart from its two keys. */
  lemma RemoveAfterAdd(s: Session, ref: Ref)
    requires WF(s) && ref in s.heap && HasLinkKey(s.env, s.heap[ref])
    ensures var r := RemoveResource(AddResource(s, ref), ref);
      && r.1.None?
      && IdentityOf(s.heap[ref]) !in Assoc.Keys(r.0.byIdentity)
      && Resources.Url(s.env, s.heap[ref]).value !in Assoc.Keys(r.0.byLink)
      && (forall k :: k != IdentityOf(s.heap[ref]) ==> Assoc.Get(r.0.byIdentity, k) == Assoc.Get(s.byIdentity, k))
      && (forall u :: u != Resources.Url(s.env, s.heap[ref]).value ==> Assoc.Get(r.0.byLink, u) == Assoc.Get(s.byLink, u))
  {
    AddResourceLink(s, ref);
  }

  /** A cached resource without a truthy URL cannot be removed cleanly: the identity entry
      goes, then `KeyError` for the link, which was never cached. */
  lemma RemoveWithoutLinkFails(s: Session, ref: Ref)
    requires WF(s) && ref in s.heap && !HasLinkKey(s.env, s.heap[ref])
    requires IdentityOf(s.heap[ref]) in Assoc.Keys(s.byIdentity)
    ensures RemoveResource(s, ref).1.Some?
    ensures IdentityOf(s.heap[ref]) !in Assoc.Keys(RemoveResource(s, ref).0.byIdentity)
  {
  }

  // ---------------------------------------------------------------- invalidate

  /** What `mark_invalid()` leaves of a resource, however often it ran: the resource and
      every container in it are invalid, and its identity and attribute values are kept. */
  predicate Invalidated(before: Resources.Resource, after: Resources.Resource) {
    && after.invalid && after.relationships.invalid && Attributes.AllInvalid(after.attributes)
    && after.id == before.id && after.rtype == before.rtype
    && Attributes.ToJson(after.attributes) == Attributes.ToJson(before.attributes)
  }

  /** `mark_invalid()` on each object of `refs` in turn. */
  function MarkAll(heap: map<Ref, Resources.Resource>, refs: seq<Ref>): (h: map<Ref, Resources.Resource>)
    ensures h.Keys == heap.Keys
    ensures forall r :: r in heap && r in refs ==> Invalidated(heap[r], h[r])
    ensures forall r :: r in heap && r !in refs ==> h[r] == heap[r]
    decreases |refs|
  {
    if |refs| == 0 then heap
    else
      var h := MarkAll(heap, refs[..|refs| - 1]);
      var last := refs[|refs| - 1];
      assert forall r :: r in refs ==> r in refs[..|refs| - 1] || r == last;
      if last in h then h[last := Resources.MarkInvalid(h[last])] else h
  }

  /** `invalidate()`: every cached document and resource is marked invalid (a resource
      cached twice is marked twice), then the three caches are cleared. Objects outside the
      caches are untouched. */
  function Invalidate(s: Session): (t: Session)
    requires WF(s)
    ensures WF(t)
    ensures t.byIdentity == [] && t.byLink == [] && t.documentsByLink == []
    ensures t.heap.Keys == s.heap.Keys && t.documents.Keys == s.documents.Keys
    ensures forall r :: r in s.heap && (r in Refs(s.byLink) || r in Refs(s.byIdentity)) ==>
      Invalidated(s.heap[r], t.heap[r])
    ensures forall r :: r in s.heap && r !in Refs(s.byLink) && r !in Refs(s.byIdentity) ==> t.heap[r] == s.heap[r]
    ensures forall d :: d in s.documents ==> t.documents[d] == (s.documents[d] || d in Refs(s.documentsByLink))
  {
    var refs := Values(s.byLink) + Values(s.byIdentity);
    assert forall r :: r in refs <==> r in Refs(s.byLink) || r in Refs(s.byIdentity);
    var docs := map d | d in s.documents :: s.documents[d] || d in Refs(s.documentsByLink);
    s.(heap := MarkAll(s.heap, refs), documents := docs, byIdentity := [], byLink := [], documentsByLink := [])
  }

  /** After `invalidate()`, a resource the session had cached cannot be committed: its
      attribute container raises `DocumentInvalid`. */
  lemma InvalidatedCannotCommit(s: Session, ref: Ref, meta: Json, full: bool)
    requires WF(s) && ref in Refs(s.byIdentity)
    ensures Resources.CommitData(Invalidate(s).heap[ref], meta, full) == Failure(DocumentInvalid)
  {
    var r := Invalidate(s).heap[ref];
    assert r.attributes.invalid;
  }

  // ---------------------------------------------------------------- dirty_resources

  /** A resource of the identity cache that waits for a commit. */
  predicate CachedDirty(s: Session, ref: Ref)
    requires WF(s)
  {
    ref in Refs(s.byIdentity) && Resources.IsDirty(s.heap[ref])
  }

  /** `dirty_resources`: the set of cached resources whose `is_dirty` holds. */
  method DirtyResources(s: Session) returns (d: set<Ref>)
    requires WF(s)
    ensures forall ref :: ref in d <==> CachedDirty(s, ref)
  {
    d := {};
    var i := 0;
    while i < |s.byIdentity|
      invariant 0 <= i <= |s.byIdentity|
      invariant forall ref :: ref in d <==>
        exists j :: 0 <= j < i && s.byIdentity[j].1 == ref && Resources.IsDirty(s.heap[ref])
    {
      var ref := s.byIdentity[i].1;
      assert ref in Refs(s.byIdentity);
      if Resources.IsDirty(s.heap[ref]) {
        d := d + {ref};
      }
      i := i + 1;
    }
  }

  /** `is_dirty`: some cached resource is dirty. */
  method SessionIsDirty(s: Session) returns (b: bool)
    requires WF(s)
    ensures b <==> exists ref :: CachedDirty(s, ref)
  {
    var d := DirtyResources(s);
    b := d != {};
    if b {
      var ref :| ref in d;
      assert CachedDirty(s, ref);
    }
  }

  /** A resource not yet created on the server is among the dirty ones once cached. */
  lemma AddedNewIsDirty(s: Session, ref: Ref)
    requires WF(s) && ref in s.heap && s.heap[ref].id.None?
    ensures CachedDirty(AddResource(s, ref), ref)
  {
    var t := AddResource(s, ref);
    var k := IdentityOf(s.heap[ref]);
    var i :| 0 <= i < |t.byIdentity| && t.byIdentity[i] == (k, ref);
    assert ref in Refs(t.byIdentity);
  }

  /** After `invalidate()` nothing is waiting for a commit. */
  lemma InvalidateLeavesNothingDirty(s: Session, ref: Ref)
    requires WF(s)
    ensures !CachedDirty(Invalidate(s), ref)
  {
  }

  // ---------------------------------------------------------------- _value_to_dict

  /** A `ResourceObject`, `ResourceIdentifier` or `ResourceTuple` given as a relationship
      target: what `_value_to_dict` reads of it is its `id` and `type`. */
  datatype Target = Target(id: Option<string>, rtype: Option<string>)

  /** A value `_value_to_dict` receives: one of the typed objects, or anything else, which
      it takes as a plain id. */
  datatype Value = Typed(t: Target) | Plain(j: Json)

  function OptJson(s: Option<string>): Json {
    if s.Some? then JStr(s.value) else JNull
  }

  /** `_value_to_dict(value, resource_types)`: a typed value must be of the single allowed
      type (or among the allowed ones), a plain id needs exactly one truthy allowed type. */
  function ValueToDict(v: Value, types: seq<Json>): (r: Res<Json>)
    ensures v.Typed? ==> (r.Success? <==> |types| == 0 || OptJson(v.t.rtype) in types)
    ensures v.Typed? && r.Failure? ==> r.error.TypeError?
    ensures v.Plain? ==> (r.Success? <==> |types| == 1 && Truthy(types[0]))
    ensures v.Plain? && r.Failure? ==> r.error.ValueError?
    ensures r.Success? ==> r.value.JObj? && Assoc.Keys(r.value.fields) == ["id", "type"]
    ensures r.Success? && v.Typed? ==>
      r.value.fields[0].1 == OptJson(v.t.id) && r.value.fields[1].1 == OptJson(v.t.rtype)
    ensures r.Success? && v.Plain? ==> r.value.fields[0].1 == v.j && r.value.fields[1].1 == types[0]
  {
    var single := |types| == 1 && Truthy(types[0]);
    match v
    case Typed(t) =>
      var tj := OptJson(t.rtype);
      if single && tj != types[0] then Failure(TypeError("Invalid resource type"))
      else if |types| > 0 && tj !in types then Failure(TypeError("Invalid resource type"))
      else Success(JObj([("id", OptJson(t.id)), ("type", tj)]))
    case Plain(j) =>
      if !single then Failure(ValueError("Use ResourceTuple to identify types if there are more than 1 type"))
      else Success(JObj([("id", j), ("type", types[0])]))
  }

  /** `[_value_to_dict(id_, res_types) for id_ in value]`: the first failure is raised. */
  function ValuesToDicts(vs: seq<Value>, types: seq<Json>): (r: Res<seq<Json>>)
    ensures r.Success? <==> forall i :: 0 <= i < |vs| ==> ValueToDict(vs[i], types).Success?
    ensures r.Success? ==> |r.value| == |vs|
    ensures r.Success? ==> forall i :: 0 <= i < |vs| ==> r.value[i] == ValueToDict(vs[i], types).value
    decreases |vs|
  {
    if |vs| == 0 then Success([])
    else
      var d :- ValueToDict(vs[0], types);
      var ds :- ValuesToDicts(vs[1..], types);
      assert forall i :: 1 <= i < |vs| ==> vs[i] == vs[1..][i - 1];
      Success([d] + ds)
  }

  // ---------------------------------------------------------------- create

  /** A keyword or `fields` value given to `create`: a JSON value, one typed object, or a
      list of targets. */
  datatype FieldValue = Given(j: Json) | Object(t: Target) | List(vs: seq<Value>)

  /** The `data` member of a relationship `create` builds: a typed object or a string is
      one identifier, any other iterable (a list, or a dict by its keys) a list of them, and
      anything else (such as `None`) is kept as it is. */
  function RelationData(v: FieldValue, types: seq<Json>): (r: Res<Json>)
    ensures v.Object? ==> r == ValueToDict(Typed(v.t), types)
    ensures v.Given? && v.j.JStr? ==> r == ValueToDict(Plain(v.j), types)
    ensures v.List? && r.Success? ==> r.value.JArr? && |r.value.items| == |v.vs|
    ensures v.Given? && v.j.JArr? && r.Success? ==> r.value.JArr? && |r.value.items| == |v.j.items|
    ensures v.Given? && !(v.j.JStr? || v.j.JArr? || v.j.JObj?) ==> r == Success(v.j)
  {
    match v
    case Object(t) => ValueToDict(Typed(t), types)
    case List(vs) =>
      var ds :- ValuesToDicts(vs, types);
      Success(JArr(ds))
    case Given(j) =>
      match j
      case JStr(_) => ValueToDict(Plain(j), types)
      case JArr(items) =>
        var ds :- ValuesToDicts(seq(|items|, i requires 0 <= i < |items| => Plain(items[i])), types);
        Success(JArr(ds))
      case JObj(fields) =>
        var ds :- ValuesToDicts(seq(|fields|, i requires 0 <= i < |fields| => Plain(JStr(fields[i].0))), types);
        Success(JArr(ds))
      case _ => Success(j)
  }

  /** Walking nested objects along a path of keys. */
  function Lookup(j: Json, path: seq<string>): Option<Json>
    decreases |path|
  {
    if |path| == 0 then Some(j)
    else match Member(j, path[0])
      case None => None
      case Some(c) => Lookup(c, path[1..])
  }

  /** Whether every container the path passes through is missing or an object. */
  predicate Settable(a: Fields, path: seq<string>)
    decreases |path|
  {
    |path| <= 1 ||
    match Assoc.Get(a, path[0])
    case None => true
    case Some(c) => c.JObj? && Settable(c.fields, path[1..])
  }

  /** The attribute loop of `create` for one dotted key: `a[k] = a.get(k, {})` down the
      path, then `a[last] = value`. A non-dict on the way fails: `.get` is missing on it
      (`AttributeError`), or, as the last container, it takes no item assignment
      (`TypeError`). */
  function SetPath(a: Fields, path: seq<string>, v: Json): (r: Res<Fields>)
    requires |path| >= 1
    ensures r.Success? <==> Settable(a, path)
    ensures r.Success? ==> Lookup(JObj(r.value), path) == Some(v)
    ensures r.Success? ==> forall k :: k != path[0] ==> Assoc.Get(r.value, k) == Assoc.Get(a, k)
    ensures r.Success? ==> Assoc.Keys(r.value) == if path[0] in Assoc.Keys(a) then Assoc.Keys(a) else Assoc.Keys(a) + [path[0]]
    ensures r.Failure? ==> r.error.TypeError? || r.error.AttributeError?
    decreases |path|
  {
    if |path| == 1 then Success(Assoc.Put(a, path[0], v))
    else
      var child := Assoc.Get(a, path[0]).GetOr(Empty);
      if !child.JObj? then Failure(if |path| == 2 then TypeError("item assignment") else AttributeError("get"))
      else
        var inner :- SetPath(child.fields, path[1..], v);
        Success(Assoc.Put(a, path[0], JObj(inner)))
  }

  /** The nested object holding `v` at the end of `path`, and nothing else. */
  function Nest(path: seq<string>, v: Json): Fields
    requires |path| >= 1
    decreases |path|
  {
    if |path| == 1 then [(path[0], v)] else [(path[0], JObj(Nest(path[1..], v)))]
  }

  /** Into an empty dict, a dotted key writes exactly the nested objects of its path. */
  lemma {:induction false} SetPathEmpty(path: seq<string>, v: Json)
    requires |path| >= 1
    ensures SetPath([], path, v) == Success(Nest(path, v))
    decreases |path|
  {
    if |path| > 1 {
      SetPathEmpty(path[1..], v);
    }
  }

  /** The name a `create` argument stands for: a key of the `fields` dict as it is, a
      keyword argument translated by `jsonify_name`. */
  function FieldName(key: string, fieldKeys: seq<string>): string {
    if key in fieldKeys then key else Utils.JsonifyName(key)
  }

  /** Every member of the relationships `create` builds is `{'data': ...}`. */
  predicate RelsShaped(rels: Fields) {
    forall i :: 0 <= i < |rels| ==> rels[i].1.JObj? && Assoc.Keys(rels[i].1.fields) == ["data"]
  }

  /** The `for key, value in more_fields.items()` loop of `create`: a name whose property
      in the type's schema is a relation becomes a relationship, any other is written into
      the attributes along its dotted path. `schema['properties']` is read for every item,
      so without a schema the first item raises. */
  function CreateFields(model: Json, fieldKeys: seq<string>, items: seq<(string, FieldValue)>,
                        attrs: Fields, rels: Fields): (r: Res<(Fields, Fields)>)
    requires RelsShaped(rels)
    ensures r.Success? ==> RelsShaped(r.value.1)
    ensures |items| > 0 && !(model.JObj? && "properties" in Assoc.Keys(model.fields)) ==> r.Failure?
    ensures |items| == 0 ==> r == Success((attrs, rels))
    decreases |items|
  {
    if |items| == 0 then Success((attrs, rels))
    else
      var name := FieldName(items[0].0, fieldKeys);
      var value := items[0].1;
      var allProps :- Schemas.Subscript(model, "properties");
      if !allProps.JObj? then Failure(AttributeError("get"))
      else
        var props := Assoc.Get(allProps.fields, name).GetOr(Empty);
        var isRelation :- Relationships.HasKey(props, "relation");
        if isRelation then
          var resTypes :- Schemas.Subscript(props, "resource");
          if !resTypes.JArr? then Failure(TypeError("resource types"))
          else
            var data :- RelationData(value, resTypes.items);
            var rels' := Assoc.Put(rels, name, JObj([("data", data)]));
            Assoc.PutEntries(rels, name, JObj([("data", data)]));
            CreateFields(model, fieldKeys, items[1..], attrs, rels')
        else if !value.Given? then Failure(TypeError("not a JSON value"))
        else
          var attrs' :- SetPath(attrs, Split(name, '.'), value.j);
          CreateFields(model, fieldKeys, items[1..], attrs', rels)
  }

  /** The attributes and relationships `create` builds from its arguments: `fields` is
      merged over the keyword arguments, and the loop runs over the merged dict. */
  function CreateItems(s: Session, rtype: string, fields: seq<(string, FieldValue)>,
                       moreFields: seq<(string, FieldValue)>): (r: Res<(Fields, Fields)>)
    requires Assoc.DistinctKeys(fields)
    ensures r.Success? ==> RelsShaped(r.value.1)
  {
    CreateFields(Schemas.SchemaForModel(s.env.schema, rtype), Assoc.Keys(fields), Assoc.Update(moreFields, fields), [], [])
  }

  /** The merge of `create`: `more_fields.update(fields)` holds the keyword keys in their
      order followed by the keys only `fields` has, in `fields`' order; a key of `fields` takes
      its value from `fields`, and only the keyword keys are jsonified. */
  lemma CreateItemsMerge(s: Session, rtype: string, fields: seq<(string, FieldValue)>,
                         moreFields: seq<(string, FieldValue)>, merged: seq<(string, FieldValue)>)
    requires Assoc.DistinctKeys(fields) && Assoc.DistinctKeys(moreFields)
    requires Assoc.Keys(merged) == Assoc.Keys(moreFields) + Assoc.NewKeys(Assoc.Keys(moreFields), Assoc.Keys(fields))
    requires forall k :: Assoc.Get(merged, k) ==
                         (if k in Assoc.Keys(fields) then Assoc.Get(fields, k) else Assoc.Get(moreFields, k))
    ensures CreateItems(s, rtype, fields, moreFields) ==
      CreateFields(Schemas.SchemaForModel(s.env.schema, rtype), Assoc.Keys(fields), merged, [], [])
  {
    var u := Assoc.Update(moreFields, fields);
    Assoc.UpdateKeys(moreFields, fields);
    Assoc.UpdateDistinct(moreFields, fields);
    Assoc.SameEntries(u, merged);
  }

  /** The `data` dict `create` hands to `ResourceObject`, with the member names as
      parameters (`Resources.PayloadNames` gives the actual ones). */
  function NewData(n: Resources.Names, rtype: string, attrs: Fields, rels: Fields): Fields {
    var d1 := Assoc.Put([], n.rtype, JStr(rtype));
    var d2 := Assoc.Put(d1, n.id, JNull);
    var d3 := Assoc.Put(d2, n.attributes, JObj(attrs));
    Assoc.Put(d3, n.relationships, JObj(rels))
  }

  lemma NewDataLookups(n: Resources.Names, rtype: string, attrs: Fields, rels: Fields)
    requires Resources.DistinctNames(n)
    ensures var d := NewData(n, rtype, attrs, rels);
      && Assoc.Get(d, n.rtype) == Some(JStr(rtype)) && Assoc.Get(d, n.id) == Some(JNull)
      && Assoc.Get(d, n.attributes) == Some(JObj(attrs)) && Assoc.Get(d, n.relationships) == Some(JObj(rels))
  {
  }

  /** `create(resource_type, fields, **more_fields)`: an unsaved resource, which is dirty
      and would be POSTed. `fields` defaults to `{}`. */
  function Create(s: Session, rtype: string, fields: Option<seq<(string, FieldValue)>>,
                  moreFields: seq<(string, FieldValue)>): (r: Res<Resources.Resource>)
    requires fields.Some? ==> Assoc.DistinctKeys(fields.value)
    ensures r.Success? ==> CreateItems(s, rtype, fields.GetOr([]), moreFields).Success?
    ensures r.Success? ==>
      && r.value.id.None? && r.value.rtype == rtype
      && Resources.IsDirty(r.value) && Resources.HttpMethod(r.value) == Http.Post
  {
    var built :- CreateItems(s, rtype, fields.GetOr([]), moreFields);
    var n := Resources.PayloadNames;
    assert Resources.DistinctNames(n);
    NewDataLookups(n, rtype, built.0, built.1);
    Resources.ResourceFrom(s.env, JObj(NewData(n, rtype, built.0, built.1)))
  }

  /** Without a schema for the type, `create` with any field fails: `schema['properties']`
      raises on the empty (or missing) model. */
  lemma CreateNeedsSchema(s: Session, rtype: string, fields: seq<(string, FieldValue)>,
                          moreFields: seq<(string, FieldValue)>)
    requires Assoc.DistinctKeys(fields)
    requires !Schemas.IsEnabled(s.env.schema) || rtype !in Assoc.Keys(s.env.schema.data.value)
    requires |fields| > 0
    ensures CreateItems(s, rtype, fields, moreFields).Failure?
  {
    var merged := Assoc.Update(moreFields, fields);
    assert Assoc.Get(merged, fields[0].0) == Assoc.Get(fields, fields[0].0);
    assert |merged| > 0;
  }

  /** A single attribute field: its name is split on dots into nested objects. */
  lemma CreateOneAttribute(model: Json, fieldKeys: seq<string>, key: string, v: Json)
    requires model.JObj? && Assoc.Get(model.fields, "properties").Some?
    requires Assoc.Get(model.fields, "properties").value.JObj?
    requires Assoc.Get(Assoc.Get(model.fields, "properties").value.fields, FieldName(key, fieldKeys)).None?
    ensures CreateFields(model, fieldKeys, [(key, Given(v))], [], []) ==
      Success((Nest(Split(FieldName(key, fieldKeys), '.'), v), []))
  {
    SetPathEmpty(Split(FieldName(key, fieldKeys), '.'), v);
  }

  /** A single relation field: its name's property spec has `relation` and lists the
      allowed `resource` types, and the field becomes `{'data': identifier}`. */
  lemma CreateOneRelation(model: Json, fieldKeys: seq<string>, key: string, t: Target, spec: Fields, types: seq<Json>)
    requires model.JObj? && Assoc.Get(model.fields, "properties").Some?
    requires Assoc.Get(model.fields, "properties").value.JObj?
    requires Assoc.Get(Assoc.Get(model.fields, "properties").value.fields, FieldName(key, fieldKeys)) == Some(JObj(spec))
    requires "relation" in Assoc.Keys(spec) && Assoc.Get(spec, "resource") == Some(JArr(types))
    requires ValueToDict(Typed(t), types).Success?
    ensures CreateFields(model, fieldKeys, [(key, Object(t))], [], []) ==
      Success(([], [(FieldName(key, fieldKeys), JObj([("data", ValueToDict(Typed(t), types).value)]))]))
  {
    var name := FieldName(key, fieldKeys);
    var allProps := Assoc.Get(model.fields, "properties").value;
    assert Schemas.Subscript(model, "properties") == Success(allProps);
    assert Relationships.HasKey(JObj(spec), "relation") == Success(true);
    assert Schemas.Subscript(JObj(spec), "resource") == Success(JArr(types));
    var data := ValueToDict(Typed(t), types).value;
    assert RelationData(Object(t), types) == Success(data);
    Assoc.PutNew([], name, JObj([("data", data)]));
    assert [(key, Object(t))][1..] == [];
  }

  /** `create('articles', a__b=1)` nests `{'a': {'b': 1}}`, while
      `create('articles', fields={'a__b': 1})` keeps the name `a__b`. */
  lemma KeywordVersusFieldsExample(model: Json)
    requires model.JObj? && Assoc.Get(model.fields, "properties") == Some(Empty)
    ensures CreateFields(model, [], [("a__b", Given(JNum(1)))], [], []) ==
      Success(([("a", JObj([("b", JNum(1))]))], []))
    ensures CreateFields(model, ["a__b"], [("a__b", Given(JNum(1)))], [], []) ==
      Success(([("a__b", JNum(1))], []))
  {
    assert "a__b" == "a" + ("__" + "b");
    Strings.ReplaceSkip("a", "__" + "b", "__", ".");
    Strings.ReplaceFront("b", "__", ".");
    Strings.ReplaceLacking("b", "__", ".");
    assert "a" + ("." + "b") == "a.b";
    Strings.ReplaceLacking("a.b", "_", "-");
    assert Utils.JsonifyName("a__b") == "a.b";
    assert "a.b" == "a" + "." + "b";
    SplitAround("a", "b", '.');
    SplitLackingSep("a", '.');
    SplitLackingSep("b", '.');
    SplitLackingSep("a__b", '.');
    CreateOneAttribute(model, [], "a__b", JNum(1));
    CreateOneAttribute(model, ["a__b"], "a__b", JNum(1));
  }

  // ---------------------------------------------------------------- URLs and modes

  /** `_url_for_resource(type, id, filter)`: `prefix/type`, then `/id` when an id is
      given, then the modifier's query (a modifier object is always truthy). */
  function UrlForResource(s: Session, rtype: string, id: Option<string>, filter: Option<Modifiers.Modifier>): (u: string)
    ensures StartsWith(u, s.env.urlPrefix + "/" + rtype)
    ensures filter.None? ==> u == s.env.urlPrefix + "/" + rtype + (if id.Some? then "/" + id.value else "")
    ensures filter.Some? ==>
      u == Modifiers.UrlWithModifiers(filter.value, s.env.urlPrefix + "/" + rtype + (if id.Some? then "/" + id.value else ""))
  {
    var base := s.env.urlPrefix + "/" + rtype;
    var url := if id.Some? then base + ("/" + id.value) else base;
    StartsWithConcat(base, if id.Some? then "/" + id.value else "");
    if filter.Some? then
      var u := Modifiers.UrlWithModifiers(filter.value, url);
      StartsWithShorter(u, url, "?");
      StartsWithShorter(u, base, if id.Some? then "/" + id.value else "");
      u
    else url
  }

  /** The second argument of `get`: an id or a modifier. */
  datatype IdOrFilter = IdArg(id: Option<string>) | FilterArg(m: Modifiers.Modifier)

  /** `_resource_type_and_filter`: a modifier is the filter, anything else the id. */
  function ResourceTypeAndFilter(x: IdOrFilter): (r: (Option<string>, Option<Modifiers.Modifier>))
    ensures r.1.Some? <==> x.FilterArg?
    ensures r.1.Some? ==> r.0.None? && r.1.value == x.m
    ensures x.IdArg? ==> r.0 == x.id
  {
    match x
    case IdArg(id) => (id, None)
    case FilterArg(m) => (None, Some(m))
  }

  /** The URL `get(type, id)` fetches is the URL of a resource with that id and no `self`
      link. */
  lemma GetUrlIsResourceUrl(s: Session, r: Resources.Resource)
    requires !Objects.LinkTruthy(Objects.LinksGet(r.links, "self")) && Resources.IdTruthy(r)
    ensures var a := ResourceTypeAndFilter(IdArg(r.id));
      Some(UrlForResource(s, r.rtype, a.0, a.1)) == Resources.Url(s.env, r)
  {
    var base := s.env.urlPrefix + "/" + r.rtype;
    assert base + ("/" + r.id.value) == base + "/" + r.id.value;
  }

  const SyncMessage := "In synchronous mode, resources shall be fetched manually"
  const AsyncMessage := "Call this method only in asynchronous mode"

  /** `_assert_sync(msg)`: `AsyncError` with `msg or` the default message in async mode. */
  function AssertSync(s: Session, msg: string): (r: Res<()>)
    ensures r.Failure? <==> s.isAsync
    ensures r.Failure? ==> r.error == AsyncError(if msg != "" then msg else SyncMessage)
  {
    if s.isAsync then Failure(AsyncError(if msg != "" then msg else SyncMessage)) else Success(())
  }

  /** `_assert_async(msg)`: `AsyncError` with `msg or` the default message in sync mode. */
  function AssertAsync(s: Session, msg: string): (r: Res<()>)
    ensures r.Failure? <==> !s.isAsync
    ensures r.Failure? ==> r.error == AsyncError(if msg != "" then msg else AsyncMessage)
  {
    if !s.isAsync then Failure(AsyncError(if msg != "" then msg else AsyncMessage)) else Success(())
  }

  /** Exactly one of the two mode assertions raises, whatever the session. */
  lemma ModesExclusive(s: Session, m1: string, m2: string)
    ensures AssertSync(s, m1).Failure? != AssertAsync(s, m2).Failure?
  {
  }
}

=== FILE: strings.dfy ===
/** The handful of Python `str` operations the library relies on, with Python's semantics. */
module Strings {
  import opened Wrappers

  /** `s.startswith(p)` */
  predicate StartsWith(s: string, p: string) {
    |p| <= |s| && s[..|p|] == p
  }

  /** A string starts with each of its prefixes. */
  lemma StartsWithConcat(p: string, q: string)
    ensures StartsWith(p + q, p)
  {
    assert (p + q)[..|p|] == p;
  }

  /** A string starting with `p + q` starts with `p`. */
  lemma StartsWithShorter(s: string, p: string, q: string)
    requires StartsWith(s, p + q)
    ensures StartsWith(s, p)
  {
    assert s[..|p|] == (p + q)[..|p|];
  }

  /** `s.endswith(p)` */
  predicate EndsWith(s: string, p: string) {
    |p| <= |s| && s[|s| - |p|..] == p
  }

  /** `s.replace(pat, rep)` for a non-empty pattern: non-overlapping occurrences, left to right. */
  function Replace(s: string, pat: string, rep: string): (r: string)
    requires |pat| > 0
    ensures pat == rep ==> r == s
    decreases |s|
  {
    if |s| < |pat| then s
    else if s[..|pat|] == pat then rep + Replace(s[|pat|..], pat, rep)
    else [s[0]] + Replace(s[1..], pat, rep)
  }

  /** A prefix that cannot start an occurrence of the pattern is copied unchanged. */
  lemma {:induction false} ReplaceSkip(a: string, b: string, pat: string, rep: string)
    requires |pat| > 0 && pat[0] !in a
    ensures Replace(a + b, pat, rep) == a + Replace(b, pat, rep)
    decreases |a|
  {
    if |a| > 0 {
      var s := a + b;
      assert s[0] == a[0] && s[1..] == a[1..] + b;
      if |s| >= |pat| {
        assert s[..|pat|][0] == a[0];
      }
      ReplaceSkip(a[1..], b, pat, rep);
    } else {
      assert a + b == b;
    }
  }

  /** A text lacking the pattern's first character is left as it is. */
  lemma ReplaceLacking(s: string, pat: string, rep: string)
    requires |pat| > 0 && pat[0] !in s
    ensures Replace(s, pat, rep) == s
  {
    ReplaceSkip(s, "", pat, rep);
    assert s + "" == s;
  }

  /** An occurrence at the front is replaced. */
  lemma ReplaceFront(b: string, pat: string, rep: string)
    requires |pat| > 0
    ensures Replace(pat + b, pat, rep) == rep + Replace(b, pat, rep)
  {
    var s := pat + b;
    assert s[..|pat|] == pat && s[|pat|..] == b;
  }

  /** `s.split(sep)` for a one-character separator: never empty, `"".split(sep) == [""]`. */
  function Split(s: string, sep: char): (r: seq<string>)
    ensures |r| >= 1
    decreases |s|
  {
    if |s| == 0 then [""]
    else if s[0] == sep then [""] + Split(s[1..], sep)
    else
      var rest := Split(s[1..], sep);
      [[s[0]] + rest[0]] + rest[1..]
  }

  /** `sep.join(parts)` for a one-character separator. */
  function Join(sep: char, parts: seq<string>): string
  {
    if |parts| == 0 then ""
    else if |parts| == 1 then parts[0]
    else parts[0] + [sep] + Join(sep, parts[1..])
  }

  /** `s.split(sep, maxsplit=1)` unpacked into two names: `None` when `s` holds no `sep`
      (Python raises while unpacking a one-element list). */
  function SplitFirst(s: string, sep: char): (r: Option<(string, string)>)
    ensures r.None? <==> sep !in s
    ensures r.Some? ==> sep !in r.value.0 && s == r.value.0 + [sep] + r.value.1
    decreases |s|
  {
    if |s| == 0 then None
    else if s[0] == sep then Some(("", s[1..]))
    else match SplitFirst(s[1..], sep)
      case None => None
      case Some((a, b)) => Some(([s[0]] + a, b))
  }

  /** No piece of a split holds the separator. */
  lemma {:induction false} SplitPiecesLackSep(s: string, sep: char)
    ensures forall i :: 0 <= i < |Split(s, sep)| ==> sep !in Split(s, sep)[i]
    decreases |s|
  {
    if |s| > 0 {
      SplitPiecesLackSep(s[1..], sep);
    }
  }

  /** Joining the pieces of a split gives back the string. */
  lemma {:induction false} JoinSplit(s: string, sep: char)
    ensures Join(sep, Split(s, sep)) == s
    decreases |s|
  {
    if |s| == 0 {
    } else if s[0] == sep {
      JoinSplit(s[1..], sep);
      var rest := Split(s[1..], sep);
      assert Split(s, sep) == [""] + rest;
      assert s == "" + [sep] + s[1..];
    } else {
      JoinSplit(s[1..], sep);
      var rest := Split(s[1..], sep);
      var r := Split(s, sep);
      assert r == [[s[0]] + rest[0]] + rest[1..];
      if |rest| == 1 {
        assert Join(sep, rest) == rest[0];
      } else {
        assert Join(sep, rest) == rest[0] + [sep] + Join(sep, rest[1..]);
        assert r[1..] == rest[1..];
      }
    }
  }

  /** Splitting a join of separator-free pieces gives back the pieces. */
  lemma {:induction false} SplitJoin(parts: seq<string>, sep: char)
    requires |parts| >= 1
    requires forall i :: 0 <= i < |parts| ==> sep !in parts[i]
    ensures Split(Join(sep, parts), sep) == parts
    decreases |parts|
  {
    if |parts| == 1 {
      SplitLackingSep(parts[0], sep);
    } else {
      SplitJoin(parts[1..], sep);
      SplitPrefix(parts[0], Join(sep, parts[1..]), sep);
      assert [parts[0]] + parts[1..] == parts;
    }
  }

  /** A string without the separator splits into itself. */
  lemma {:induction false} SplitLackingSep(s: string, sep: char)
    requires sep !in s
    ensures Split(s, sep) == [s]
    decreases |s|
  {
    if |s| > 0 {
      SplitLackingSep(s[1..], sep);
      assert [s[0]] + s[1..] == s;
    }
  }

  /** A separator-free prefix followed by the separator becomes the first piece. */
  lemma {:induction false} SplitPrefix(a: string, b: string, sep: char)
    requires sep !in a
    ensures Split(a + [sep] + b, sep) == [a] + Split(b, sep)
    decreases |a|
  {
    if |a| == 0 {
      assert a + [sep] + b == [sep] + b;
      assert ([sep] + b)[1..] == b;
    } else {
      SplitPrefix(a[1..], b, sep);
      var s := a + [sep] + b;
      assert s[0] == a[0];
      assert s[1..] == a[1..] + [sep] + b;
      assert [a[0]] + a[1..] == a;
    }
  }

  /** One step of `Split` on a string given as head and tail. */
  lemma SplitCons(c: char, t: string, sep: char)
    ensures Split([c] + t, sep) ==
      if c == sep then [""] + Split(t, sep)
      else [[c] + Split(t, sep)[0]] + Split(t, sep)[1..]
  {
    assert ([c] + t)[1..] == t;
  }

  /** Splitting a concatenation around a separator concatenates the splits. */
  lemma {:induction false} SplitAround(a: string, b: string, sep: char)
    ensures Split(a + [sep] + b, sep) == Split(a, sep) + Split(b, sep)
    decreases |a|
  {
    if |a| == 0 {
      assert a + [sep] + b == [sep] + b;
      SplitCons(sep, b, sep);
    } else {
      var s := a + [sep] + b;
      assert s[0] == a[0];
      assert s[1..] == a[1..] + [sep] + b;
      SplitAround(a[1..], b, sep);
      if a[0] != sep {
        HeadMerge([a[0]], Split(a[1..], sep), Split(b, sep));
      }
    }
  }

  /** Extending the first piece of a list of pieces commutes with appending more pieces. */
  lemma HeadMerge<T>(x: seq<T>, y: seq<seq<T>>, z: seq<seq<T>>)
    requires |y| >= 1
    ensures [x + (y + z)[0]] + (y + z)[1..] == ([x + y[0]] + y[1..]) + z
  {
    assert (y + z)[1..] == y[1..] + z;
  }

  /** `SplitFirst` finds the first separator. */
  lemma {:induction false} SplitFirstAt(a: string, b: string, sep: char)
    requires sep !in a
    ensures SplitFirst(a + [sep] + b, sep) == Some((a, b))
    decreases |a|
  {
    if |a| == 0 {
      assert a + [sep] + b == [sep] + b;
      assert ([sep] + b)[1..] == b;
    } else {
      var s := a + [sep] + b;
      assert s[0] == a[0] && a[0] != sep;
      assert s[1..] == a[1..] + [sep] + b;
      SplitFirstAt(a[1..], b, sep);
      assert [a[0]] + a[1..] == a;
    }
  }

  /** Joining two non-empty lists puts one separator between the two joins. */
  lemma {:induction false} JoinConcat(sep: char, xs: seq<string>, ys: seq<string>)
    requires |xs| > 0 && |ys| > 0
    ensures Join(sep, xs + ys) == Join(sep, xs) + [sep] + Join(sep, ys)
    decreases |xs|
  {
    if |xs| == 1 {
      assert (xs + ys)[1..] == ys;
    } else {
      JoinConcat(sep, xs[1..], ys);
      assert (xs + ys)[1..] == xs[1..] + ys;
    }
  }
}

=== FILE: utils.dfy ===
/** Translation between JSON field names (`my-attr`, `group.item`) and Python identifiers
    (`my_attr`, `group__item`) used by the attribute proxies. */
module Utils {
  import opened Strings

  /** `jsonify_name`: every `__` (left to right, non-overlapping) becomes `.`, then every
      remaining `_` becomes `-`. */
  function JsonifyName(name: string): (r: string)
    ensures '_' !in r
  {
    var r := Replace(Replace(name, "__", "."), "_", "-");
    ReplaceRemovesChar(Replace(name, "__", "."), '_', "-");
    r
  }

  /** `pythonify_name`: every `.` becomes `__`, then every `-` becomes `_`. */
  function PythonifyName(name: string): (r: string)
    ensures '.' !in r && '-' !in r
  {
    var inner := Replace(name, ".", "__");
    ReplaceRemovesChar(name, '.', "__");
    ReplaceKeepsAbsent(inner, "-", "_", '.');
    ReplaceRemovesChar(inner, '-', "_");
    Replace(inner, "-", "_")
  }

  /** `jsonify_names`: element-wise, same length and order. */
  function JsonifyNames(names: seq<string>): (r: seq<string>)
    ensures |r| == |names|
    ensures forall i :: 0 <= i < |names| ==> r[i] == JsonifyName(names[i])
  {
    if |names| == 0 then [] else [JsonifyName(names[0])] + JsonifyNames(names[1..])
  }

  /** `pythonify_names`: element-wise, same length and order. */
  function PythonifyNames(names: seq<string>): (r: seq<string>)
    ensures |r| == |names|
    ensures forall i :: 0 <= i < |names| ==> r[i] == PythonifyName(names[i])
  {
    if |names| == 0 then [] else [PythonifyName(names[0])] + PythonifyNames(names[1..])
  }

  /** Replacing a one-character pattern by text without it leaves no occurrence. */
  lemma {:induction false} ReplaceRemovesChar(s: string, c: char, rep: string)
    requires c !in rep
    ensures c !in Replace(s, [c], rep)
    decreases |s|
  {
    if |s| >= 1 {
      ReplaceRemovesChar(s[1..], c, rep);
    }
  }

  /** Replacing never introduces a character absent from the text and the replacement. */
  lemma {:induction false} ReplaceKeepsAbsent(s: string, pat: string, rep: string, c: char)
    requires |pat| > 0 && c !in s && c !in rep
    ensures c !in Replace(s, pat, rep)
    decreases |s|
  {
    if |s| >= |pat| {
      if s[..|pat|] == pat {
        ReplaceKeepsAbsent(s[|pat|..], pat, rep, c);
      } else {
        ReplaceKeepsAbsent(s[1..], pat, rep, c);
      }
    }
  }

  /** `jsonify_name` one leading character (or `__` pair) at a time. */
  lemma JsonifyStep(s: string)
    requires |s| > 0
    ensures StartsWith(s, "__") ==> JsonifyName(s) == "." + JsonifyName(s[2..])
    ensures !StartsWith(s, "__") && s[0] == '_' ==> JsonifyName(s) == "-" + JsonifyName(s[1..])
    ensures s[0] != '_' ==> JsonifyName(s) == [s[0]] + JsonifyName(s[1..])
  {
    var inner := Replace(s, "__", ".");
    if StartsWith(s, "__") {
      assert inner == "." + Replace(s[2..], "__", ".");
      assert Replace(inner, "_", "-") == "." + Replace(inner[1..], "_", "-");
      assert inner[1..] == Replace(s[2..], "__", ".");
    } else if |s| < 2 {
      assert inner == s;
      assert Replace(s[1..], "__", ".") == "";
      if s[0] == '_' {
        assert Replace(inner, "_", "-") == "-" + Replace(inner[1..], "_", "-");
      } else {
        assert Replace(inner, "_", "-") == [s[0]] + Replace(inner[1..], "_", "-");
      }
    } else {
      assert inner == [s[0]] + Replace(s[1..], "__", ".");
      assert inner[1..] == Replace(s[1..], "__", ".");
      if s[0] == '_' {
        assert Replace(inner, "_", "-") == "-" + Replace(inner[1..], "_", "-");
      } else {
        assert Replace(inner, "_", "-") == [s[0]] + Replace(inner[1..], "_", "-");
      }
    }
  }

  /** `pythonify_name` one leading character at a time. */
  lemma PythonifyStep(s: string)
    requires |s| > 0
    ensures s[0] == '.' ==> PythonifyName(s) == "__" + PythonifyName(s[1..])
    ensures s[0] == '-' ==> PythonifyName(s) == "_" + PythonifyName(s[1..])
    ensures s[0] != '.' && s[0] != '-' ==> PythonifyName(s) == [s[0]] + PythonifyName(s[1..])
  {
    var inner := Replace(s, ".", "__");
    var rest := Replace(s[1..], ".", "__");
    if s[0] == '.' {
      assert inner == "__" + rest;
      assert Replace(inner, "-", "_") == "_" + Replace(inner[1..], "-", "_");
      assert inner[1..] == "_" + rest;
      assert Replace(inner[1..], "-", "_") == "_" + Replace(rest, "-", "_");
    } else {
      assert inner == [s[0]] + rest;
      assert inner[1..] == rest;
      if s[0] == '-' {
        assert Replace(inner, "-", "_") == "_" + Replace(rest, "-", "_");
      } else {
        assert Replace(inner, "-", "_") == [s[0]] + Replace(rest, "-", "_");
      }
    }
  }

  /** For a Python identifier-like name (no `.` or `-`), translating to the JSON name and
      back is the identity: the round trip the field proxies rely on. */
  lemma {:induction false} PythonifyJsonify(s: string)
    requires '.' !in s && '-' !in s
    ensures PythonifyName(JsonifyName(s)) == s
    decreases |s|
  {
    if |s| > 0 {
      JsonifyStep(s);
      if StartsWith(s, "__") {
        PythonifyJsonify(s[2..]);
        PythonifyStep("." + JsonifyName(s[2..]));
        assert ("." + JsonifyName(s[2..]))[1..] == JsonifyName(s[2..]);
        assert s == "__" + s[2..];
      } else if s[0] == '_' {
        PythonifyJsonify(s[1..]);
        PythonifyStep("-" + JsonifyName(s[1..]));
        assert ("-" + JsonifyName(s[1..]))[1..] == JsonifyName(s[1..]);
        assert s == "_" + s[1..];
      } else {
        PythonifyJsonify(s[1..]);
        PythonifyStep([s[0]] + JsonifyName(s[1..]));
        assert ([s[0]] + JsonifyName(s[1..]))[1..] == JsonifyName(s[1..]);
        assert s == [s[0]] + s[1..];
      }
    }
  }

  /** The round trip lifted to the key lists the proxies list (`keys_python`). */
  lemma {:induction false} PythonifyJsonifyNames(names: seq<string>)
    requires forall i :: 0 <= i < |names| ==> '.' !in names[i] && '-' !in names[i]
    ensures PythonifyNames(JsonifyNames(names)) == names
  {
    forall i | 0 <= i < |names|
      ensures PythonifyNames(JsonifyNames(names))[i] == names[i]
    {
      PythonifyJsonify(names[i]);
    }
  }

  /** A name without `_` is already in JSON form. */
  lemma JsonifyPlain(name: string)
    requires '_' !in name
    ensures JsonifyName(name) == name
  {
    ReplaceLacking(name, "__", ".");
    ReplaceLacking(name, "_", "-");
  }

  /** The opposite direction is not a round trip: `-.` and `.-` both pythonify to `___`,
      which jsonifies to `.-`. */
  lemma PythonifyNotInjective()
    ensures PythonifyName("-.") == PythonifyName(".-") == "___"
    ensures JsonifyName("___") == ".-"
  {
    PythonifyStep("-.");
    PythonifyStep(".");
    PythonifyStep(".-");
    PythonifyStep("-");
    JsonifyStep("___");
    JsonifyStep("_");
  }
}

=== FILE: wrappers.dfy ===
/** Failure-compatible wrapper types shared by every module of the model. */
module Wrappers {

  /** An optional value; stands for Python's `None` versus a present value. */
  datatype Option<+T> = None | Some(value: T) {

    predicate IsFailure() {
      None?
    }

    function PropagateFailure<U>(): Option<U>
      requires None?
    {
      None
    }

    function Extract(): T
      requires Some?
    {
      value
    }

    function GetOr(default: T): T {
      match this
      case Some(v) => v
      case None => default
    }
  }

  /** The outcome of an operation that may raise; `Failure` carries the exception. */
  datatype Result<+R, +E> = Success(value: R) | Failure(error: E) {

    predicate IsFailure() {
      Failure?
    }

    function PropagateFailure<U>(): Result<U, E>
      requires Failure?
    {
      Failure(error)
    }

    function Extract(): R
      requires Success?
    {
      value
    }
  }
}
